=== FILE: README.md ===
# CampusVibes in Dafny

A Dafny model of the rule-bearing core of CampusVibes, a campus social network: an Express/Mongoose backend with socket.io notifications and a React client. The model covers the backend's request handlers and the client's state updates, and proves properties about them.

The document store becomes one object, `Store.Db`. It holds a map from id to record for each collection and a counter that issues fresh ids. Each handler becomes a method that changes only the collections its `modifies` clause names, and ties the new state to a pure function of the old state. Each HTTP reply becomes an `Outcome`: a status and a payload, or a status and a message. Each client page or component with state becomes a class whose methods are its handlers, or a set of functions where the code only computes.

The modules follow the repository's structure:

- `Models` holds the stored records: users, posts and comments, notifications, follow requests, groups, chats and messages, each enum with its parser.
- `Strings` and `Lists` hold the JavaScript string and array operations the code relies on, and the store's array updates.
- `Store` is the document store.
- `Auth` is the decoded token that authMiddleware puts on `req.user`.
- `SocialGraph`, `Profiles`, `FollowRequests` and `Accounts` cover the follow relation, the profile and user controllers, and the follow-request state machine.
- `Posts`, `Paging` and `Moderation` cover the post lifecycle, pagination and the blocked-word filters.
- `Messaging` and `Groups` cover chats, direct messages and groups.
- `Notifications` and `Realtime` cover the notification routes and the socket handlers that decide who is notified.
- `Uploads` and `Validation` cover the MIME filters and the registration and login schemas.
- `Chatbot`, `Admin` and `Dashboard` cover the campus assistant, the admin user routes and the gender tally.
- `TextFormat`, `Feed`, `MessagesView`, `GroupChatView`, `UsersDirectory`, `PostComposer`, `RegisterForm`, `ProfileView` and `PostCardView` cover the client.

Where the documentation and the code disagree, the model follows the code. Every route and page method is modelled as written: a handler that reads the caller is modelled for the value it reads, and its route applies it to what authMiddleware actually puts on `req.user`. In five places the code evidently does not do what its authors meant. Each is listed under "## Findings", and there the model also gives a corrected version, with the intended property proved of it.

## Model

| member | source | states |
|---|---|---|
| Models.ParseGender | backend/models/User.js:31-35 | the enum check accepts exactly the three stored names, and what it accepts names the gender it returns |
| Models.ParseUserType | backend/models/User.js:41-45 | the enum check accepts exactly "student" and "faculty", each as its own type |
| Models.ParsePostType | backend/models/Post.js:11-15 | the enum check accepts exactly the four post types, each as its own type |
| Models.NewUser | backend/models/User.js:4-62 | a new user gets the schema defaults (role user, not approved, public, empty follower, following and post lists) and the setters' effect: trimmed name and about text, lower-cased trimmed e-mail |
| Models.NewPost | backend/models/Post.js:4-59 | a new post is pending with no likes and no comments; a caption is kept exactly when one was given, trimmed |
| Models.NewNotification | backend/models/Notification.js:4-14 | a new notification is unread and carries the given recipient, sender, type, post and message |
| Strings.Lower | backend/middleware/filterPosts.js:8-12 | `toLowerCase` keeps the length and maps every character through the ASCII case mapping |
| Strings.LowerIdempotent | frontend/src/components/UsersList.jsx:77-78 | lower-casing an already lower-cased string changes nothing |
| Strings.Trim | frontend/src/components/PostCard.jsx:87 | `trim` returns a part of the string that neither starts nor ends with whitespace |
| Strings.TrimIsSlice | frontend/src/components/PostCard.jsx:87 | the trimmed string is the part of the original left between a blank front and a blank back |
| Strings.TrimEmptyIffBlank | frontend/src/pages/Messages.jsx:176 | `!s.trim()` holds exactly when the string is empty or whitespace only |
| Strings.TrimIdempotent | backend/models/Post.js:45 | trimming a trimmed string changes nothing, so the store's trim setter is stable |
| Strings.StartsWithHead | frontend/src/components/CreatePostModal.jsx:74-81 | a string that starts with a non-empty prefix starts with that prefix's first character |
| Strings.IncludesIff | backend/middleware/filterPosts.js:16 | the `includes` scan finds a word exactly when the word occurs at some index of the text |
| Strings.IncludesEmpty | backend/middleware/filterComments.js:9 | the empty word is found in every text |
| Strings.IncludesSuffix | backend/middleware/filterPosts.js:16 | a word found in a tail of a text is found in the text |
| Strings.IncludesMiddle | backend/middleware/filterPosts.js:16 | a word is found in any text built around it |
| Strings.IncludesPrefix | backend/middleware/filterPosts.js:16 | a word found in a front part of a text is found in the text |
| Strings.ContainsAny | backend/controllers/chatbotController.js:99-101 | `some(keyword => text.includes(keyword))` holds exactly when one of the keywords is found |
| Strings.NatToString | frontend/src/pages/Messages.jsx:182 | `String(n)` is a non-empty string of decimal digits; NatToStringValue proves they denote n |
| Strings.NatToStringValue | frontend/src/pages/Messages.jsx:182 | the digits of `String(n)` denote n, and only 0 is rendered with a leading '0' |
| Strings.NatToStringInjective | frontend/src/pages/Messages.jsx:182 | different numbers are rendered as different strings |
| Strings.DigitsRoundTrip | frontend/src/pages/Messages.jsx:182 | rendering the value of a digit string without a leading zero gives that string back |
| Lists.KeysBelow | backend/routes/notificationRoutes.js:13 | the store's natural listing holds every stored id below the bound, only those, in strictly ascending (insertion) order |
| Lists.KeysBelowCount | backend/routes/admin.js:19 | the listing has one entry per stored id below the bound, as `countDocuments` counts them |
| Lists.KeysBelowAll | backend/routes/admin.js:19 | when every id is below the bound the listing is as long as the collection |
| Lists.Reversed | backend/routes/admin.js:14-17 | a reversed copy has the same length, with position i holding the element at the mirrored position |
| Lists.ReversedIncreasing | backend/routes/admin.js:14-17 | reversing the ascending listing gives a strictly descending one with the same elements (newest first) |
| Lists.Filter | frontend/src/components/UsersList.jsx:73-80 | `filter` keeps exactly the elements that pass, and keeps everything when all pass |
| Lists.FilterInOrder | frontend/src/components/UsersList.jsx:73-80 | the kept elements sit at ascending positions of the input, so `filter` keeps their order |
| Lists.FilterIncreasing | backend/controllers/postController.js:74-77 | filtering an ascending listing keeps it ascending |
| Lists.FilterAppend | frontend/src/pages/Reels.jsx:47 | filtering a concatenation is concatenating the filtered parts |
| Lists.RemoveAll | backend/controllers/profileController.js:163-168 | `$pull` removes every occurrence of the value and keeps every other element with its multiplicity |
| Lists.RemoveAllIsFilter | backend/controllers/profileController.js:163-168 | `$pull` keeps the other elements in their order: it is the filter that drops the value |
| Lists.RemoveAllAppend | backend/controllers/profileController.js:163-168 | pulling a value that was appended to a list lacking it restores the list |
| Lists.RemoveAllDistinct | backend/controllers/profileController.js:163-168 | `$pull` keeps a list free of duplicates |
| Lists.AddToSet | backend/controllers/profileController.js:141-146 | `$addToSet` appends the value exactly when it is absent, so afterwards it is present |
| Lists.AddToSetDistinct | backend/controllers/profileController.js:141-146 | `$addToSet` never creates a duplicate |
| Lists.IndexOf | backend/controllers/postController.js:130 | `indexOf` is -1 exactly when the value is absent, else the first position holding it |
| Lists.FirstIndex | frontend/src/pages/Messages.jsx:260-262 | `findIndex` is -1 exactly when no element passes, else the first position that passes |
| Lists.RemoveAt | backend/controllers/postController.js:135 | `splice(i, 1)` keeps the elements before position i in place, moves each later one down by one, and removes exactly one copy of the element at i |
| Lists.Insert | backend/controllers/postController.js:77 | inserting into a sorted listing keeps it sorted and adds exactly that element (multiset) |
| Lists.SortBy | backend/controllers/postController.js:77 | the store's `sort` returns a permutation of the listing, ascending by the key |
| Lists.SortByMembers | backend/controllers/postController.js:77 | sorting keeps exactly the same members |
| Lists.SortByDistinct | backend/controllers/messageController.js:12 | sorting a duplicate-free listing keeps it duplicate-free |
| Lists.SelectSorted | backend/controllers/messageController.js:10-12 | `find(filter).sort(key)` lists each stored id below the bound that passes the filter, once each, ordered by the key |
| Feed.Unseen | frontend/src/pages/Home.jsx:52-54 | the filtered page holds exactly the fetched posts whose `_id` the shown list lacks, in fetched order |
| Feed.Merge | frontend/src/pages/Home.jsx:51-56 | the merged list starts with the shown list unchanged, and its added part holds exactly the unseen fetched posts, in fetched order |
| Feed.MergeCoversFetched | frontend/src/pages/Home.jsx:51-56 | after a merge every fetched post's `_id` is on the list |
| Feed.MergeSeenPage | frontend/src/pages/Reels.jsx:28-33 | a page whose every post is already shown leaves the list unchanged |
| Feed.MergeIdempotent | frontend/src/pages/Home.jsx:51-56 | merging the same page twice is merging it once |
| Feed.UnseenDistinct | frontend/src/pages/Home.jsx:52-54 | a page with distinct ids filters to a part with distinct ids |
| Feed.MergeDistinct | frontend/src/pages/Home.jsx:51-56 | the merged list has distinct ids when the shown list and the page have |
| Feed.VideoPosts | frontend/src/pages/Reels.jsx:47 | the reels are exactly the listed posts of type "video", in list order |
| Feed.VideoPostsOfMerge | frontend/src/pages/Reels.jsx:28-33 | the reels after a merge are the earlier reels followed by the video posts of the unseen part |
| Feed.ClickShowMore | frontend/src/pages/Home.jsx:211-213 | the button asks for exactly the next page and touches nothing else |
| Feed.PageLoaded | frontend/src/pages/Home.jsx:45-62 | a page arriving keeps the shown posts as a prefix, takes the server's page count and ends loading |
| Feed.ClickStaysInRange | frontend/src/pages/Home.jsx:211 | a click never asks for a page past the last |
| Feed.ShowMoreWithoutReels | frontend/src/pages/Reels.jsx:106 | the reels button tests all posts, so it shows while no reel is listed |
| Paging.QueryNumber | backend/controllers/postController.js:67-68 | `parseInt(q) \|\| d` is never 0: a missing, unparsable or zero value gives the default, any other number is kept |
| Paging.PageSize | backend/controllers/postController.js:79 | the store returns at most `\|limit\|` documents, a positive count for any non-zero limit |
| Paging.CeilDiv | backend/controllers/postController.js:88 | `Math.ceil(total / limit)` for a positive limit is the least page count whose pages hold the total; a negative limit gives a count of 0 or less |
| Paging.PageWindow | backend/controllers/postController.js:78-79 | `.skip(s).limit(n)` returns the listing's elements from position s on, at most n of them, in order |
| Paging.WindowWithin | backend/controllers/postController.js:78-79 | everything on a page comes from the listing |
| Paging.PageOfIndex | backend/controllers/postController.js:67-69 | position k lies on page k / limit + 1, which is between 1 and totalPages |
| Paging.EveryElementOnAPage | backend/controllers/postController.js:84-90 | with a positive limit every element of the listing is on one of the pages 1 to totalPages |
| Store.Db.NewId | backend/controllers/postController.js:24-31 | a fresh id names no stored document of any collection, and the counter moves past it |
| Store.Db.InsertUser | backend/controllers/userController.js:27-40 | `new User(...).save()` stores the document under a fresh id and changes no other user |
| Store.Db.InsertPost | backend/controllers/postController.js:24-31 | `new Post(...).save()` stores the post under a fresh id and changes no other post |
| Store.Db.InsertRequest | backend/controllers/followRequestController.js:33-34 | `new FollowRequest(...).save()` stores the request under a fresh id |
| Store.Db.InsertNotification | backend/middleware/filterPosts.js:21-29 | `new Notification(...).save()` stores the notification under a fresh id |
| Store.Db.InsertBlockedWord | backend/routes/moderationRoutes.js:13-14 | `new BlockedWord(...).save()` stores the word under a fresh id |
| Store.Db.InsertGroup | backend/routes/groupRoutes.js:13-21 | `new Group(...).save()` stores the group under a fresh id |
| Store.Db.InsertGroupMessage | backend/routes/groupRoutes.js:91-97 | `new GroupMessage(...).save()` stores the message under a fresh id |
| Store.Db.InsertChat | backend/controllers/chatController.js:15-19 | `new Chat(...).save()` stores the chat under a fresh id |
| Store.Db.InsertMessage | backend/controllers/messageController.js:40-47 | `new Message(...).save()` stores the message under a fresh id |
| Store.Db.UpdateUsers | backend/controllers/profileController.js:118-119 | writes to existing users keep the same ids and the invariant |
| Store.Db.UpdateChats | backend/controllers/messageController.js:49-50 | writes to existing chats keep the same ids and the invariant |
| Store.Db.UpdateMessages | backend/controllers/messageController.js:65-69 | writes to existing messages keep the same ids and the invariant |
| SocialGraph.MapFollowing | backend/controllers/profileController.js:140-142 | `findByIdAndUpdate` on `following` changes only that user's list, and a missing id changes nothing |
| SocialGraph.MapFollowers | backend/controllers/profileController.js:145-147 | the same for `followers` |
| SocialGraph.AddLink | backend/controllers/profileController.js:139-147 | after the two `$addToSet` writes the follower follows the target and the target lists the follower; the two users change only by those writes and no other user changes |
| SocialGraph.RemoveLink | backend/controllers/profileController.js:161-169 | after the two `$pull` writes neither list holds the other side; the two users change only by those writes and no other user changes |
| SocialGraph.PushLink | backend/controllers/profileController.js:114-115 | the two pushes append one id to each side, with no membership test, and no other user changes |
| SocialGraph.AddLinkConsistent | backend/controllers/profileController.js:139-147 | `$addToSet` on both sides keeps following and followers in agreement |
| SocialGraph.RemoveLinkConsistent | backend/controllers/profileController.js:161-169 | `$pull` on both sides keeps following and followers in agreement |
| SocialGraph.PushLinkConsistent | backend/controllers/profileController.js:113-116 | pushing a link that neither side holds keeps the lists in agreement |
| SocialGraph.AddLinkIdempotent | backend/controllers/profileController.js:141 | following twice is following once ("Avoid duplicates") |
| SocialGraph.AddLinkNoDuplicates | backend/controllers/profileController.js:141-146 | `$addToSet` keeps both lists duplicate-free |
| SocialGraph.RemoveLinkAbsent | backend/controllers/profileController.js:161-169 | unfollowing a user one does not follow changes nothing |
| SocialGraph.RemoveLinkIdempotent | backend/controllers/profileController.js:161-169 | unfollowing twice is unfollowing once |
| SocialGraph.RemoveAfterPush | backend/controllers/profileController.js:110-116 | the toggle's pull undoes its push exactly |
| Profiles.ApprovedPostsOf | backend/controllers/profileController.js:10-13 | the posts populate keeps exactly the listed posts that exist and are approved |
| Profiles.GetProfile | backend/controllers/profileController.js:5-20 | 404 "User not found" exactly for an unknown user; otherwise the user with exactly its approved posts |
| Profiles.UpdateProfileVisibility | backend/controllers/profileController.js:62-81 | 404 for an unknown user; otherwise only that user's visibility changes, to the sent string without an enum check, and an absent value changes nothing |
| Profiles.ProfileImage | backend/controllers/profileController.js:86 | an uploaded file gives its public path, otherwise the body's image |
| Profiles.ProfileUpdated | backend/controllers/profileController.js:88-92 | only name, about text and image change: the sent ones (text trimmed by the setters), absent keys keep the old value |
| Profiles.ProfileUpdateIdempotent | backend/controllers/profileController.js:88-92 | sending the same update twice leaves the user as the first one did |
| Profiles.UpdateProfile | backend/controllers/profileController.js:83-98 | after the route's shared upload filter (500 and nothing written for a refused image), only the caller's document changes, to the updated user with an uploaded image's path; an unknown caller gets a null body with status 200 |
| Profiles.ToggleFollow | backend/controllers/profileController.js:101-125 | 404 for an unknown target, 500 for an unknown caller, both without a write; otherwise both lists are pulled or pushed and the reply says which |
| Profiles.ToggleFlips | backend/controllers/profileController.js:109-116 | a toggle flips whether the caller follows the target, on both lists |
| Profiles.ToggleKeepsConsistent | backend/controllers/profileController.js:109-119 | a toggle keeps following and followers in agreement |
| Profiles.ToggleTwiceFromUnfollowed | backend/controllers/profileController.js:109-116 | from not following, two toggles restore both lists exactly |
| Profiles.ToggleTwiceFromFollowed | backend/controllers/profileController.js:109-116 | from following, two toggles restore both lists as sets (the link moves to the end of each list) |
| Profiles.FollowUser | backend/controllers/profileController.js:129-153 | self-follow is refused with 400 and no write; otherwise both `$addToSet` writes happen and the reply is 200 (no request reaches it: backend/routes/profileRoutes.js:9 gives its path to toggleFollow first) |
| Profiles.UnfollowUser | backend/controllers/profileController.js:156-175 | both `$pull` writes happen and the reply is 200 whether or not the link existed |
| Uploads.MulterFileFilter | backend/config/multer.js:13-19 | the shared filter accepts exactly image, video and PDF types and otherwise rejects with its fixed message |
| Uploads.ServerFileFilter | backend/server.js:229-241 | the server's own filter accepts exactly image, video, PDF and the two Word types |
| Uploads.FiltersCompared | backend/server.js:229-241 | the server's filter admits everything the shared one does, and exactly the two Word types besides |
| Uploads.ExtName | backend/config/multer.js:9 | `path.extname` of an uploaded name is empty exactly when no dot follows the first character or the name is ".."; otherwise it is the suffix from the last dot |
| Uploads.ExtNameExamples | backend/config/multer.js:9 | "photo.png" gives ".png", "clip.tar.gz" gives ".gz", "notes" gives "" and "a." gives "." |
| Uploads.ExtNameDotFiles | backend/config/multer.js:9 | ".bashrc" and ".." give "", "..file" gives ".file" and "..." gives "." |
| Uploads.StoredFilename | backend/config/multer.js:8-10 | the stored name keeps the original extension, and what precedes it is a digit string that denotes the upload time |
| Uploads.StoredFilenameInjective | backend/config/multer.js:8-10 | files stored at different times get different names; equal names mean equal times and equal extensions |
| Uploads.UploadedPath | backend/server.js:261-266 | the public path is "/uploads/" followed by the stored name |
| Uploads.RegisterPathAsWritten | backend/server.js:261-266 | as written, a missing upload gives the path "" |
| Uploads.RegisterPath | backend/server.js:261-266 | as intended, a missing upload gives no field at all, and a present one a non-empty path |
| Validation.ErrorMessage | backend/controllers/userController.js:11-12 | every schema message starts with the quoted key of the failing field |
| Validation.CheckString | backend/validators/userValidator.js:6-8 | a string rule passes exactly when its declarative reading holds; absence and emptiness are reported as such, with the field's key |
| Validation.CheckOneOf | backend/validators/userValidator.js:9 | a `valid(...)` rule passes exactly when the value is present and listed |
| Validation.RegisterError | backend/validators/userValidator.js:5-14 | the registration schema reports nothing exactly when the body is valid, and a valid body has every required field with parsable enum values; once the listed fields pass, the first key the schema does not list is reported as not allowed |
| Validation.LoginError | backend/validators/userValidator.js:17-20 | the login schema reports nothing exactly when e-mail and password are valid and no other key is sent, the e-mail first and an unlisted key last |
| Validation.RouteBodyAsWritten | backend/server.js:261-270 | as written, the route overwrites image and document, with "" when nothing was uploaded |
| Validation.RegisterWithoutImageRejected | backend/validators/userValidator.js:10 | as written, any registration without an image upload is refused by the schema |
| Validation.RouteBody | backend/server.js:261-270 | as intended, only uploaded files set the two fields and every other field passes through |
| Validation.RouteBodyValidIffFields | backend/validators/userValidator.js:5-14 | with the intended route the uploads never decide the outcome: valid exactly when the typed fields are and no unlisted key is sent |
| Accounts.NormalizeEmail | backend/models/User.js:12-17 | the stored e-mail has no upper-case letter, neither starts nor ends with whitespace, and is never longer than what was sent |
| Accounts.NormalizeEmailIdempotent | backend/models/User.js:12-17 | a stored address is already in stored form, so normalising it again on a query changes nothing |
| Accounts.FindByEmail | backend/controllers/userController.js:17 | a found id is a stored user with exactly that e-mail; none found means no stored user has it |
| Accounts.RefusalReply | backend/controllers/userController.js:12-20 | schema and duplicate refusals answer 400, a failing save answers 500 |
| Accounts.RegisterCheck | backend/controllers/userController.js:11-40 | the schema error comes first, then "already exists"; registration proceeds exactly when the body is valid, the e-mail is new and the document can be saved |
| Accounts.RegisterUser | backend/controllers/userController.js:8-51 | a refusal stores nothing; otherwise 201 and exactly one new user under a fresh id |
| Accounts.Registered | backend/controllers/userController.js:27-37 | a new user is unapproved, has empty lists, and image, aboutMe and document default to "" |
| Accounts.RegisterRoute | backend/server.js:256-273 | as written: a file the server's filter refuses fails with 500 and stores nothing; otherwise the body gets both paths, "" for a missing file, and registerUser's refusal is sent with nothing stored, or the new user is stored under a fresh id with 201 |
| Accounts.RegisterRouteCorrected | backend/server.js:256-273 | the same route with a missing upload left absent: the filter's 500, registerUser's refusals, or the new user stored with 201 |
| Accounts.RegisterRouteNeedsImage | backend/server.js:261-270 | as written, every registration sent without an image upload is refused by the schema with 400 |
| Accounts.RegisterKeepsEmailsUnique | backend/controllers/userController.js:17-20 | a user stored after the duplicate check keeps e-mail addresses unique |
| Accounts.Login | backend/controllers/userController.js:55-95 | login succeeds exactly when the body is valid, the e-mail is stored, the account approved and the password matches; failures are 400 or 403 |
| Accounts.UnapprovedNeverLogsIn | backend/controllers/userController.js:69-74 | an unapproved account gets 403 whatever password is sent |
| Accounts.LoginFailuresAlike | backend/controllers/userController.js:65-66 | an unknown e-mail and a wrong password get the same 400 reply |
| Accounts.SearchUsers | backend/controllers/userController.js:121-144 | a blank query gives []; otherwise exactly the users other than the caller whose name or e-mail matches; a missing query is a 500 |
| Accounts.FollowedAsWritten | backend/controllers/userController.js:148-159 | with `req.user._id` undefined, no followers list changes, and only the user the store's first write reaches gains the target, as a set |
| Accounts.FollowUser | backend/controllers/userController.js:146-165 | for a defined `req.user._id` both lists gain the link as a set; for an undefined one the writes are FollowedAsWritten's; the reply is 200 either way |
| Accounts.FollowUserRoute | backend/routes/userRoutes.js:35 | as written, behind authMiddleware the handler reads an undefined `_id`: the reply is 200 and the writes are FollowedAsWritten's, so the caller joins no list |
| Accounts.SelfFollowAsWritten | backend/controllers/userController.js:148-159 | as written, following oneself leaves one's followers as they were, and one's following gains oneself only when the store's pick is oneself |
| Accounts.FollowUserCorrected | backend/controllers/userController.js:146-165 | reading `req.user.id`, the caller follows the target and the target lists the caller |
| Accounts.SelfFollowAllowed | backend/controllers/userController.js:152-159 | reading `req.user.id`, with no self-follow check, following oneself lists the user on both own lists |
| Accounts.ApprovedUsers | backend/controllers/userController.js:199-206 | exactly the approved users, in insertion order |
| Auth.Claim | backend/middleware/authMiddleware.js:12-13 | a property of `req.user` is defined exactly when the decoded payload has that claim, and then it is the claim's value |
| Auth.IssuedClaims | backend/controllers/userController.js:43 | the payload signed at login and registration, `{ id }`, gives `req.user.id` the user and leaves `req.user._id` undefined |
| FollowRequests.SendErrorStatus | backend/controllers/followRequestController.js:8-31 | every refusal of a send is a 400, 401 or 404 |
| FollowRequests.SendRefusal | backend/controllers/followRequestController.js:8-31 | for any value of `req.user._id`, the send guards in order: 401 when it is undefined, 400 without a target or to oneself; the request passes exactly when the sender exists, does not follow the target and has no pending request to it |
| FollowRequests.SendFollowRequest | backend/controllers/followRequestController.js:6-39 | for any value of `req.user._id`, a refused send stores nothing; a passing one stores exactly one new pending request and leaves the users alone |
| FollowRequests.EverySendRefused | backend/controllers/followRequestController.js:8-10 | as written, the `_id` of every issued token is undefined, so every send is refused with 401 |
| FollowRequests.SendRoute | backend/routes/followRequestRoutes.js:8 | as written, the route answers every request with 401 "Authentication required." and stores nothing |
| FollowRequests.CorrectedSendPasses | backend/controllers/followRequestController.js:11-31 | reading `req.user.id`, a send to another user the sender does not follow and has no pending request to passes every guard |
| FollowRequests.SendKeepsUniquePending | backend/controllers/followRequestController.js:28-34 | the send never creates a second pending request for the same pair |
| FollowRequests.ResolveRefusal | backend/controllers/followRequestController.js:45-49 | accept and reject go ahead exactly when the request exists and `req.user._id` is its addressee; 404 for a missing request, 500 with the TypeError's message when `_id` is undefined, 403 for another user |
| FollowRequests.AcceptFollowRequest | backend/controllers/followRequestController.js:42-59 | a refusal changes nothing; otherwise the request is accepted, whatever its status, and both users gain the link as a set |
| FollowRequests.RejectFollowRequest | backend/controllers/followRequestController.js:62-76 | a refusal changes nothing; otherwise only the request's status becomes rejected and no user changes |
| FollowRequests.EveryResolveFails | backend/controllers/followRequestController.js:45-48 | as written, with an issued token a missing request is a 404 and an existing one a 500 |
| FollowRequests.AcceptRoute | backend/routes/followRequestRoutes.js:10 | as written, the route answers 404 or 500 and changes neither the request nor any user |
| FollowRequests.RejectRoute | backend/routes/followRequestRoutes.js:12 | as written, the route answers 404 or 500 and leaves the request as it was |
| FollowRequests.CorrectedResolvePasses | backend/controllers/followRequestController.js:47-49 | reading `req.user.id`, exactly the addressee of a request gets past the guards of accept and reject |
| FollowRequests.ResolveKeepsUniquePending | backend/controllers/followRequestController.js:50-51 | resolving a request either way keeps pending requests unique |
| FollowRequests.AcceptLinks | backend/controllers/followRequestController.js:53-54 | accepting keeps the two follow lists in agreement, adds the link on both sides, and a second accept adds nothing |
| FollowRequests.PendingFor | backend/controllers/followRequestController.js:79-86 | the query's matches in insertion order: the pending requests addressed to `req.user._id`, or every pending request when it is undefined, since the store drops an undefined filter key |
| FollowRequests.ListingRoute | backend/routes/followRequestRoutes.js:14 | as written, the listing holds every pending request, whoever it is addressed to, in insertion order |
| FollowRequests.ListingSameForAll | backend/controllers/followRequestController.js:81 | as written, every user gets the same listing |
| FollowRequests.CorrectedListingIsCallers | backend/controllers/followRequestController.js:81 | reading `req.user.id`, the listing holds exactly the pending requests addressed to the caller |
| Posts.SelectedContent | backend/controllers/postController.js:11-22 | a text post takes the body's content, a media post the upload's public path, and only a media post without a file is refused |
| Posts.CreatedPost | backend/models/Post.js:4-59 | the new post is stored exactly when its type is one of the enum's values and its content is not empty |
| Posts.AppendPost | backend/controllers/postController.js:34 | only the author's `posts` list changes, by the new id at its end |
| Posts.PostDraft | backend/controllers/postController.js:5-31 | a media post without a file is the one 400; an accepted draft is pending, unliked, uncommented, of the requested type, with the content its type selects |
| Posts.SaveDraft | backend/controllers/postController.js:24-34 | a refused draft writes nothing; an accepted one is stored under a fresh id that is appended to the author's posts |
| Posts.CreatePost | backend/controllers/postController.js:5-62 | the reply is 201 with the warning flag equal to the filter's flag, and the writes are those of the draft |
| Posts.FilterThenCreate | backend/middleware/filterPosts.js:4-44 | the moderation filter then createPost: the warning is stored exactly when flagged, even when createPost refuses, and the reply and post writes are the draft's |
| Posts.CreatePostRoute | backend/routes/postRoutes.js:17 | a file the shared filter refuses fails with 500 and writes nothing; otherwise one warning is stored exactly when the text holds a blocked word, and createPost's refusal follows with no post written, or its post is stored under a fresh id, appended to the author's posts and answered with 201 and the flag |
| Posts.ApprovedNewestFirst | backend/controllers/postController.js:72-77 | exactly the approved posts, without repeats, newest first |
| Posts.GetPosts | backend/controllers/postController.js:65-95 | one window of the approved posts newest first, skipping (page-1)*limit, with the page count the ceiling of total over limit; a negative skip is refused |
| Posts.DeletePost | backend/controllers/postController.js:97-122 | 404 for a missing post, 403 for anyone but the owner, and only the owner's call removes the post |
| Posts.ToggledLikes | backend/controllers/postController.js:130-136 | an absent caller is appended; a present one loses exactly its first occurrence, the ids before and after it kept in order |
| Posts.ToggledLikesFlips | backend/controllers/postController.js:130-136 | on a list without repeats the toggle flips the caller's like, keeps every other like and adds no repeat |
| Posts.SpliceDistinct | backend/controllers/postController.js:135 | splicing one occurrence out of a list without repeats removes the id entirely |
| Posts.LikeTwiceRestores | backend/controllers/postController.js:130-136 | liking twice from "not liked" restores the list exactly |
| Posts.LikePost | backend/controllers/postController.js:125-147 | 404 for a missing post; otherwise the toggled list is stored and returned |
| Posts.NewComment | backend/controllers/postController.js:154-157 | the comment carries the caller, the trimmed text and the creation time |
| Posts.AddComment | backend/controllers/postController.js:149-176 | 404 for a missing post, 500 for a text that trims to nothing; otherwise exactly one comment is appended and returned |
| Posts.AddCommentKeepsSavable | backend/controllers/postController.js:159-172 | the appended comment keeps the post savable and is the last comment, the one returned |
| Posts.CommentRoute | backend/routes/postRoutes.js:29 | filterComment runs first: a comment it rejects gets its 500 or 400 and never reaches the post; one it passes gets exactly addComment's answer (404 for a missing post, 500 for a blank text, else appended and returned with 201) |
| Posts.AdminPosts | backend/routes/postRoutes.js:34-41 | every stored post, whatever its status |
| Posts.WithStatus | backend/routes/postRoutes.js:46-50 | only the status changes |
| Posts.StatusLastWriteWins | backend/routes/postRoutes.js:46-50 | neither transition looks at the current status: the last write wins |
| Posts.ApprovePost | backend/routes/postRoutes.js:44-60 | 404 for an unknown id; otherwise the post becomes approved and nothing else changes |
| Posts.RejectPost | backend/routes/postRoutes.js:63-79 | 404 for an unknown id; otherwise the post becomes rejected and nothing else changes |
| Moderation.WordList | backend/routes/moderationRoutes.js:22-29 | the listing holds exactly the stored words |
| Moderation.WordsAt | backend/middleware/filterPosts.js:7-8 | one word per stored entry, in the entries' order |
| Moderation.WordsAtMembers | backend/routes/moderationRoutes.js:24-25 | the words read in order are exactly the words stored |
| Moderation.LowerAll | backend/middleware/filterPosts.js:8 | each stored word lower-cased, in order |
| Moderation.MatchesBlocked | backend/middleware/filterPosts.js:14-17 | a text matches exactly when some lower-cased word occurs in the lower-cased text |
| Moderation.MatchIgnoresTextCase | backend/middleware/filterPosts.js:11-12 | lower-casing the text first changes no verdict |
| Moderation.MatchIgnoresWordCase | backend/middleware/filterPosts.js:8 | lower-casing the stored words first changes no verdict |
| Moderation.MatchMonotone | backend/middleware/filterComments.js:9 | blocking one more word never lets through a text that was caught |
| Moderation.PostFlagged | backend/middleware/filterPosts.js:11-17 | a post is flagged exactly when some word occurs in its content or caption, a missing field counting as "" |
| Moderation.Warning | backend/middleware/filterPosts.js:21-27 | the warning is addressed to the author, from the author, unread, with the fixed text |
| Moderation.FilterPost | backend/middleware/filterPosts.js:4-44 | a flagged post stores exactly one warning and sets the flag; an unflagged one stores nothing; the request goes on either way |
| Moderation.CommentRefusal | backend/middleware/filterComments.js:3-17 | a comment is refused with 400 exactly when some word occurs in it, an absent text is a 500, and with no words every comment passes |
| Moderation.AddBlockedWord | backend/routes/moderationRoutes.js:5-19 | a missing or empty word and an already stored word are refused and change nothing; otherwise the list grows by exactly that word |
| Moderation.AddKeepsWordsWellFormed | backend/routes/moderationRoutes.js:8-13 | a word that passes the checks keeps the list free of empty and repeated words |
| Moderation.DeleteBlockedWord | backend/routes/moderationRoutes.js:32-39 | the entry is removed and the reply is success whether or not it was stored |
| Moderation.DeleteKeepsWordsWellFormed | backend/routes/moderationRoutes.js:34 | removing an entry keeps the list well formed and its word is no longer stored |
| Notifications.Shown | backend/routes/notificationRoutes.js:24-28 | a missing value renders as "undefined" inside the template text |
| Notifications.FormatMessage | backend/routes/notificationRoutes.js:16-34 | a warning shows its stored message or the default when that is missing or empty; any other type shows the actor's name, a space and the type's phrase |
| Notifications.QuotesCaption | backend/routes/notificationRoutes.js:25-28 | like and comment texts quote the post's caption |
| Notifications.PhrasesDiffer | backend/routes/notificationRoutes.js:25-33 | the four non-warning types read differently |
| Notifications.ActorName | backend/routes/notificationRoutes.js:11 | the actor's name when the actor is stored, nothing otherwise |
| Notifications.PostCaption | backend/routes/notificationRoutes.js:12 | the post's caption when the post is stored, nothing otherwise |
| Notifications.NotificationIds | backend/routes/notificationRoutes.js:10-13 | exactly the caller's notifications, each once, newest first |
| Notifications.Formatted | backend/routes/notificationRoutes.js:16-40 | each notification keeps its stored fields and gains its message, in order |
| Notifications.ListNotifications | backend/routes/notificationRoutes.js:8-47 | the listing follows the caller's ids entry by entry; the path's user id is not consulted |
| Notifications.ListingIsCallersNewestFirst | backend/routes/notificationRoutes.js:10-13 | the listing holds every notification of the caller once, only the caller's, newest first |
| Notifications.ListedInIdOrder | backend/routes/notificationRoutes.js:16-40 | any list that follows the caller's ids has the listing's properties |
| Notifications.CallersIds | backend/routes/notificationRoutes.js:10 | position by position the ids are the caller's, without repeats, and all of them |
| Notifications.MarkNotificationRead | backend/routes/notificationRoutes.js:50-57 | only that notification's `read` is set; an unknown id changes nothing; the reply is the same |
| Notifications.MarkReadKeepsListing | backend/routes/notificationRoutes.js:52 | marking read keeps the set of listed notifications |
| Realtime.LikeNotification | backend/server.js:97-102 | a like notification goes to the owner, from the liker, about the post, unread |
| Realtime.CommentNotification | backend/server.js:117-122 | a comment notification goes to the owner, from the commenter, about the post, unread |
| Realtime.FollowNotification | backend/server.js:145-149 | a follow notification goes to the followed user, from the follower, with no post, unread |
| Realtime.Deliver | backend/server.js:104-106 | the notification is stored under a fresh id and sent to its recipient's room |
| Realtime.LikePostEvent | backend/server.js:85-111 | the owner is notified exactly when the liker is someone else; a self-like stores nothing |
| Realtime.NewCommentEvent | backend/server.js:114-133 | the owner is notified exactly when the commenter is someone else, and the comment is re-broadcast to the post's room either way |
| Realtime.FollowUserEvent | backend/server.js:135-157 | only a follow is notified; an unfollow stores and sends nothing |
| Realtime.SocketNotificationsRead | backend/routes/notificationRoutes.js:24-33 | the notifications the socket handlers store read as the actor's name and the type's phrase |
| Realtime.JoinUserRoom | backend/server.js:171-179 | a missing or empty id is refused with the error event and joins nothing; otherwise the room is the id |
| Realtime.NewChatRelay | backend/server.js:181-191 | the chat is forwarded, to the recipient's room, exactly when the payload, a non-empty recipient and the chat data are all present |
| Messaging.ChatsOf | backend/controllers/messageController.js:6-18 | exactly the chats the caller takes part in, each once, most recently updated first |
| Messaging.MessagesOf | backend/controllers/messageController.js:21-32 | exactly the chat's messages, each once, oldest first |
| Messaging.NewChatMessage | backend/controllers/messageController.js:40-45 | the new message belongs to the chat and the sender and is read by the sender only |
| Messaging.WithLastMessage | backend/controllers/messageController.js:50 | only the chat's last-message pointer and update time change; a missing chat stays missing |
| Messaging.SendMessage | backend/controllers/messageController.js:35-59 | one new message is stored, the chat points at it, the stored message goes to the chat's room, and the reply is 201 |
| Messaging.SentMessageListed | backend/controllers/messageController.js:44-53 | after a send the chat's thread lists the new message, read by its sender |
| Messaging.MarkedRead | backend/controllers/messageController.js:68-71 | exactly the chat's messages the reader had not read gain the reader at the end of `readBy` |
| Messaging.MarkMessagesAsRead | backend/controllers/messageController.js:62-77 | the messages become the marked ones and the reply is 200 |
| Messaging.MarkedReadProperties | backend/controllers/messageController.js:68-71 | afterwards the reader has read every message of the chat, no `readBy` gains a repeat, other chats are untouched, and marking again changes nothing |
| Messaging.FindChat | backend/controllers/chatController.js:9-11 | the first stored chat holding both users, or none exactly when no chat holds both |
| Messaging.FirstBoth | backend/controllers/chatController.js:9-11 | the scan finds the first chat from its start id holding both users |
| Messaging.PairChat | backend/controllers/chatController.js:15-17 | a new chat holds the caller and the target, in that order, with no last message |
| Messaging.StartChat | backend/controllers/chatController.js:3-36 | an existing chat is reused unchanged; otherwise exactly one new chat of the two is stored; the recipient is notified and the reply is 201 |
| Messaging.StartChatTwiceSameChat | backend/controllers/chatController.js:9-20 | a second start for the same pair finds the chat the first returned |
| Messaging.FindChatSymmetric | backend/controllers/chatController.js:10 | the search does not depend on which of the two users asks |
| Groups.NewGroup | backend/routes/groupRoutes.js:13-19 | the new group's creator is the caller and its one member, as admin |
| Groups.NewGroupMembers | backend/routes/groupRoutes.js:18 | a new group holds exactly its creator, once |
| Groups.CreateGroup | backend/routes/groupRoutes.js:9-26 | exactly one new group is stored and the reply is 201 |
| Groups.Joined | backend/routes/groupRoutes.js:44 | only the member list changes, by the caller with the member role at its end |
| Groups.JoinedMembers | backend/routes/groupRoutes.js:37-44 | after a join the caller is a member, every earlier member still is, and a list without repeats stays so |
| Groups.JoinGroup | backend/routes/groupRoutes.js:29-51 | 404 for an unknown group and 400 for a member change nothing; otherwise the caller is appended |
| Groups.PublicGroups | backend/routes/groupRoutes.js:54-61 | exactly the public groups, in insertion order |
| Groups.JoinedGroups | backend/routes/groupRoutes.js:64-71 | exactly the groups having the caller among their members |
| Groups.JoinListsGroup | backend/routes/groupRoutes.js:44-47 | after a join the group is among the caller's groups, and so is every group joined before |
| Groups.GroupThread | backend/routes/groupRoutes.js:74-84 | exactly the group's messages, each once, oldest first |
| Groups.PostGroupMessage | backend/routes/groupRoutes.js:87-112 | the message is stored first and the stored record goes to the group's room; the reply is 201 |
| Groups.PostedMessageListed | backend/routes/groupRoutes.js:91-97 | a posted message shows in its group's thread and no other thread changes |
| Chatbot.CampusReply | backend/controllers/chatbotController.js:32-40 | inside the campus rule a location keyword gives the map reply, else an hours keyword the hours reply, else the general one |
| Chatbot.CourseReply | backend/controllers/chatbotController.js:43-51 | inside the course rule registration comes before schedule, then the general reply |
| Chatbot.AppReply | backend/controllers/chatbotController.js:59-67 | inside the platform rule usage comes before problems, then the general reply |
| Chatbot.TypedReply | backend/controllers/chatbotController.js:69-95 | the faculty grade reply needs a faculty user, the student replies a student user, assignments before grades; otherwise the fallback |
| Chatbot.Classify | backend/controllers/chatbotController.js:24-95 | greeting, campus, course, events and platform are tried in that order, and only a message matching none reaches the type-dependent rules |
| Chatbot.GreetingText | backend/controllers/chatbotController.js:28 | the greeting addresses the user by full name |
| Chatbot.BotResponse | backend/controllers/chatbotController.js:23-96 | a missing message throws; with a user there is always a reply; without one only the greeting and the fallback throw; the fallback is the picked default |
| Chatbot.ProcessMessage | backend/controllers/chatbotController.js:5-20 | 200 with the reply exactly when one is built, 500 otherwise |
| Chatbot.CaseInsensitive | backend/controllers/chatbotController.js:24 | a message and its lower-cased form get the same reply |
| Chatbot.ThisCampusIsGreeted | backend/controllers/chatbotController.js:27 | the greeting is a substring test, so "this campus" is greeted |
| Chatbot.LocationBeatsHours | backend/controllers/chatbotController.js:33-38 | a location keyword wins over an hours keyword |
| Chatbot.TypeGating | backend/controllers/chatbotController.js:70-84 | a student never gets the faculty grade reply and a faculty member never gets a student reply |
| Chatbot.FallbackIsADefault | backend/controllers/chatbotController.js:87-95 | every fallback reply is one of the five defaults |
| Admin.AdminGate | backend/middleware/adminMiddleware.js:5-39 | the request goes on exactly for a verified token of a stored admin; a stored non-admin gets 403, every other refusal is 401 |
| Admin.Summary | backend/routes/admin.js:14 | the listed entry of a user keeps its id and every field but the password |
| Admin.UsersNewestFirst | backend/routes/admin.js:14-17 | every stored user once, newest first |
| Admin.SummaryIgnoresPassword | backend/routes/admin.js:14 | the listing does not depend on passwords |
| Admin.Summaries | backend/routes/admin.js:14-17 | one entry per listed id, in order |
| Admin.UsersPage | backend/routes/admin.js:10-29 | one window of the users newest first, skipping (page-1)*limit, with the page count over all users; a negative skip is a 500 |
| Admin.ListUsers | backend/routes/admin.js:8 | the gate's refusal, or the page once the gate lets the request through |
| Admin.EveryUserOnAPage | backend/routes/admin.js:10-20 | with a positive limit every user is listed on some page from 1 to totalPages |
| Admin.PageHoldsUsers | backend/routes/admin.js:14-16 | every id on a page is a stored user |
| Admin.UsersPageAt | backend/routes/admin.js:10-12 | the page that a positive page number and limit ask for |
| Admin.PageHolding | backend/routes/admin.js:12-20 | a position of the listing lies on a page from 1 to totalPages |
| Admin.DeleteUser | backend/routes/admin.js:36-47 | 404 for an unknown user; otherwise only that user document is removed |
| Admin.DeletedUserNotListed | backend/routes/admin.js:38 | after a delete the user is no longer listed and every other user still is |
| Admin.ApprovalMessage | backend/routes/admin.js:68 | the reply says approved for true and declined for false |
| Admin.SetApproval | backend/routes/admin.js:50-72 | anything but true or false is a 400 and an unknown user a 404, both changing nothing; otherwise only `isApproved` changes |
| Admin.ApprovalLastWriteWins | backend/routes/admin.js:58-62 | setting an approval twice keeps only the second, and setting the same status again changes nothing |
| Dashboard.Tallied | backend/controllers/dashboardController.js:22-30 | the folded object always has male, female and other, and a key for every row |
| Dashboard.TallyGenders | backend/controllers/dashboardController.js:28-30 | the loop over the rows computes the fold |
| Dashboard.GetGenderDistribution | backend/controllers/dashboardController.js:32-35 | the reply is 200 with the folded object |
| Dashboard.TalliedKeys | backend/controllers/dashboardController.js:22-30 | the keys are exactly the three defaults and the rows' genders |
| Dashboard.TalliedUnnamed | backend/controllers/dashboardController.js:22-26 | a default key no row names stays 0 |
| Dashboard.TalliedLastWins | backend/controllers/dashboardController.js:29 | the last row naming a key decides its value |
| Dashboard.CountOf | backend/controllers/dashboardController.js:9 | a gender's count is at most the number of users |
| Dashboard.CountsAddUp | backend/models/User.js:31-35 | with three genders the three counts add up to the number of users |
| Dashboard.GroupingEntry | backend/controllers/dashboardController.js:5-30 | over the store's grouping each gender's entry is its number of users, 0 when nobody has it |
| Dashboard.GroupingAddsUp | backend/controllers/dashboardController.js:5-30 | over the grouping the three entries sum to the number of users |
| Dashboard.UserGenders | backend/controllers/dashboardController.js:5 | one gender per stored user |
| Dashboard.DistributionCountsEveryUser | backend/controllers/dashboardController.js:3-40 | the distribution counts every stored user exactly once |
| TextFormat.Capitalized | frontend/src/utils/capitalizeAndTruncate.js:5 | the same length, the first character upper-cased and the rest unchanged |
| TextFormat.UpperCharIdempotent | frontend/src/utils/capitalizeAndTruncate.js:5 | upper-casing twice is upper-casing once |
| TextFormat.CapitalizeAndTruncate | frontend/src/utils/capitalizeAndTruncate.js:1-13 | a missing or empty string gives ""; a short one is capitalized; a long one keeps its first maxLength characters followed by "..." |
| TextFormat.ResultBounded | frontend/src/utils/capitalizeAndTruncate.js:8-10 | the result is never longer than maxLength + 3 |
| TextFormat.CapitalizeAndTruncateIdempotent | frontend/src/utils/capitalizeAndTruncate.js:1-13 | formatting a formatted string again with the same limit changes nothing |
| MessagesView.ChatList | frontend/src/pages/Messages.jsx:79-81 | the assistant's chat comes first, followed by the fetched chats unchanged |
| MessagesView.WithLastMessage | frontend/src/pages/Messages.jsx:128-132 | exactly the chats with the message's chat id take it as their preview; the others are unchanged |
| MessagesView.OnNewMessage | frontend/src/pages/Messages.jsx:123-133 | the message joins the conversation exactly when it belongs to the open chat, and its chat's preview becomes the message |
| MessagesView.NewMessageRouting | frontend/src/pages/Messages.jsx:123-133 | routing keeps other chats' messages out of the conversation and keeps the chat list's ids and order |
| MessagesView.StartNewChat | frontend/src/pages/Messages.jsx:154-171 | the returned chat goes in front and is opened |
| MessagesView.StartListedChatTwice | frontend/src/pages/Messages.jsx:162 | starting a chat that is already listed lists it twice |
| MessagesView.AssistantAnswer | frontend/src/components/Chatbot.jsx:16-28 | the server's reply, or the fixed apology when the request fails |
| MessagesView.PreviewWith | frontend/src/pages/Messages.jsx:207 | the preview keeps its other fields and takes the user's text |
| MessagesView.WithBotPreview | frontend/src/pages/Messages.jsx:205-209 | only the assistant chats' previews change, to the user's text |
| MessagesView.Exchange | frontend/src/pages/Messages.jsx:181-200 | the user's message and then the answer, both in the open chat, with ids that never coincide |
| MessagesView.SendMessage | frontend/src/pages/Messages.jsx:174-226 | a blank input or no open chat does nothing; the assistant's chat appends the exchange and clears the input; another chat clears the input only after a successful post |
| MessagesView.ExtendedConversation | frontend/src/pages/Messages.jsx:188-201 | appending messages of the open chat keeps other chats' messages out |
| MessagesView.SendKeepsConversation | frontend/src/pages/Messages.jsx:174-226 | sending keeps the conversation free of other chats' messages |
| MessagesView.BlankSendsNothing | frontend/src/pages/Messages.jsx:176 | a blank input sends nothing, whatever the open chat |
| MessagesView.OtherParticipant | frontend/src/pages/Messages.jsx:260-262 | the first participant other than the user, or none exactly when every participant is the user |
| MessagesView.AssistantIsTheOtherParticipant | frontend/src/components/Chatbot.jsx:31-44 | in the assistant's chat the header shows the assistant |
| GroupChatView.WithoutEntry | frontend/src/Admin/partials/groupsChats/GroupChat.jsx:124 | the filter never lengthens the list |
| GroupChatView.WithoutEntryMembers | frontend/src/Admin/partials/groupsChats/GroupChat.jsx:124 | exactly the entries with other ids remain |
| GroupChatView.WithoutEntryRemoves | frontend/src/Admin/partials/groupsChats/GroupChat.jsx:124 | no entry with the temporary id is left |
| GroupChatView.WithoutAbsentEntry | frontend/src/Admin/partials/groupsChats/GroupChat.jsx:124 | removing an id no entry carries keeps the list |
| GroupChatView.WithoutEntryAppend | frontend/src/Admin/partials/groupsChats/GroupChat.jsx:124 | the removal works piece by piece over a concatenation |
| GroupChatView.RemoveOptimistic | frontend/src/Admin/partials/groupsChats/GroupChat.jsx:94-128 | with a fresh temporary id the optimistic entry and its removal cancel out: the list before sending followed by every message that arrived meanwhile |
| GroupChatView.GroupChat.constructor | frontend/src/Admin/partials/groupsChats/GroupChat.jsx:10-12 | no group open, no messages, an empty input |
| GroupChatView.GroupChat.OpenGroup | frontend/src/Admin/partials/groupsChats/GroupChat.jsx:42-63 | opening a group shows the messages fetched for it |
| GroupChatView.GroupChat.OnGroupMessage | frontend/src/Admin/partials/groupsChats/GroupChat.jsx:76-88 | while a group is open an incoming message is appended at the end |
| GroupChatView.GroupChat.BeginSend | frontend/src/Admin/partials/groupsChats/GroupChat.jsx:90-108 | a blank input or no open group changes nothing; otherwise one optimistic entry is appended and the input cleared |
| GroupChatView.GroupChat.FinishSend | frontend/src/Admin/partials/groupsChats/GroupChat.jsx:123-129 | on success and failure alike exactly the temporary entry is removed |
| GroupChatView.GroupChat.SendMessage | frontend/src/Admin/partials/groupsChats/GroupChat.jsx:90-130 | the whole send leaves the earlier list with the arrived messages and without the temporary entry |
| UsersDirectory.Listed | backend/controllers/userController.js:201 | a listed user keeps its id and followers and has the type "student" or "faculty" |
| UsersDirectory.Directory | frontend/src/components/UsersList.jsx:21-39 | one entry per fetched user, in order |
| UsersDirectory.FilteredUsers | frontend/src/components/UsersList.jsx:71-84 | the filter never lengthens the list |
| UsersDirectory.FilteredUsersMembers | frontend/src/components/UsersList.jsx:71-84 | a user is shown exactly when listed, of the active tab's type, matching the search and not the current user |
| UsersDirectory.NoneShown | frontend/src/components/UsersList.jsx:83 | when no user passes the three tests nothing is shown |
| UsersDirectory.InitialTabShowsNobody | frontend/src/components/UsersList.jsx:12 | the drawer opens on "students", which is no user's type, so nobody is shown until a tab button sets "student" or "faculty" |
| UsersDirectory.SearchIgnoresCase | frontend/src/components/UsersList.jsx:76-78 | the search ignores the query's case |
| UsersDirectory.FollowersToggled | frontend/src/components/UsersList.jsx:56-61 | the current user is on the new list exactly when not on the old one, and every other id stays as it was |
| UsersDirectory.ToggledLocally | frontend/src/components/UsersList.jsx:54-65 | only the clicked user's followers change |
| UsersDirectory.LocalToggleFlips | frontend/src/components/UsersList.jsx:54-65 | the button flips whether the clicked user shows as followed, and only that entry changes |
| UsersDirectory.LocalToggleTwice | frontend/src/components/UsersList.jsx:54-65 | from "not following", two clicks restore the list exactly |
| UsersDirectory.ServerFollowAsWritten | frontend/src/components/UsersList.jsx:43-51 | as written, the button's request goes to the follow route, which changes no stored followers list |
| UsersDirectory.UnfollowIsNotStored | backend/controllers/userController.js:146-165 | as written, an "Unfollow" click shows the user as unfollowed while the stored followers keep the caller |
| UsersDirectory.FollowIsNotStored | backend/controllers/userController.js:146-165 | as written, a "Follow" click shows the user as followed while the stored followers still lack the caller |
| UsersDirectory.ServerFollow | backend/controllers/profileController.js:101-125 | as intended, the button's request toggles the link |
| UsersDirectory.LocalToggleMatchesServer | frontend/src/components/UsersList.jsx:54-65 | with the toggle on the server, the drawer after a click agrees with the stored followers |
| PostComposer.MaxSize | frontend/src/components/CreatePostModal.jsx:92 | 100 MiB for a video, 10 MiB for anything else |
| PostComposer.FileProblem | frontend/src/components/CreatePostModal.jsx:74-98 | the kind's type check first, then the size check; a file passes exactly when it has its kind's type and is within the limit |
| PostComposer.FileChanged | frontend/src/components/CreatePostModal.jsx:69-102 | no file changes nothing; a refused file sets the error and keeps the earlier file; an accepted file is kept and the error cleared |
| PostComposer.TypeCheckedBeforeSize | frontend/src/components/CreatePostModal.jsx:74-98 | a file of the wrong kind is refused for its kind, whatever its size |
| PostComposer.SizeLimitDependsOnKind | frontend/src/components/CreatePostModal.jsx:92-97 | a 50 MiB video passes and a 50 MiB image does not |
| PostComposer.BuildForm | frontend/src/components/CreatePostModal.jsx:20-32 | the type first; a text post sends its content, any other its file, which it must have; the caption only when not empty |
| PostComposer.ErrorText | frontend/src/components/CreatePostModal.jsx:59-60 | the server's message, else the error's own, else the fixed text; never empty |
| PostComposer.Submitted | frontend/src/components/CreatePostModal.jsx:14-68 | a missing file shows its message; a created post resets the dialog; a refusal shows its error and keeps what was typed |
| PostComposer.NoFileNoRequest | frontend/src/components/CreatePostModal.jsx:27-29 | without a file a non-text post never reaches the server |
| PostComposer.KeptFilePassesChecks | frontend/src/components/CreatePostModal.jsx:100 | a file the dialog kept passed its kind's checks |
| RegisterForm.NameErrors | frontend/src/pages/Register.jsx:12-15 | the name passes exactly when it matches the pattern; "" fails both tests |
| RegisterForm.EmailErrors | frontend/src/pages/Register.jsx:16-19 | the e-mail passes exactly when it is present and well formed; "" fails only `required` |
| RegisterForm.PasswordErrors | frontend/src/pages/Register.jsx:20-23 | the password passes exactly when it has at least six characters |
| RegisterForm.ImageErrors | frontend/src/pages/Register.jsx:24-31 | no picture passes; a picture must have an image type |
| RegisterForm.ChoiceErrors | frontend/src/pages/Register.jsx:35-42 | a choice passes exactly when it is one of the allowed values; "" fails both tests |
| RegisterForm.DocumentErrors | frontend/src/pages/Register.jsx:43-55 | the document passes exactly when a file of an allowed type is chosen; no file fails the type test |
| RegisterForm.NoErrorsIffValid | frontend/src/pages/Register.jsx:11-56 | the page sends the form exactly when it meets every field's rule |
| RegisterForm.NameExamples | frontend/src/pages/Register.jsx:15 | "jane-doe@2" passes the pattern; "2024" (no letter) and "Jane Doe" (a space) do not |
| RegisterForm.Body | frontend/src/pages/Register.jsx:94-111 | the six text fields in order, then the picture only when chosen, then the document when chosen |
| RegisterForm.ValidFormSendsDocument | frontend/src/pages/Register.jsx:109-111 | a form the page sends always carries its document |
| RegisterForm.ServerView | frontend/src/pages/Register.jsx:97-103 | the server's schema sees the typed fields, the files being left to the upload step |
| RegisterForm.ShortNamePassesFormOnly | backend/validators/userValidator.js:6 | a two-letter name passes the page and is refused by the server as too short |
| ProfileView.FollowersAsWritten | frontend/src/pages/Profile.jsx:233-238 | as written: an unfollow drops only entries equal to the bare id string, and a follow appends the bare id |
| ProfileView.UnfollowAsWrittenKeepsViewer | frontend/src/pages/Profile.jsx:233-239 | unfollowing a fetched profile whose populated followers list the viewer leaves the list unchanged, viewer included, while the button flips to "Follow" |
| ProfileView.FollowAsWrittenUnseen | frontend/src/pages/Profile.jsx:126-128 | the bare id appended by a follow is invisible to the `_id` test that derives `isFollowing` |
| ProfileView.FollowersAfter | frontend/src/pages/Profile.jsx:233-238 | corrected: an unfollow drops every entry for the viewer and keeps all others; a follow appends the viewer as a populated entry |
| ProfileView.FollowersAfterAgrees | frontend/src/pages/Profile.jsx:233-239 | after the corrected update the list names the viewer exactly when the flipped `isFollowing` says so, and no other user's entry changes |
| ProfileView.UnfollowOnlyFollower | frontend/src/pages/Profile.jsx:233-239 | on a one-follower profile the corrected unfollow empties the list and the update as written keeps it |
| ProfileView.CallFor | frontend/src/pages/Profile.jsx:207-227 | a click posts a follow request exactly for a private profile not followed, an unfollow exactly when following, a follow otherwise, always to the profile's id |
| ProfileView.PostsVisible | frontend/src/pages/Profile.jsx:514-523 | posts are shown exactly when the profile is public, is the viewer's own, or is listed in the viewer's loaded following |
| ProfileView.PrivateHiddenFromStrangers | frontend/src/pages/Profile.jsx:594-603 | a private profile of someone else is hidden before the viewer's following loads and from a viewer who does not follow it |
| ProfileView.TabPosts | frontend/src/pages/Profile.jsx:520-523 | a tab shows exactly the posts whose type is the tab, every post for "all" |
| ProfileView.TabOfNoType | frontend/src/pages/Profile.jsx:517-523 | a tab no post's type carries shows nothing |
| ProfileView.TabsShown | frontend/src/pages/Profile.jsx:517-523 | "all" shows every post in order; "images" and "videos" show nothing, since the stored types are singular |
| ProfileView.WithoutPost | frontend/src/pages/Profile.jsx:195 | removing a post keeps exactly the posts with another id, and never lengthens the list |
| ProfileView.ProfilePage.constructor | frontend/src/pages/Profile.jsx:26-44 | nothing is loaded: no posts, no followers, `isFollowing` and the request status null |
| ProfileView.ProfilePage.ProfileLoaded | frontend/src/pages/Profile.jsx:118-129 | the fetch stores the profile and its posts and derives `isFollowing` from the populated followers, keeping the page's invariant |
| ProfileView.ProfilePage.RequestsLoaded | frontend/src/pages/Profile.jsx:173-185 | for a loaded private profile of someone else not followed, the status is "pending" exactly when a pending request from the viewer is listed and null otherwise; in any other state it is unchanged |
| ProfileView.ProfilePage.HandleFollow | frontend/src/pages/Profile.jsx:202-248 | as written: the call made is CallFor's; a follow request only marks the status pending on success; a successful follow or unfollow updates the followers by FollowersAsWritten, flips `isFollowing` and emits `follow-user`; a failure changes nothing; unfollowing a fetched profile that lists the viewer leaves `isFollowing` disagreeing with the list |
| ProfileView.ProfilePage.HandleFollowCorrected | frontend/src/pages/Profile.jsx:202-248 | the same handler with the corrected update FollowersAfter, which keeps `isFollowing` agreeing with the followers |
| ProfileView.ProfilePage.HandleDeletePost | frontend/src/pages/Profile.jsx:187-200 | the post leaves the list and `delete-post` is emitted exactly when the server's delete succeeded |
| ProfileView.ProfilePage.OnDeletePost | frontend/src/pages/Profile.jsx:140-144 | a `delete-post` event removes the post with that id |
| PostCardView.CommentErrorToast | frontend/src/components/PostCard.jsx:110-117 | the toast shows the server's error when present and not empty, else the error's message, else the error object itself |
| PostCardView.FallbackTextUnreachable | frontend/src/components/PostCard.jsx:110-114 | the "Failed to create comment" text shows only when the server or the error carries that very text |
| PostCardView.CardShown | frontend/src/components/PostCard.jsx:188-341 | the card renders exactly when loading is over and the author is public, is the viewer, or is in the viewer's loaded following |
| PostCardView.PostCard.constructor | frontend/src/components/PostCard.jsx:18-30 | the counters start from the post's likes and comments (zero when absent), the heart from whether the viewer liked it, with an empty box and the skeleton on |
| PostCardView.PostCard.OnLike | frontend/src/components/PostCard.jsx:44-47 | a like event sets the counter and the heart from the list sent, whatever they were |
| PostCardView.PostCard.OnComment | frontend/src/components/PostCard.jsx:49-52 | a comment event appends the comment and adds exactly one to the counter, so a counter that counted the list still does |
| PostCardView.PostCard.CommentsFetched | frontend/src/components/PostCard.jsx:121-133 | opening the comments replaces the list with the fetched one and leaves the counter as it was |
| PostCardView.PostCard.LoadingDone | frontend/src/components/PostCard.jsx:164-168 | the timer turns the skeleton off |
| PostCardView.PostCard.Typed | frontend/src/components/PostCard.jsx:29 | typing sets the comment box |
| PostCardView.PostCard.SubmitComment | frontend/src/components/PostCard.jsx:85-119 | a blank box sends nothing and changes nothing; otherwise the text is posted, a stored comment clears the box and emits `new-comment`, and a failure keeps the box and shows CommentErrorToast's toast |
| PostCardView.PostCard.HandleLike | frontend/src/components/PostCard.jsx:60-82 | `like-post` is emitted, with the response body, exactly when the like request succeeded, and the card's own state is left alone |

## Left out

- Sockets, HTTP and the network: a socket handler is modelled by whether a notification is stored and to whom an event goes, not by room delivery or ordering between clients.
- Concurrency: each handler runs alone against the store; interleavings of awaits are not modelled.
- Clocks: `Date.now()` and `createdAt` timestamps become parameters or fresh ids, and ordering by creation time is ordering by id.
- The traffic routes, the active-user cron job and the activity tracker depend on the clock; they are not part of this model.
- Randomness: the assistant's fallback reply takes the index `Math.floor(Math.random() * 5)` as a parameter.
- `getSuggestedUsers` draws a random sample in the store; it is not part of this model.
- Password hashing and comparison (bcrypt) and JWT signing and verification are foreign calls. "The password matches" is a parameter. A token that verifies decodes to the payload it was signed with, `Auth.Issued(id)`. Most handlers read `req.user.id`, which is that id, so they take the caller's id as a parameter. The follow-request handlers and the user routes' follow handler read `req.user._id` instead, so their routes take the id the token was issued for and apply `Auth.Claim`. The activity tracker's own `_id` write is not part of this model (see the clock line).
- Accounts.FollowedAsWritten: which user the first write reaches when its `_id` filter is undefined is the store's choice, given as the parameter `hit`. The second write, `$addToSet` of the undefined id, is taken to store nothing. Should the store keep it as null, the target's followers gain a null entry; that is no user's id, and the model does not show it.
- FollowRequests.ResolveRefusal: the 500's message is taken to be the text current Node versions give for `undefined.toString()`.
- FollowRequests.PendingFor: that an undefined filter key is dropped, so `{ to: undefined, status: "pending" }` matches every pending request, is the store's documented reading. The model assumes it.
- The e-mail format rules of Joi and yup, and the regular expression engine that `searchUsers` runs the user's query through, are parameters.
- The store's internals (`populate`, `sort`, `countDocuments`, aggregation) are modelled by their results on maps and sequences. A populated reference is the record it points to, looked up in the store.
- The handlers' 500 branches for store failures are not modelled, except where the code itself throws on a missing record.
- The `send-message` and `send-group-message` socket handlers use models the server never imports, so they always throw and only log. They are not part of this model.
- The follow request, group, group message, chat and message schemas are not part of this model. Their shapes are taken from the controllers that use them.
- Case mapping and whitespace are modelled for ASCII only, and string length counts characters, not UTF-16 code units.
- Validation messages of the client's schema are a set: the order in which yup reports them is not modelled.
- Floating-point and locale arithmetic (the analytics average, the dashboard cards' percentages and month labels) is not part of this model.
- UI rendering is not modelled: charts, styling, skeleton timing (beyond the flag it clears), the settings modal, the drawers and the file-reader preview.
- ProfileView.ProfilePage.ProfileLoaded: the page refetches the profile whenever `isFollowing` changes; the model does not start that fetch itself. The caller runs ProfileLoaded after HandleFollow, and that restores the invariant HandleFollow as written breaks.
- Uploads.ExtName: models `path.extname` on a name without '/', which is what the multipart parser hands multer, since it keeps only the last path segment.
- Multipart requests are modelled with at most one file per upload field. A file under a field name the route does not list, a second file under one name, and a register request that is not multipart (where `req.files` is undefined and the route throws) are not modelled.
- An upload is its declared MIME type and the name it was stored under. The file's bytes and the disk write are not modelled.
- The profile page's fetch of the viewer's own profile is an input (`viewerFollowing`) of the visibility gate, not a method.
- PostCardView.PostCard.HandleLike: the statement after the emit throws and its catch only logs. The model states that no card field changes, and does not model the thrown error.

## Findings

| source | as written | input that shows it | evidently intended | confidence | as-written member | corrected member |
|---|---|---|---|---|---|---|
| backend/server.js:261-270 | the register route sets `image` and `document` to "" when no file was uploaded, and the schema's optional `Joi.string()` refuses "" | a valid registration sent without a picture: the reply is 400 saying `"image" is not allowed to be empty` | a missing upload leaves the field absent, so the optional picture is really optional | not executed | Validation.RegisterWithoutImageRejected | Validation.RouteBodyValidIffFields |
| frontend/src/components/UsersList.jsx:41-65 | the Follow / Unfollow button always posts to `/api/users/:userId/follow`, whose handler never unfollows and stores no follower, while the drawer flips the entry locally | clicking "Unfollow" on a followed user: the drawer shows "Follow", and the stored followers still hold the caller | the button toggles the link on the server, as the profile routes do | not executed | UsersDirectory.UnfollowIsNotStored | UsersDirectory.LocalToggleMatchesServer |
| frontend/src/pages/Profile.jsx:233-239 | the fetched followers are populated users, but the unfollow filters by comparing each entry to the id string, and the follow appends the bare id | a profile whose only follower is the viewer: after "Unfollow" the list still holds the viewer | the viewer's entry is removed on unfollow and added as an entry the `_id` test recognises on follow | not executed | ProfileView.UnfollowAsWrittenKeepsViewer | ProfileView.FollowersAfterAgrees |
| backend/controllers/followRequestController.js:8-10 | every follow-request handler reads the caller from `req.user._id`, but the decoded token is `{ id }`, so `_id` is undefined | any send: the reply is 401 "Authentication required."; accepting or rejecting an existing request answers 500; the listing holds every user's pending requests | the handlers read `req.user.id`, as the other controllers do | not executed | FollowRequests.EverySendRefused | FollowRequests.CorrectedSendPasses |
| backend/controllers/userController.js:148 | followUser reads `req.user._id`, which is undefined, so its first write reaches a user the store picks and its second adds no follower | following any user: the reply is 200 and no followers list changes | the caller follows the target and the target lists the caller | not executed | Accounts.SelfFollowAsWritten | Accounts.FollowUserCorrected |

=== FILE: accounts.dfy ===
/** Accounts: registration, login, user search, the follow endpoint of the
    user routes and the approved-user directory. Password hashing and
    comparison, the e-mail format rule and the search pattern engine are
    supplied as parameters. */
module Accounts {
  import opened Strings
  import opened Models
  import opened Lists
  import opened SocialGraph
  import opened Validation
  import opened Uploads
  import opened Store
  import opened Auth

  /** The stored form of an e-mail address: the schema lower-cases and
      trims it, on writes and on queries alike. */
  function NormalizeEmail(email: string): (r: string)
    ensures |r| <= |email|
    ensures forall i :: 0 <= i < |r| ==> !('A' <= r[i] <= 'Z')
    ensures r == [] || (!IsWhitespace(r[0]) && !IsWhitespace(r[|r| - 1]))
  {
    var l := Lower(email);
    TrimKeepsAll(l, c => !('A' <= c <= 'Z'));
    Trim(l)
  }

  /** A stored address is already in stored form: normalising it again
      changes nothing. */
  lemma NormalizeEmailIdempotent(email: string)
    ensures NormalizeEmail(NormalizeEmail(email)) == NormalizeEmail(email)
  {
    var r := NormalizeEmail(email);
    assert Lower(r) == r;
    TrimIdempotent(Lower(email));
  }

  /** The first stored user (in insertion order) whose e-mail is `email`. */
  function FindByEmail(users: map<Id, User>, bound: Id, email: string): (r: Option<Id>)
    ensures r.Some? ==> r.value in users && r.value < bound && users[r.value].email == email
    ensures r.None? ==> forall id :: id in users && id < bound ==> users[id].email != email
  {
    var ids := KeysBelow(users, bound);
    var k := FirstIndex(ids, (id: Id) => id in users && users[id].email == email);
    if k < 0 then None else Some(ids[k])
  }

  /** No two stored users share an e-mail address. */
  predicate EmailsUnique(users: map<Id, User>) {
    forall a, b :: a in users && b in users && a != b ==> users[a].email != users[b].email
  }

  /** Why registerUser refuses a body. */
  datatype RegisterRefusal = Invalid(error: FieldError) | AlreadyExists | NotSavable

  /** The reply registerUser sends for a refusal. */
  function RefusalReply(r: RegisterRefusal): (out: Outcome<Id>)
    ensures out.Fail? && (out.status == 400 <==> !r.NotSavable?)
  {
    match r
    case Invalid(e) => Fail(400, ErrorMessage(e))
    case AlreadyExists => Fail(400, "User already exists")
    case NotSavable => Fail(500, "Server error")
  }

  /** The refusals of registerUser, in its order: the schema check, the
      duplicate e-mail check, then the store's `required` checks, which fail
      the save when the name trims to "". */
  function RegisterCheck(users: map<Id, User>, bound: Id, b: RegisterBody,
                         isEmail: string -> bool, passwordHash: string): (r: Option<RegisterRefusal>)
    ensures RegisterError(b, isEmail).Some? ==> r == Some(Invalid(RegisterError(b, isEmail).value))
    ensures r.None? <==>
      RegisterValid(b, isEmail) &&
      FindByEmail(users, bound, NormalizeEmail(b.email.value)).None? &&
      UserSavable(Registered(b, passwordHash))
    ensures RegisterValid(b, isEmail) && FindByEmail(users, bound, NormalizeEmail(b.email.value)).Some? ==>
      r == Some(AlreadyExists)
  {
    var error := RegisterError(b, isEmail);
    if error.Some? then Some(Invalid(error.value))
    else if FindByEmail(users, bound, NormalizeEmail(b.email.value)).Some? then Some(AlreadyExists)
    else if !UserSavable(Registered(b, passwordHash)) then Some(NotSavable)
    else None
  }

  /** registerUser: after the refusals, stores the new user with the
      schema defaults. `passwordHash` is the salted hash of the submitted
      password. */
  method RegisterUser(db: Db, b: RegisterBody, isEmail: string -> bool, passwordHash: string)
    returns (out: Outcome<Id>)
    requires db.Valid()
    modifies db`users, db`nextId
    ensures db.Valid()
    ensures RegisterCheck(old(db.users), old(db.nextId), b, isEmail, passwordHash).Some? ==>
      out == RefusalReply(RegisterCheck(old(db.users), old(db.nextId), b, isEmail, passwordHash).value) &&
      db.users == old(db.users)
    ensures RegisterCheck(old(db.users), old(db.nextId), b, isEmail, passwordHash).None? ==>
      RegisterError(b, isEmail).None? &&
      out.Ok? && out.status == 201 && out.value !in old(db.users) &&
      db.users == old(db.users)[out.value := Registered(b, passwordHash)]
  {
    var refusal := RegisterCheck(db.users, db.nextId, b, isEmail, passwordHash);
    if refusal.Some? {
      return RefusalReply(refusal.value);
    }
    var id := db.InsertUser(Registered(b, passwordHash));
    out := Ok(201, id);
  }

  /** The document registerUser builds from a body that passed the schema. */
  function Registered(b: RegisterBody, passwordHash: string): (u: User)
    requires b.gender.Some? && ParseGender(b.gender.value).Some?
    requires b.userType.Some? && ParseUserType(b.userType.value).Some?
    requires b.fullName.Some? && b.email.Some?
    ensures !u.isApproved && u.role == UserRole && u.profileVisibility == "public"
    ensures u.followers == [] && u.following == [] && u.posts == []
    ensures u.email == NormalizeEmail(b.email.value) && u.fullName == Trim(b.fullName.value)
    ensures u.image == (if b.image.Some? then b.image.value else "")
    ensures u.document == (if b.document.Some? then b.document.value else "")
    ensures u.aboutMe == (if b.aboutMe.Some? then Trim(b.aboutMe.value) else "")
    ensures GenderName(u.gender) == b.gender.value && UserTypeName(u.userType) == b.userType.value
  {
    NewUser(b.fullName.value, b.email.value, passwordHash,
            if b.image.Some? then b.image.value else "",
            if b.aboutMe.Some? then b.aboutMe.value else "",
            ParseGender(b.gender.value).value, ParseUserType(b.userType.value).value,
            if b.document.Some? then b.document.value else "")
  }

  /** POST /api/users/register, as written: `upload.fields` with the
      server's own filter, then both paths are stored in the body ("" when
      no file was sent), then registerUser. A refused upload fails with 500
      before anything is written. */
  method RegisterRoute(db: Db, b: RegisterBody, image: Option<UploadedFile>, document: Option<UploadedFile>,
                       isEmail: string -> bool, passwordHash: string) returns (out: Outcome<Id>)
    requires db.Valid()
    modifies db`users, db`nextId
    ensures db.Valid()
    ensures ServerFilterRefuses(image) || ServerFilterRefuses(document) ==>
      out == Fail(FilterFailureStatus, FilterError) && db.users == old(db.users)
    ensures !ServerFilterRefuses(image) && !ServerFilterRefuses(document) ==>
      var body := RouteBodyAsWritten(b, FileName(image), FileName(document));
      var check := RegisterCheck(old(db.users), old(db.nextId), body, isEmail, passwordHash);
      (check.Some? ==> out == RefusalReply(check.value) && db.users == old(db.users)) &&
      (check.None? ==>
        RegisterError(body, isEmail).None? &&
        out.Ok? && out.status == 201 && out.value !in old(db.users) &&
        db.users == old(db.users)[out.value := Registered(body, passwordHash)])
  {
    if ServerFilterRefuses(image) || ServerFilterRefuses(document) {
      return Fail(FilterFailureStatus, FilterError);
    }
    out := RegisterUser(db, RouteBodyAsWritten(b, FileName(image), FileName(document)), isEmail, passwordHash);
  }

  /** The register route with the corrected path rule: a missing upload
      leaves the field absent (see the findings). */
  method RegisterRouteCorrected(db: Db, b: RegisterBody, image: Option<UploadedFile>, document: Option<UploadedFile>,
                                isEmail: string -> bool, passwordHash: string) returns (out: Outcome<Id>)
    requires db.Valid()
    modifies db`users, db`nextId
    ensures db.Valid()
    ensures ServerFilterRefuses(image) || ServerFilterRefuses(document) ==>
      out == Fail(FilterFailureStatus, FilterError) && db.users == old(db.users)
    ensures !ServerFilterRefuses(image) && !ServerFilterRefuses(document) ==>
      var body := RouteBody(b, FileName(image), FileName(document));
      var check := RegisterCheck(old(db.users), old(db.nextId), body, isEmail, passwordHash);
      (check.Some? ==> out == RefusalReply(check.value) && db.users == old(db.users)) &&
      (check.None? ==>
        RegisterError(body, isEmail).None? &&
        out.Ok? && out.status == 201 && out.value !in old(db.users) &&
        db.users == old(db.users)[out.value := Registered(body, passwordHash)])
  {
    if ServerFilterRefuses(image) || ServerFilterRefuses(document) {
      return Fail(FilterFailureStatus, FilterError);
    }
    out := RegisterUser(db, RouteBody(b, FileName(image), FileName(document)), isEmail, passwordHash);
  }

  /** As written, the route refuses every registration that comes without
      an image upload, with the schema's reply. */
  lemma RegisterRouteNeedsImage(users: map<Id, User>, bound: Id, b: RegisterBody, document: Option<UploadedFile>,
                                isEmail: string -> bool, passwordHash: string)
    ensures var check := RegisterCheck(users, bound, RouteBodyAsWritten(b, None, FileName(document)), isEmail, passwordHash);
      check.Some? && check.value.Invalid? && RefusalReply(check.value).status == 400
  {
    RegisterWithoutImageRejected(b, FileName(document), isEmail);
  }

  /** A registration that passes the duplicate check keeps e-mail addresses
      unique. */
  lemma RegisterKeepsEmailsUnique(users: map<Id, User>, bound: Id, id: Id, u: User)
    requires EmailsUnique(users)
    requires forall k :: k in users ==> k < bound
    requires id !in users
    requires FindByEmail(users, bound, u.email).None?
    ensures EmailsUnique(users[id := u])
  {
  }

  /** loginUser: the schema check, then unknown e-mail (400), then an
      unapproved account (403), then a wrong password (400). */
  function Login(users: map<Id, User>, bound: Id, b: LoginBody, isEmail: string -> bool,
                 passwordMatches: (string, string) -> bool): (r: Outcome<Id>)
    ensures LoginError(b, isEmail).Some? ==> r == Fail(400, ErrorMessage(LoginError(b, isEmail).value))
    ensures r.Ok? <==>
      LoginValid(b, isEmail) &&
      var found := FindByEmail(users, bound, NormalizeEmail(b.email.value));
      found.Some? && users[found.value].isApproved &&
      passwordMatches(b.password.value, users[found.value].password)
    ensures r.Ok? ==> r.status == 200 && r.value in users && users[r.value].email == NormalizeEmail(b.email.value)
    ensures r.Fail? ==> r.status in {400, 403}
  {
    var error := LoginError(b, isEmail);
    if error.Some? then Fail(400, ErrorMessage(error.value))
    else
      var found := FindByEmail(users, bound, NormalizeEmail(b.email.value));
      if found.None? then Fail(400, "Invalid email or password")
      else if !users[found.value].isApproved then Fail(403, "Your account is not approved yet.")
      else if !passwordMatches(b.password.value, users[found.value].password) then
        Fail(400, "Invalid email or password")
      else Ok(200, found.value)
  }

  /** The approval check comes before the password check: an unapproved
      account gets 403 whatever password is sent. */
  lemma UnapprovedNeverLogsIn(users: map<Id, User>, bound: Id, b: LoginBody, isEmail: string -> bool,
                              passwordMatches: (string, string) -> bool)
    requires LoginValid(b, isEmail)
    requires var found := FindByEmail(users, bound, NormalizeEmail(b.email.value));
      found.Some? && !users[found.value].isApproved
    ensures Login(users, bound, b, isEmail, passwordMatches) == Fail(403, "Your account is not approved yet.")
    ensures forall pw :: Login(users, bound, b.(password := Some(pw)), isEmail, passwordMatches).Fail?
  {
  }

  /** An unknown e-mail and a wrong password get the same reply, so the
      reply does not reveal which accounts exist. */
  lemma LoginFailuresAlike(users: map<Id, User>, bound: Id, b: LoginBody, isEmail: string -> bool,
                           passwordMatches: (string, string) -> bool)
    requires LoginValid(b, isEmail)
    requires var found := FindByEmail(users, bound, NormalizeEmail(b.email.value));
      found.None? ||
      (users[found.value].isApproved && !passwordMatches(b.password.value, users[found.value].password))
    ensures Login(users, bound, b, isEmail, passwordMatches) == Fail(400, "Invalid email or password")
  {
  }

  /** searchUsers: a blank query answers [] before any lookup; otherwise
      the users (except the caller) whose name or e-mail matches the query
      pattern, in insertion order. An absent query makes `trim` throw. */
  function SearchUsers(users: map<Id, User>, bound: Id, caller: Id, query: Option<string>,
                       matches: (string, string) -> bool): (r: Outcome<seq<Id>>)
    ensures query.None? ==> r.Fail? && r.status == 500
    ensures query.Some? && IsBlank(query.value) ==> r == Ok(200, [])
    ensures r.Ok? ==> caller !in r.value
    ensures r.Ok? && query.Some? && !IsBlank(query.value) ==>
      forall id :: id in r.value <==>
        id in users && id < bound && id != caller &&
        (matches(query.value, users[id].fullName) || matches(query.value, users[id].email))
  {
    if query.None? then Fail(500, "Server error")
    else if IsBlank(query.value) then Ok(200, [])
    else
      Ok(200, Filter(KeysBelow(users, bound), (id: Id) =>
        id in users && id != caller &&
        (matches(query.value, users[id].fullName) || matches(query.value, users[id].email))))
  }

  /** followUser's first write, `findByIdAndUpdate` of `req.user._id`
      with `$addToSet: { following: target }`, when that id is undefined:
      the filter matches whichever user the store picks (`hit`, none when
      it picks none), and that user gains the target. No followers list
      changes. */
  function FollowedAsWritten(users: map<Id, User>, target: Id, hit: Option<Id>): (r: map<Id, User>)
    ensures r.Keys == users.Keys
    ensures forall k :: k in users ==> r[k].followers == users[k].followers
    ensures forall k :: k in users && hit != Some(k) ==> r[k] == users[k]
    ensures hit.Some? && hit.value in users ==>
      r[hit.value] == users[hit.value].(following := AddToSet(users[hit.value].following, target))
  {
    if hit.Some? then MapFollowing(users, hit.value, s => AddToSet(s, target)) else users
  }

  /** The user routes' follow endpoint, for any value `userId` of
      `req.user._id`: `$addToSet` on both sides, with no self-follow check.
      With `userId` undefined, the first write reaches `hit` and the second
      adds nothing. */
  method FollowUser(db: Db, userId: Option<Id>, target: Id, hit: Option<Id>) returns (out: Outcome<string>)
    requires db.Valid()
    modifies db`users
    ensures db.Valid()
    ensures userId.Some? ==> db.users == AddLink(old(db.users), userId.value, target)
    ensures userId.None? ==> db.users == FollowedAsWritten(old(db.users), target, hit)
    ensures out == Ok(200, "Followed successfully")
  {
    if userId.Some? {
      db.UpdateUsers(MapFollowing(db.users, userId.value, s => AddToSet(s, target)));
      db.UpdateUsers(MapFollowers(db.users, target, s => AddToSet(s, userId.value)));
    } else {
      db.UpdateUsers(FollowedAsWritten(db.users, target, hit));
    }
    out := Ok(200, "Followed successfully");
  }

  /** POST /api/users/:userId/follow behind authMiddleware, as written: the
      reply is 200, but the caller is on no new list, only `hit` follows
      the target, and no followers list changes. */
  method FollowUserRoute(db: Db, uid: Id, target: Id, hit: Option<Id>) returns (out: Outcome<string>)
    requires db.Valid()
    modifies db`users
    ensures db.Valid()
    ensures db.users == FollowedAsWritten(old(db.users), target, hit)
    ensures out == Ok(200, "Followed successfully")
  {
    IssuedClaims(uid);
    out := FollowUser(db, Claim(Issued(uid), "_id"), target, hit);
  }

  /** As written, following oneself adds oneself to neither list, unless
      the store's pick of the first write happens to be oneself. */
  lemma SelfFollowAsWritten(users: map<Id, User>, me: Id, hit: Option<Id>)
    requires me in users
    ensures var r := FollowedAsWritten(users, me, hit);
      (me in r[me].followers <==> me in users[me].followers) &&
      (me in r[me].following <==> me in users[me].following || hit == Some(me))
  {
  }

  /** The same route reading `req.user.id`: the caller follows the target
      and the target lists the caller. */
  method FollowUserCorrected(db: Db, uid: Id, target: Id, hit: Option<Id>) returns (out: Outcome<string>)
    requires db.Valid()
    modifies db`users
    ensures db.Valid()
    ensures db.users == AddLink(old(db.users), uid, target)
    ensures uid in old(db.users) ==> target in db.users[uid].following
    ensures target in old(db.users) ==> uid in db.users[target].followers
    ensures out == Ok(200, "Followed successfully")
  {
    IssuedClaims(uid);
    out := FollowUser(db, Claim(Issued(uid), "id"), target, hit);
  }

  /** With the caller known and no self-follow check, following oneself
      lists the user on both of their own lists. */
  lemma SelfFollowAllowed(users: map<Id, User>, me: Id)
    requires me in users
    ensures me in AddLink(users, me, me)[me].following
    ensures me in AddLink(users, me, me)[me].followers
  {
  }

  /** getAllUsers: the approved users, in insertion order. */
  function ApprovedUsers(users: map<Id, User>, bound: Id): (r: seq<Id>)
    ensures forall id :: id in r <==> id in users && id < bound && users[id].isApproved
    ensures Increasing(r)
  {
    var all := KeysBelow(users, bound);
    var approved := (id: Id) => id in users && users[id].isApproved;
    FilterIncreasing(all, approved);
    Filter(all, approved)
  }
}

=== FILE: admin.dfy ===
/** The admin routes over users: the admin gate, the paged user listing
    (newest first, without passwords), deleting a user and setting a user's
    approval. */
module Admin {
  import opened Models
  import opened Lists
  import opened Paging
  import opened Store

  // ---------------------------------------------------------------- gate

  /** What the bearer token yields once checked: no token, one that does
      not verify, or the id it was signed for. The signature check itself
      is not part of this model. */
  datatype Token = NoToken | BadToken | Decoded(id: Id)

  /** adminMiddleware: 401 without a token, with a bad token or for an
      unknown user, 403 for a non-admin; otherwise the request goes on as
      that user. */
  function AdminGate(users: map<Id, User>, t: Token): (r: Outcome<Id>)
    ensures r.Ok? <==> t.Decoded? && t.id in users && users[t.id].role == AdminRole
    ensures r.Ok? ==> r.value == t.id
    ensures r.Fail? ==> (r.status == 403 <==> t.Decoded? && t.id in users)
    ensures r.Fail? ==> r.status in {401, 403}
  {
    match t
    case NoToken => Fail(401, "Authorization token missing")
    case BadToken => Fail(401, "Invalid token")
    case Decoded(id) =>
      if id !in users then Fail(401, "User not found")
      else if users[id].role != AdminRole then Fail(403, "Admin access required")
      else Ok(200, id)
  }

  // ------------------------------------------------------------- listing

  /** A user as `find({}, { password: 0 })` returns it: every field but the
      password. */
  datatype UserSummary = UserSummary(
    id: Id,
    fullName: string,
    email: string,
    image: string,
    aboutMe: string,
    gender: Gender,
    role: Role,
    userType: UserType,
    document: string,
    isApproved: bool,
    followers: seq<Id>,
    following: seq<Id>,
    posts: seq<Id>,
    profileVisibility: string)

  /** The projection that drops the password. */
  function Summary(id: Id, u: User): (s: UserSummary)
    ensures s.id == id
  {
    UserSummary(id, u.fullName, u.email, u.image, u.aboutMe, u.gender, u.role, u.userType,
                u.document, u.isApproved, u.followers, u.following, u.posts, u.profileVisibility)
  }

  /** Every user, newest first. Ids are handed out in creation order, so
      `sort({ createdAt: -1 })` is descending id order. */
  function UsersNewestFirst(users: map<Id, User>, bound: Id): (r: seq<Id>)
    ensures forall id :: id in r <==> id in users && id < bound
    ensures forall i, j :: 0 <= i < j < |r| ==> r[i] > r[j]
    ensures (forall id :: id in users ==> id < bound) ==> |r| == |users|
  {
    var asc := KeysBelow(users, bound);
    var r := Reversed(asc);
    ReversedIncreasing(asc);
    KeysBelowAll(users, bound);
    r
  }

  /** The listing does not depend on passwords: two users that differ only
      in their password give the same entry. */
  lemma SummaryIgnoresPassword(id: Id, u: User, password: string)
    ensures Summary(id, u.(password := password)) == Summary(id, u)
  {
  }

  /** The summaries of the listed ids, in order. */
  function Summaries(users: map<Id, User>, ids: seq<Id>): (r: seq<UserSummary>)
    requires forall i :: 0 <= i < |ids| ==> ids[i] in users
    ensures |r| == |ids|
    ensures forall i :: 0 <= i < |r| ==> r[i] == Summary(ids[i], users[ids[i]])
  {
    seq(|ids|, i requires 0 <= i < |ids| => Summary(ids[i], users[ids[i]]))
  }

  /** The `pagination` block of the listing. */
  datatype UserPagination = UserPagination(currentPage: int, totalPages: int, totalUsers: nat)

  /** One page of the users, newest first and without passwords, with the
      page count over all users. A negative `skip` makes the store refuse
      the query (500). */
  function UsersPage(users: map<Id, User>, bound: Id, pageQuery: Option<int>, limitQuery: Option<int>)
    : (r: Outcome<(seq<UserSummary>, UserPagination)>)
    requires forall id :: id in users ==> id < bound
    ensures var page := QueryNumber(pageQuery, 1);
      var limit := QueryNumber(limitQuery, 10);
      (r.Fail? <==> SkipOf(page, limit) < 0) &&
      (r.Fail? ==> r.status == 500) &&
      (r.Ok? ==>
        var ids := PageWindow(UsersNewestFirst(users, bound), SkipOf(page, limit), PageSize(limit));
        r.status == 200 && r.value.0 == Summaries(users, ids) &&
        r.value.1 == UserPagination(page, CeilDiv(|users|, limit), |users|))
  {
    var page := QueryNumber(pageQuery, 1);
    var limit := QueryNumber(limitQuery, 10);
    var skip := SkipOf(page, limit);
    if skip < 0 then Fail(500, "Error fetching users")
    else
      var sorted := UsersNewestFirst(users, bound);
      var ids := PageWindow(sorted, skip, PageSize(limit));
      PageHoldsUsers(users, bound, skip, PageSize(limit));
      Ok(200, (Summaries(users, ids), UserPagination(page, CeilDiv(|users|, limit), |users|)))
  }

  /** GET /users: the gate's refusal, or the page. */
  function ListUsers(users: map<Id, User>, bound: Id, t: Token, pageQuery: Option<int>, limitQuery: Option<int>)
    : (r: Outcome<(seq<UserSummary>, UserPagination)>)
    requires forall id :: id in users ==> id < bound
    ensures AdminGate(users, t).Fail? ==>
      r == Fail(AdminGate(users, t).status, AdminGate(users, t).message)
    ensures AdminGate(users, t).Ok? ==> r == UsersPage(users, bound, pageQuery, limitQuery)
  {
    var gate := AdminGate(users, t);
    if gate.Fail? then Fail(gate.status, gate.message) else UsersPage(users, bound, pageQuery, limitQuery)
  }

  /** With a positive limit every user is listed on some page from 1 to
      totalPages, without its password. */
  lemma EveryUserOnAPage(users: map<Id, User>, bound: Id, limit: int, id: Id) returns (page: int)
    requires forall k :: k in users ==> k < bound
    requires limit > 0 && id in users
    ensures 1 <= page <= CeilDiv(|users|, limit)
    ensures OnPage(users, bound, page, limit, id)
  {
    var sorted := UsersNewestFirst(users, bound);
    var k :| 0 <= k < |sorted| && sorted[k] == id;
    page := PageHolding(sorted, limit, k);
    var skip := SkipOf(page, limit);
    var ids := PageWindow(sorted, skip, PageSize(limit));
    UsersPageAt(users, bound, limit, page);
    PageHoldsUsers(users, bound, skip, PageSize(limit));
    var j :| 0 <= j < |ids| && ids[j] == id;
    var listed := Summaries(users, ids);
    assert listed[j] == Summary(id, users[id]);
  }

  /** Every id on a page is a stored user. */
  lemma PageHoldsUsers(users: map<Id, User>, bound: Id, skip: nat, n: nat)
    ensures var ids := PageWindow(UsersNewestFirst(users, bound), skip, n);
      forall i :: 0 <= i < |ids| ==> ids[i] in users
  {
    WindowWithin(UsersNewestFirst(users, bound), skip, n);
  }

  /** The page a positive page number and limit ask for. */
  lemma UsersPageAt(users: map<Id, User>, bound: Id, limit: int, page: int)
    requires forall k :: k in users ==> k < bound
    requires limit > 0 && page >= 1 && SkipOf(page, limit) >= 0
    ensures var ids := PageWindow(UsersNewestFirst(users, bound), SkipOf(page, limit), PageSize(limit));
      (forall i :: 0 <= i < |ids| ==> ids[i] in users) &&
      UsersPage(users, bound, Some(page), Some(limit)) ==
        Ok(200, (Summaries(users, ids), UserPagination(page, CeilDiv(|users|, limit), |users|)))
  {
    PageHoldsUsers(users, bound, SkipOf(page, limit), PageSize(limit));
    assert QueryNumber(Some(page), 1) == page && QueryNumber(Some(limit), 10) == limit;
  }

  /** A page from 1 to totalPages whose window holds position k. */
  lemma PageHolding(s: seq<Id>, limit: int, k: nat) returns (page: int)
    requires limit > 0 && k < |s|
    ensures 1 <= page <= CeilDiv(|s|, limit) && SkipOf(page, limit) >= 0
    ensures s[k] in PageWindow(s, SkipOf(page, limit), PageSize(limit))
  {
    EveryElementOnAPage(s, limit, k);
    page := k / limit + 1;
  }

  /** The user's summary is on that page of the listing. */
  predicate OnPage(users: map<Id, User>, bound: Id, page: int, limit: int, id: Id)
    requires forall k :: k in users ==> k < bound
    requires id in users
  {
    var r := UsersPage(users, bound, Some(page), Some(limit));
    r.Ok? && Summary(id, users[id]) in r.value.0
  }

  // -------------------------------------------------------------- delete

  /** DELETE /users/:id: 404 for an unknown user, otherwise the user
      document is removed. No gate runs on this route, and nothing else
      is touched: other users' lists and the user's posts keep the id. */
  method DeleteUser(db: Db, id: Id) returns (out: Outcome<string>)
    requires db.Valid()
    modifies db`users
    ensures db.Valid()
    ensures id !in old(db.users) ==> out == Fail(404, "User not found") && db.users == old(db.users)
    ensures id in old(db.users) ==> out == Ok(200, "User deleted successfully") && db.users == old(db.users) - {id}
  {
    if id !in db.users {
      return Fail(404, "User not found");
    }
    db.users := db.users - {id};
    out := Ok(200, "User deleted successfully");
  }

  /** After a delete the user is no longer listed, and every other user
      still is. */
  lemma DeletedUserNotListed(users: map<Id, User>, bound: Id, id: Id)
    ensures id !in UsersNewestFirst(users - {id}, bound)
    ensures forall x :: x in UsersNewestFirst(users, bound) && x != id ==> x in UsersNewestFirst(users - {id}, bound)
  {
  }

  // ------------------------------------------------------------ approval

  /** The reply message of a successful approval change. */
  function ApprovalMessage(status: bool): (m: string)
    ensures status ==> m == "User has been approved"
    ensures !status ==> m == "User has been declined"
  {
    "User has been " + (if status then "approved" else "declined")
  }

  /** PUT /users/:userId/approval. `status` is the body's value when it is
      exactly `true` or `false`, and None for anything else (missing, a
      string, a number): that is a 400 and nothing changes. An unknown user
      is a 404. Otherwise `isApproved` becomes the status and the updated
      document, password included, is returned. No gate runs here. */
  method SetApproval(db: Db, userId: Id, status: Option<bool>) returns (out: Outcome<(string, User)>)
    requires db.Valid()
    modifies db`users
    ensures db.Valid()
    ensures status.None? ==> out == Fail(400, "Invalid status value") && db.users == old(db.users)
    ensures status.Some? && userId !in old(db.users) ==>
      out == Fail(404, "User not found") && db.users == old(db.users)
    ensures status.Some? && userId in old(db.users) ==>
      var u := old(db.users)[userId].(isApproved := status.value);
      db.users == old(db.users)[userId := u] && out == Ok(200, (ApprovalMessage(status.value), u))
  {
    if status.None? {
      return Fail(400, "Invalid status value");
    }
    if userId !in db.users {
      return Fail(404, "User not found");
    }
    var u := db.users[userId].(isApproved := status.value);
    db.users := db.users[userId := u];
    out := Ok(200, (ApprovalMessage(status.value), u));
  }

  /** Setting an approval twice keeps only the second; setting the same
      status again changes nothing. */
  lemma ApprovalLastWriteWins(users: map<Id, User>, userId: Id, a: bool, b: bool)
    requires userId in users
    ensures var once := users[userId := users[userId].(isApproved := a)];
      once[userId := once[userId].(isApproved := b)] == users[userId := users[userId].(isApproved := b)]
    ensures var once := users[userId := users[userId].(isApproved := a)];
      once[userId := once[userId].(isApproved := a)] == once
  {
  }
}

=== FILE: auth.dfy ===
/** Authentication: the JSON Web Token payload that authMiddleware decodes
    and puts on `req.user`. Signing and verification are foreign calls; a
    token that verifies decodes to the payload it was signed with. */
module Auth {
  import opened Models

  /** A decoded payload: its claims by property name. */
  datatype Payload = Payload(claims: map<string, Id>)

  /** The only payload the server signs, at registration and at login:
      `{ id: user._id }`. */
  function Issued(id: Id): Payload {
    Payload(map["id" := id])
  }

  /** Reading property `key` of `req.user`: undefined when the payload has
      no such claim. */
  function Claim(p: Payload, key: string): (r: Option<Id>)
    ensures r.Some? <==> key in p.claims
    ensures r.Some? ==> r.value == p.claims[key]
  {
    if key in p.claims then Some(p.claims[key]) else None
  }

  /** On every token the server issues, `req.user.id` is the user and
      `req.user._id` is undefined. */
  lemma IssuedClaims(id: Id)
    ensures Claim(Issued(id), "id") == Some(id)
    ensures Claim(Issued(id), "_id") == None
  {
    assert "_id" != "id" by {
      assert "_id"[0] != "id"[0];
    }
  }
}

=== FILE: chatbot.dfy ===
/** The campus assistant: an ordered chain of keyword rules over the
    lower-cased message, each rule answering with a fixed reply, and five
    fixed replies to choose from when nothing matches. */
module Chatbot {
  import opened Strings
  import opened Models

  // ------------------------------------------------------------- keywords

  /** The keyword lists the rules test, one per test. */
  datatype Topic =
    | Greet
    | CampusTopic
    | Location
    | Hours
    | CourseTopic
    | Registration
    | Schedule
    | EventTopic
    | AppTopic
    | Usage
    | Problem
    | FacultyGrade
    | Assignment
    | StudentGrade

  function Keywords(t: Topic): seq<string> {
    match t
    case Greet => ["hi", "hello", "hey", "greetings"]
    case CampusTopic => ["campus", "college", "university", "school"]
    case Location => ["map", "location", "where", "find"]
    case Hours => ["hours", "open", "close", "timing"]
    case CourseTopic => ["course", "class", "subject", "lecture", "academic"]
    case Registration => ["register", "sign up", "enroll", "join"]
    case Schedule => ["schedule", "timetable", "timing"]
    case EventTopic => ["event", "workshop", "seminar", "conference", "fest"]
    case AppTopic => ["app", "website", "portal", "system", "platform", "how to"]
    case Usage => ["use", "navigate", "find"]
    case Problem => ["problem", "issue", "error", "bug", "not working"]
    case FacultyGrade => ["grade", "assessment", "evaluation", "mark"]
    case Assignment => ["assignment", "homework", "project", "submission"]
    case StudentGrade => ["grade", "result", "score", "mark"]
  }

  /** `containsAny(lowerMessage, [...])` for one of the lists. */
  predicate Mentions(lower: string, t: Topic) {
    ContainsAny(lower, Keywords(t))
  }

  /** Which rule of the chain answers a message. */
  datatype Reply =
    | Greeting
    | CampusMap | CampusHours | CampusGeneral
    | CourseRegistration | CourseSchedule | CourseGeneral
    | Events
    | AppUsage | AppProblem | AppGeneral
    | FacultyGrades
    | StudentAssignments | StudentGrades
    | Fallback
  {
    predicate IsCampus() { this == CampusMap || this == CampusHours || this == CampusGeneral }
    predicate IsCourse() { this == CourseRegistration || this == CourseSchedule || this == CourseGeneral }
    predicate IsApp() { this == AppUsage || this == AppProblem || this == AppGeneral }
    predicate IsTyped() { this == FacultyGrades || this == StudentAssignments || this == StudentGrades || this == Fallback }
  }

  /** No rule before the type-dependent ones matches. */
  predicate NoTopic(lower: string) {
    !Mentions(lower, Greet) && !Mentions(lower, CampusTopic) &&
    !Mentions(lower, CourseTopic) && !Mentions(lower, EventTopic) && !Mentions(lower, AppTopic)
  }

  /** The campus rule's sub-rules: location, then hours, then the
      general reply. */
  function CampusReply(lower: string): (r: Reply)
    ensures r.IsCampus()
    ensures r == CampusMap <==> Mentions(lower, Location)
    ensures r == CampusHours <==> !Mentions(lower, Location) && Mentions(lower, Hours)
  {
    if Mentions(lower, Location) then CampusMap
    else if Mentions(lower, Hours) then CampusHours
    else CampusGeneral
  }

  /** The course rule's sub-rules: registration, then schedule, then the
      general reply. */
  function CourseReply(lower: string): (r: Reply)
    ensures r.IsCourse()
    ensures r == CourseRegistration <==> Mentions(lower, Registration)
    ensures r == CourseSchedule <==> !Mentions(lower, Registration) && Mentions(lower, Schedule)
  {
    if Mentions(lower, Registration) then CourseRegistration
    else if Mentions(lower, Schedule) then CourseSchedule
    else CourseGeneral
  }

  /** The platform rule's sub-rules: usage, then problems, then the general
      reply. */
  function AppReply(lower: string): (r: Reply)
    ensures r.IsApp()
    ensures r == AppUsage <==> Mentions(lower, Usage)
    ensures r == AppProblem <==> !Mentions(lower, Usage) && Mentions(lower, Problem)
  {
    if Mentions(lower, Usage) then AppUsage
    else if Mentions(lower, Problem) then AppProblem
    else AppGeneral
  }

  /** The rules that read the requester's type, then the fallback. */
  function TypedReply(lower: string, userType: Option<UserType>): (r: Reply)
    ensures r == FacultyGrades <==> userType == Some(Faculty) && Mentions(lower, FacultyGrade)
    ensures r == StudentAssignments <==> userType == Some(Student) && Mentions(lower, Assignment)
    ensures r == StudentGrades <==>
      userType == Some(Student) && !Mentions(lower, Assignment) && Mentions(lower, StudentGrade)
    ensures r.IsTyped()
  {
    if userType == Some(Faculty) && Mentions(lower, FacultyGrade) then FacultyGrades
    else if userType == Some(Student) && Mentions(lower, Assignment) then StudentAssignments
    else if userType == Some(Student) && Mentions(lower, StudentGrade) then StudentGrades
    else Fallback
  }

  /** The rule chain of getBotResponse over an already lower-cased message;
      `userType` is the requester's type, missing when no user was found.
      Greeting, campus, course, events and platform are tried in that
      order, and only a message matching none of them reaches the
      type-dependent rules. */
  function Classify(lower: string, userType: Option<UserType>): (r: Reply)
    ensures r == Greeting <==> Mentions(lower, Greet)
    ensures r.IsCampus() <==> !Mentions(lower, Greet) && Mentions(lower, CampusTopic)
    ensures r.IsCourse() ==> !Mentions(lower, Greet) && !Mentions(lower, CampusTopic) && Mentions(lower, CourseTopic)
    ensures r == Events ==> Mentions(lower, EventTopic) && !Mentions(lower, CourseTopic)
    ensures r.IsApp() ==> Mentions(lower, AppTopic) && !Mentions(lower, EventTopic)
    ensures r.IsTyped() <==> NoTopic(lower)
  {
    if Mentions(lower, Greet) then Greeting
    else if Mentions(lower, CampusTopic) then CampusReply(lower)
    else if Mentions(lower, CourseTopic) then CourseReply(lower)
    else if Mentions(lower, EventTopic) then Events
    else if Mentions(lower, AppTopic) then AppReply(lower)
    else TypedReply(lower, userType)
  }

  // -------------------------------------------------------------- replies

  /** The five replies of the fallback, in their order. */
  const DefaultReplies := [
    "I'm not sure I understand. Could you please rephrase your question?",
    "I don't have information on that topic yet. Is there something else I can help you with?",
    "That's an interesting question. Let me suggest you check with the relevant department for more accurate information.",
    "I'm still learning! Could you ask something about campus facilities, courses, or events?",
    "I'm not programmed to answer that specific question. Can I help you with something else?"
  ]

  /** The text of every rule but the greeting and the fallback. */
  function FixedText(r: Reply): string
    requires r != Greeting && r != Fallback
  {
    match r
    case CampusMap => "You can find the campus map in the Resources section. Is there a specific building you're looking for?"
    case CampusHours => "The main campus is open from 7:00 AM to 10:00 PM on weekdays, and 8:00 AM to 6:00 PM on weekends."
    case CampusGeneral => "Our campus offers state-of-the-art facilities including libraries, labs, sports complexes, and dining options. What would you like to know about?"
    case CourseRegistration => "Course registration is available through the Student Portal. The registration period for the next semester begins on August 15th."
    case CourseSchedule => "Your course schedule can be viewed in the Academics section of your student portal."
    case CourseGeneral => "We offer a wide range of courses across various disciplines. You can browse the course catalog in the Academics section."
    case Events => "You can find upcoming events on the Events page. There are several workshops and seminars scheduled for this month."
    case AppUsage => "Our platform has several features including messaging, posts, announcements, and groups. Is there a specific feature you need help with?"
    case AppProblem => "I'm sorry you're experiencing issues. Please try refreshing the page or clearing your cache. If the problem persists, contact our IT support at support@campusvibes.com."
    case AppGeneral => "CampusVibes is designed to enhance your campus experience by connecting you with peers, faculty, and resources. What would you like to know about using the platform?"
    case FacultyGrades => "You can enter and manage student grades through the Faculty Portal under the Assessments section."
    case StudentAssignments => "You can view and submit assignments through the Assignments section in your student portal."
    case StudentGrades => "Your grades and academic progress can be viewed in the Academics section of your student portal."
  }

  /** The greeting addresses the user by full name. */
  function GreetingText(fullName: string): (r: string)
    ensures StartsWith(r, "Hello " + fullName + "!")
  {
    var head := "Hello " + fullName + "!";
    var r := head + " How can I help you today?";
    assert r[..|head|] == head;
    r
  }

  /** The requester as `findById(...).select("fullName type")` loads it. */
  datatype BotUser = BotUser(fullName: string, userType: UserType)

  /** getBotResponse: the reply to a message, or None where the code throws
      — on a missing message (`toLowerCase` of undefined), or on a missing
      user when the greeting reads `fullName` or control reaches the type
      test. `pick` stands for `Math.floor(Math.random() * 5)`. */
  function BotResponse(message: Option<string>, user: Option<BotUser>, pick: nat): (r: Option<string>)
    requires pick < |DefaultReplies|
    ensures message.None? ==> r.None?
    ensures message.Some? && user.Some? ==> r.Some?
    ensures message.Some? && user.None? ==>
      (r.None? <==> Classify(Lower(message.value), None) in {Greeting, Fallback})
    ensures message.Some? && user.Some? && Classify(Lower(message.value), Some(user.value.userType)) == Greeting ==>
      r == Some(GreetingText(user.value.fullName))
    ensures message.Some? && r.Some? && Classify(Lower(message.value), if user.Some? then Some(user.value.userType) else None) == Fallback ==>
      r.value == DefaultReplies[pick]
  {
    if message.None? then None
    else
      var t := if user.Some? then Some(user.value.userType) else None;
      var rule := Classify(Lower(message.value), t);
      if rule == Greeting then
        (if user.Some? then Some(GreetingText(user.value.fullName)) else None)
      else if rule == Fallback then
        (if user.Some? then Some(DefaultReplies[pick]) else None)
      else Some(FixedText(rule))
  }

  /** processMessage: 200 with the reply, or 500 when building it throws. */
  function ProcessMessage(message: Option<string>, user: Option<BotUser>, pick: nat): (out: Outcome<string>)
    requires pick < |DefaultReplies|
    ensures out.Ok? <==> BotResponse(message, user, pick).Some?
    ensures out.Ok? ==> out.status == 200 && out.value == BotResponse(message, user, pick).value
    ensures out.Fail? ==> out.status == 500 && out.message == "Server error"
  {
    match BotResponse(message, user, pick)
    case Some(text) => Ok(200, text)
    case None => Fail(500, "Server error")
  }

  // ------------------------------------------------------------ properties

  /** Matching ignores case: a message and its lower-cased form get the same
      reply. */
  lemma CaseInsensitive(message: string, user: Option<BotUser>, pick: nat)
    requires pick < |DefaultReplies|
    ensures BotResponse(Some(message), user, pick) == BotResponse(Some(Lower(message)), user, pick)
  {
    LowerIdempotent(message);
  }

  /** The greeting is tested on substrings: "this campus" holds "hi" and
      is greeted, not answered about the campus. */
  lemma ThisCampusIsGreeted(userType: Option<UserType>)
    ensures Classify("this campus", userType) == Greeting
  {
    var s := "this campus";
    assert s[1..3] == "hi";
    assert OccursAt(s, "hi", 1);
    IncludesIff(s, "hi");
    assert Includes(s, Keywords(Greet)[0]);
  }

  /** Inside the campus rule a location keyword wins over an hours keyword. */
  lemma LocationBeatsHours(lower: string, userType: Option<UserType>)
    requires !Mentions(lower, Greet) && Mentions(lower, CampusTopic)
    requires Mentions(lower, Location) && Mentions(lower, Hours)
    ensures Classify(lower, userType) == CampusMap
  {
  }

  /** The type-dependent replies need the matching type: the same message
      never gets the faculty grade reply for a student, nor a student reply
      for a faculty member. */
  lemma TypeGating(lower: string)
    ensures Classify(lower, Some(Student)) != FacultyGrades
    ensures Classify(lower, Some(Faculty)) != StudentAssignments
    ensures Classify(lower, Some(Faculty)) != StudentGrades
    ensures NoTopic(lower) && Mentions(lower, FacultyGrade) ==> Classify(lower, Some(Faculty)) == FacultyGrades
  {
  }

  /** Every fallback reply is one of the five defaults, whichever is
      picked. */
  lemma FallbackIsADefault(message: string, user: BotUser, pick: nat)
    requires pick < |DefaultReplies|
    requires Classify(Lower(message), Some(user.userType)) == Fallback
    ensures BotResponse(Some(message), Some(user), pick).value in DefaultReplies
  {
    var r := BotResponse(Some(message), Some(user), pick);
    assert r.value == DefaultReplies[pick];
  }
}

=== FILE: dashboard.dfy ===
/** The dashboard's gender distribution: the store groups the users by
    gender and counts them, and the handler folds the (gender, count) pairs
    into an object that starts with male, female and other at 0. */
module Dashboard {
  import opened Models
  import opened Lists

  /** One row of the `$group` / `$project` aggregation. */
  datatype GenderCount = GenderCount(gender: string, count: nat)

  /** The object the fold starts from. */
  const Base: map<string, nat> := map["male" := 0, "female" := 0, "other" := 0]

  /** `users.forEach(item => genderData[item.gender] = item.count)`, as a
      function of the rows folded so far: each row overwrites its key. */
  function Tallied(rows: seq<GenderCount>): (r: map<string, nat>)
    ensures "male" in r && "female" in r && "other" in r
    ensures forall i :: 0 <= i < |rows| ==> rows[i].gender in r
    decreases |rows|
  {
    if rows == [] then Base
    else
      var front := rows[..|rows| - 1];
      var last := rows[|rows| - 1];
      assert forall i :: 0 <= i < |front| ==> front[i] == rows[i];
      Tallied(front)[last.gender := last.count]
  }

  /** getGenderDistribution's fold, one row at a time. */
  method TallyGenders(rows: seq<GenderCount>) returns (data: map<string, nat>)
    ensures data == Tallied(rows)
  {
    data := map["male" := 0, "female" := 0, "other" := 0];
    var i := 0;
    while i < |rows|
      invariant 0 <= i <= |rows|
      invariant data == Tallied(rows[..i])
    {
      assert rows[..i + 1][..i] == rows[..i];
      data := data[rows[i].gender := rows[i].count];
      i := i + 1;
    }
    assert rows[..|rows|] == rows;
  }

  /** The reply: 200 with the folded object. */
  method GetGenderDistribution(rows: seq<GenderCount>) returns (out: Outcome<map<string, nat>>)
    ensures out.Ok? && out.status == 200 && out.value == Tallied(rows)
  {
    var data := TallyGenders(rows);
    out := Ok(200, data);
  }

  /** The fold's keys are the three defaults plus every row's gender. */
  lemma {:induction false} TalliedKeys(rows: seq<GenderCount>, k: string)
    ensures k in Tallied(rows) <==> k in Base || exists i :: 0 <= i < |rows| && rows[i].gender == k
    decreases |rows|
  {
    if rows != [] {
      var front := rows[..|rows| - 1];
      TalliedKeys(front, k);
      if exists i :: 0 <= i < |front| && front[i].gender == k {
        var i :| 0 <= i < |front| && front[i].gender == k;
        assert rows[i].gender == k;
      }
      if exists i :: 0 <= i < |rows| && rows[i].gender == k {
        var i :| 0 <= i < |rows| && rows[i].gender == k;
        if i < |front| {
          assert front[i].gender == k;
        }
      }
    }
  }

  /** A default key that no row names keeps 0. */
  lemma {:induction false} TalliedUnnamed(rows: seq<GenderCount>, k: string)
    requires k in Base
    requires forall i :: 0 <= i < |rows| ==> rows[i].gender != k
    ensures Tallied(rows)[k] == 0
    decreases |rows|
  {
    if rows != [] {
      var front := rows[..|rows| - 1];
      assert forall i :: 0 <= i < |front| ==> front[i] == rows[i];
      TalliedUnnamed(front, k);
    }
  }

  /** The last row naming a key decides its value. */
  lemma {:induction false} TalliedLastWins(rows: seq<GenderCount>, i: nat)
    requires i < |rows|
    requires forall j :: i < j < |rows| ==> rows[j].gender != rows[i].gender
    ensures Tallied(rows)[rows[i].gender] == rows[i].count
    decreases |rows|
  {
    if i < |rows| - 1 {
      var front := rows[..|rows| - 1];
      assert forall j :: 0 <= j < |front| ==> front[j] == rows[j];
      TalliedLastWins(front, i);
    }
  }

  // ------------------------------------------------------- the aggregation

  /** The number of users with gender `g`. */
  function CountOf(genders: seq<Gender>, g: Gender): (n: nat)
    ensures n <= |genders|
  {
    if genders == [] then 0
    else (if genders[0] == g then 1 else 0) + CountOf(genders[1..], g)
  }

  /** Every user has one of the three genders, so the three counts add up
      to the number of users. */
  lemma {:induction false} CountsAddUp(genders: seq<Gender>)
    ensures CountOf(genders, Male) + CountOf(genders, Female) + CountOf(genders, OtherGender) == |genders|
  {
    if genders != [] {
      CountsAddUp(genders[1..]);
    }
  }

  /** The rows `$group: { _id: "$gender", count: { $sum: 1 } }` produces
      over the users' genders, in any order: one row per gender that
      occurs, named by the gender and carrying its count. */
  predicate IsGrouping(rows: seq<GenderCount>, genders: seq<Gender>) {
    (forall i, j :: 0 <= i < j < |rows| ==> rows[i].gender != rows[j].gender) &&
    (forall i :: 0 <= i < |rows| ==> RowCounts(rows[i], genders)) &&
    (forall g :: CountOf(genders, g) > 0 ==> exists i :: 0 <= i < |rows| && rows[i].gender == GenderName(g))
  }

  /** The row names a gender and carries its (non-zero) number of users. */
  predicate RowCounts(row: GenderCount, genders: seq<Gender>) {
    var g := ParseGender(row.gender);
    g.Some? && row.count == CountOf(genders, g.value) > 0
  }

  /** Over a grouping, a gender's entry is its number of users, 0 for a
      gender nobody has. */
  lemma GroupingEntry(rows: seq<GenderCount>, genders: seq<Gender>, g: Gender)
    requires IsGrouping(rows, genders)
    ensures Tallied(rows)[GenderName(g)] == CountOf(genders, g)
  {
    var k := GenderName(g);
    if CountOf(genders, g) > 0 {
      var i :| 0 <= i < |rows| && rows[i].gender == k;
      assert RowCounts(rows[i], genders);
      TalliedLastWins(rows, i);
    } else {
      forall i | 0 <= i < |rows|
        ensures rows[i].gender != k
      {
        assert RowCounts(rows[i], genders);
      }
      TalliedUnnamed(rows, k);
    }
  }

  /** Over a grouping the three entries sum to the number of users. */
  lemma GroupingAddsUp(rows: seq<GenderCount>, genders: seq<Gender>)
    requires IsGrouping(rows, genders)
    ensures Tallied(rows)["male"] + Tallied(rows)["female"] + Tallied(rows)["other"] == |genders|
  {
    GroupingEntry(rows, genders, Male);
    GroupingEntry(rows, genders, Female);
    GroupingEntry(rows, genders, OtherGender);
    CountsAddUp(genders);
  }

  /** The genders of the stored users, in store order. */
  function UserGenders(users: map<Id, User>, bound: Id): (r: seq<Gender>)
    ensures (forall id :: id in users ==> id < bound) ==> |r| == |users|
  {
    var ids := KeysBelow(users, bound);
    KeysBelowAll(users, bound);
    seq(|ids|, i requires 0 <= i < |ids| => users[ids[i]].gender)
  }

  /** The distribution over the store's grouping of the users counts every
      user once. */
  lemma DistributionCountsEveryUser(users: map<Id, User>, bound: Id, rows: seq<GenderCount>)
    requires forall id :: id in users ==> id < bound
    requires IsGrouping(rows, UserGenders(users, bound))
    ensures Tallied(rows)["male"] + Tallied(rows)["female"] + Tallied(rows)["other"] == |users|
  {
    GroupingAddsUp(rows, UserGenders(users, bound));
  }
}

=== FILE: feed.dfy ===
/** The client feeds of the home page and the reels page: each fetched
    page is merged into the list already shown, keeping only posts whose
    `_id` is not there yet; the reels page shows the video posts of that
    list; "Show More" asks for the next page. */
module Feed {
  import opened Lists

  /** A post as the client holds it: its `_id`, its `type` and the rest of
      its JSON, which the merge does not look at. */
  datatype FeedPost = FeedPost(id: string, postType: string, content: string)

  /** `list.some(p => p._id === id)`. */
  predicate HasId(list: seq<FeedPost>, id: string) {
    exists i :: 0 <= i < |list| && list[i].id == id
  }

  /** No two posts of the list share an `_id`. */
  predicate IdsDistinct(list: seq<FeedPost>) {
    forall i, j :: 0 <= i < j < |list| ==> list[i].id != list[j].id
  }

  /** The fetched posts whose `_id` the previous list does not hold, in
      fetched order. */
  function Unseen(prev: seq<FeedPost>, fetched: seq<FeedPost>): (r: seq<FeedPost>)
    ensures forall p :: p in r <==> p in fetched && !HasId(prev, p.id)
    ensures InOrderOf(r, fetched)
  {
    var keep := (p: FeedPost) => !HasId(prev, p.id);
    FilterInOrder(fetched, keep);
    Filter(fetched, keep)
  }

  /** `[...prev, ...fetched.filter(post => !prev.some(p => p._id === post._id))]`. */
  function Merge(prev: seq<FeedPost>, fetched: seq<FeedPost>): (r: seq<FeedPost>)
    ensures |r| >= |prev| && r[..|prev|] == prev
    ensures forall p :: p in r[|prev|..] <==> p in fetched && !HasId(prev, p.id)
    ensures InOrderOf(r[|prev|..], fetched)
  {
    var r := prev + Unseen(prev, fetched);
    assert r[|prev|..] == Unseen(prev, fetched);
    r
  }

  /** Every fetched post's `_id` is held by the merged list. */
  lemma MergeCoversFetched(prev: seq<FeedPost>, fetched: seq<FeedPost>)
    ensures forall k :: 0 <= k < |fetched| ==> HasId(Merge(prev, fetched), fetched[k].id)
  {
    var r := Merge(prev, fetched);
    forall k | 0 <= k < |fetched|
      ensures HasId(r, fetched[k].id)
    {
      var p := fetched[k];
      if HasId(prev, p.id) {
        var i :| 0 <= i < |prev| && prev[i].id == p.id;
        assert r[i] == prev[i];
      } else {
        assert p in r[|prev|..];
        var j :| 0 <= j < |r[|prev|..]| && r[|prev|..][j] == p;
        assert r[|prev| + j] == p;
      }
    }
  }

  /** A page whose every post is already shown changes nothing. */
  lemma MergeSeenPage(prev: seq<FeedPost>, fetched: seq<FeedPost>)
    requires forall k :: 0 <= k < |fetched| ==> HasId(prev, fetched[k].id)
    ensures Merge(prev, fetched) == prev
  {
    UnseenOfSeenPage(prev, fetched);
    assert Merge(prev, fetched) == prev + [];
  }

  /** Nothing of such a page is unseen. */
  lemma {:induction false} UnseenOfSeenPage(prev: seq<FeedPost>, fetched: seq<FeedPost>)
    requires forall k :: 0 <= k < |fetched| ==> HasId(prev, fetched[k].id)
    ensures Unseen(prev, fetched) == []
  {
    if fetched != [] {
      assert HasId(prev, fetched[0].id);
      UnseenOfSeenPage(prev, fetched[1..]);
    }
  }

  /** Merging the same page again changes nothing. */
  lemma MergeIdempotent(prev: seq<FeedPost>, fetched: seq<FeedPost>)
    ensures Merge(Merge(prev, fetched), fetched) == Merge(prev, fetched)
  {
    MergeCoversFetched(prev, fetched);
    MergeSeenPage(Merge(prev, fetched), fetched);
  }

  /** The posts of a filtered page keep distinct ids. */
  lemma {:induction false} UnseenDistinct(prev: seq<FeedPost>, fetched: seq<FeedPost>)
    requires IdsDistinct(fetched)
    ensures IdsDistinct(Unseen(prev, fetched))
  {
    if fetched != [] {
      var rest := fetched[1..];
      assert IdsDistinct(rest) by {
        forall i, j | 0 <= i < j < |rest|
          ensures rest[i].id != rest[j].id
        {
          assert rest[i] == fetched[i + 1] && rest[j] == fetched[j + 1];
        }
      }
      UnseenDistinct(prev, rest);
      var tail := Unseen(prev, rest);
      assert Unseen(prev, fetched) ==
        (if !HasId(prev, fetched[0].id) then [fetched[0]] else []) + tail;
      forall k | 0 <= k < |tail|
        ensures tail[k].id != fetched[0].id
      {
        assert tail[k] in rest;
        var j :| 0 <= j < |rest| && rest[j] == tail[k];
        assert rest[j] == fetched[j + 1];
      }
    }
  }

  /** When both the shown list and the fetched page have distinct ids, so
      does the merged list. */
  lemma MergeDistinct(prev: seq<FeedPost>, fetched: seq<FeedPost>)
    requires IdsDistinct(prev) && IdsDistinct(fetched)
    ensures IdsDistinct(Merge(prev, fetched))
  {
    var u := Unseen(prev, fetched);
    UnseenDistinct(prev, fetched);
    var r := Merge(prev, fetched);
    assert r == prev + u;
    forall i, j | 0 <= i < j < |r|
      ensures r[i].id != r[j].id
    {
      if j >= |prev| {
        if i >= |prev| {
          assert r[i] == u[i - |prev|] && r[j] == u[j - |prev|];
        } else {
          assert r[j] == u[j - |prev|];
          assert u[j - |prev|] in u;
          assert !HasId(prev, r[j].id);
        }
      }
    }
  }

  // ----------------------------------------------------------- reels

  /** `posts.filter(post => post.type === "video")`. */
  function VideoPosts(posts: seq<FeedPost>): (r: seq<FeedPost>)
    ensures forall p :: p in r <==> p in posts && p.postType == "video"
    ensures |r| <= |posts|
    ensures InOrderOf(r, posts)
  {
    var video := (p: FeedPost) => p.postType == "video";
    FilterInOrder(posts, video);
    Filter(posts, video)
  }

  /** The reels after a merge are the reels already shown followed by the
      video posts of the unseen part of the page, in order. */
  lemma VideoPostsOfMerge(prev: seq<FeedPost>, fetched: seq<FeedPost>)
    ensures VideoPosts(Merge(prev, fetched)) == VideoPosts(prev) + VideoPosts(Unseen(prev, fetched))
  {
    FilterAppend(prev, Unseen(prev, fetched), (p: FeedPost) => p.postType == "video");
  }

  // ------------------------------------------------------- show more

  /** The feed state the button reads and writes. */
  datatype FeedView = FeedView(posts: seq<FeedPost>, page: int, totalPages: int, loading: bool)

  /** `!loading && posts.length > 0 && page < totalPages`: the same test on
      both pages, over every fetched post. */
  predicate ShowMore(v: FeedView) {
    !v.loading && |v.posts| > 0 && v.page < v.totalPages
  }

  /** `setPage(prev => prev + 1)`. */
  function ClickShowMore(v: FeedView): (r: FeedView)
    requires ShowMore(v)
    ensures r.posts == v.posts && r.totalPages == v.totalPages && r.loading == v.loading
    ensures r.page - v.page == 1
  {
    v.(page := v.page + 1)
  }

  /** A fetched page arriving: the merge, the server's page count, and the
      loading flag cleared. */
  function PageLoaded(v: FeedView, fetched: seq<FeedPost>, totalPages: int): (r: FeedView)
    ensures |r.posts| >= |v.posts| && r.posts[..|v.posts|] == v.posts
    ensures r.page == v.page && r.totalPages == totalPages && !r.loading
  {
    FeedView(Merge(v.posts, fetched), v.page, totalPages, false)
  }

  /** Clicking never asks for a page past the last one. */
  lemma ClickStaysInRange(v: FeedView)
    requires ShowMore(v)
    ensures ClickShowMore(v).page <= v.totalPages
  {
  }

  /** On the reels page the button shows even when no video post is
      listed: a list holding only a text post, on page 1 of 2. */
  lemma ShowMoreWithoutReels()
    ensures var v := FeedView([FeedPost("a", "text", "hello")], 1, 2, false);
      ShowMore(v) && VideoPosts(v.posts) == []
  {
  }
}

=== FILE: follow_requests.dfy ===
/** Follow requests for private profiles: a request is created pending and
    its addressee accepts or rejects it. Accepting links the two users.

    Every handler here reads the caller from `req.user._id`. The handlers
    are modelled for any value of that read (`userId`, `None` when it is
    undefined). The routes then apply them to the payload authMiddleware
    decodes, which has an `id` claim and no `_id` claim. */
module FollowRequests {
  import opened Models
  import opened Lists
  import opened SocialGraph
  import opened Store
  import opened Auth

  /** A pending request from `from` to `to` is stored. */
  predicate HasPending(reqs: map<Id, FollowRequest>, from: Id, to: Id) {
    exists i :: i in reqs && reqs[i] == FollowRequest(from, to, RequestPending)
  }

  /** At most one pending request per (from, to) pair. */
  predicate UniquePending(reqs: map<Id, FollowRequest>) {
    forall i, j ::
      (i in reqs && j in reqs && i != j &&
       reqs[i].status == RequestPending && reqs[j].status == RequestPending) ==>
      reqs[i].from != reqs[j].from || reqs[i].to != reqs[j].to
  }

  /** The refusals of sendFollowRequest. */
  datatype SendError = NoAuth | NoTarget | SelfRequest | RequesterMissing | AlreadyFollowing | AlreadySent

  function SendErrorStatus(e: SendError): (n: nat)
    ensures n in {400, 401, 404}
  {
    match e
    case NoAuth => 401
    case RequesterMissing => 404
    case _ => 400
  }

  function SendErrorMessage(e: SendError): string {
    match e
    case NoAuth => "Authentication required."
    case NoTarget => "Target userId is required."
    case SelfRequest => "Cannot send follow request to yourself."
    case RequesterMissing => "Requesting user not found."
    case AlreadyFollowing => "Already following this user."
    case AlreadySent => "Follow request already sent."
  }

  /** The guard chain of sendFollowRequest, in its order; `None` lets the
      request through. `userId` is `req.user._id`, absent when undefined. */
  function SendRefusal(users: map<Id, User>, reqs: map<Id, FollowRequest>,
                       userId: Option<Id>, target: Option<Id>): (r: Option<SendError>)
    ensures r.None? <==>
      userId.Some? && target.Some? && userId.value != target.value && userId.value in users &&
      target.value !in users[userId.value].following && !HasPending(reqs, userId.value, target.value)
    ensures userId.None? ==> r == Some(NoAuth)
    ensures userId.Some? && target.None? ==> r == Some(NoTarget)
    ensures userId.Some? && target.Some? && userId.value == target.value ==> r == Some(SelfRequest)
    ensures r == Some(AlreadySent) ==> userId.Some? && target.Some? && HasPending(reqs, userId.value, target.value)
  {
    if userId.None? then Some(NoAuth)
    else if target.None? then Some(NoTarget)
    else if userId.value == target.value then Some(SelfRequest)
    else if userId.value !in users then Some(RequesterMissing)
    else if target.value in users[userId.value].following then Some(AlreadyFollowing)
    else if HasPending(reqs, userId.value, target.value) then Some(AlreadySent)
    else None
  }

  /** sendFollowRequest: after the guards, stores one new pending request.
      The target's existence is not checked. */
  method SendFollowRequest(db: Db, userId: Option<Id>, target: Option<Id>) returns (out: Outcome<Id>)
    requires db.Valid()
    modifies db`requests, db`nextId
    ensures db.Valid()
    ensures var refusal := SendRefusal(old(db.users), old(db.requests), userId, target);
      if refusal.Some? then
        out == Fail(SendErrorStatus(refusal.value), SendErrorMessage(refusal.value)) &&
        db.requests == old(db.requests)
      else
        out.Ok? && out.status == 201 && out.value !in old(db.requests) &&
        db.requests == old(db.requests)[out.value := FollowRequest(userId.value, target.value, RequestPending)]
  {
    var refusal := SendRefusal(db.users, db.requests, userId, target);
    if refusal.Some? {
      return Fail(SendErrorStatus(refusal.value), SendErrorMessage(refusal.value));
    }
    var id := db.InsertRequest(FollowRequest(userId.value, target.value, RequestPending));
    out := Ok(201, id);
  }

  /** As written, no token the server issues gets past the first guard:
      every send is refused with 401. */
  lemma EverySendRefused(users: map<Id, User>, reqs: map<Id, FollowRequest>, uid: Id, target: Option<Id>)
    ensures SendRefusal(users, reqs, Claim(Issued(uid), "_id"), target) == Some(NoAuth)
    ensures SendErrorStatus(NoAuth) == 401
  {
    IssuedClaims(uid);
  }

  /** POST /api/follow-requests/:userId behind authMiddleware, as written:
      the reply is always 401 and nothing is stored. */
  method SendRoute(db: Db, uid: Id, target: Option<Id>) returns (out: Outcome<Id>)
    requires db.Valid()
    modifies db`requests, db`nextId
    ensures db.Valid()
    ensures out == Fail(401, "Authentication required.") && db.requests == old(db.requests)
  {
    EverySendRefused(db.users, db.requests, uid, target);
    out := SendFollowRequest(db, Claim(Issued(uid), "_id"), target);
  }

  /** Read from `req.user.id`, the caller is known, and a send to another
      user whom the caller does not follow and has no pending request to
      passes the guards. */
  lemma CorrectedSendPasses(users: map<Id, User>, reqs: map<Id, FollowRequest>, uid: Id, target: Id)
    requires uid in users && uid != target && target !in users[uid].following
    requires !HasPending(reqs, uid, target)
    ensures SendRefusal(users, reqs, Claim(Issued(uid), "id"), Some(target)).None?
  {
    IssuedClaims(uid);
  }

  /** A request that passes the guards keeps pending requests unique. */
  lemma SendKeepsUniquePending(users: map<Id, User>, reqs: map<Id, FollowRequest>,
                               caller: Option<Id>, target: Option<Id>, id: Id)
    requires UniquePending(reqs)
    requires id !in reqs
    requires SendRefusal(users, reqs, caller, target).None?
    ensures UniquePending(reqs[id := FollowRequest(caller.value, target.value, RequestPending)])
  {
    var r := reqs[id := FollowRequest(caller.value, target.value, RequestPending)];
    forall i, j | i in r && j in r && i != j && r[i].status == RequestPending && r[j].status == RequestPending
      ensures r[i].from != r[j].from || r[i].to != r[j].to
    {
      if i == id {
        assert reqs[j] != FollowRequest(caller.value, target.value, RequestPending);
      } else if j == id {
        assert reqs[i] != FollowRequest(caller.value, target.value, RequestPending);
      }
    }
  }

  /** The message of the TypeError that `undefined.toString()` throws. */
  const UndefinedToString := "Cannot read properties of undefined (reading 'toString')"

  /** The guards of accept and reject: the request exists, and is
      addressed to `userId`. Comparing with an undefined `userId` throws,
      and the catch answers 500 with the error's message. */
  function ResolveRefusal(reqs: map<Id, FollowRequest>, userId: Option<Id>, rid: Id): (r: Option<(nat, string)>)
    ensures r.None? <==> rid in reqs && userId == Some(reqs[rid].to)
    ensures rid !in reqs ==> r == Some((404, "Request not found."))
    ensures rid in reqs && userId.None? ==> r == Some((500, UndefinedToString))
    ensures rid in reqs && userId.Some? && reqs[rid].to != userId.value ==> r == Some((403, "Unauthorized."))
  {
    if rid !in reqs then Some((404, "Request not found."))
    else if userId.None? then Some((500, UndefinedToString))
    else if reqs[rid].to != userId.value then Some((403, "Unauthorized."))
    else None
  }

  /** acceptFollowRequest: marks the request accepted, whatever its status
      was, then adds the link on both users with `$addToSet`. */
  method AcceptFollowRequest(db: Db, userId: Option<Id>, rid: Id) returns (out: Outcome<string>)
    requires db.Valid()
    modifies db`requests, db`users
    ensures db.Valid()
    ensures var refusal := ResolveRefusal(old(db.requests), userId, rid);
      if refusal.Some? then
        out == Fail(refusal.value.0, refusal.value.1) &&
        db.requests == old(db.requests) && db.users == old(db.users)
      else
        var req := old(db.requests)[rid];
        out == Ok(200, "Follow request accepted.") &&
        db.requests == old(db.requests)[rid := req.(status := RequestAccepted)] &&
        db.users == AddLink(old(db.users), req.from, req.to)
  {
    var refusal := ResolveRefusal(db.requests, userId, rid);
    if refusal.Some? {
      return Fail(refusal.value.0, refusal.value.1);
    }
    var req := db.requests[rid];
    db.requests := db.requests[rid := req.(status := RequestAccepted)];
    db.users := MapFollowing(db.users, req.from, s => AddToSet(s, req.to));
    db.users := MapFollowers(db.users, req.to, s => AddToSet(s, req.from));
    out := Ok(200, "Follow request accepted.");
  }

  /** rejectFollowRequest: marks the request rejected; no user changes. */
  method RejectFollowRequest(db: Db, userId: Option<Id>, rid: Id) returns (out: Outcome<string>)
    requires db.Valid()
    modifies db`requests
    ensures db.Valid()
    ensures var refusal := ResolveRefusal(old(db.requests), userId, rid);
      if refusal.Some? then
        out == Fail(refusal.value.0, refusal.value.1) && db.requests == old(db.requests)
      else
        out == Ok(200, "Follow request rejected.") &&
        db.requests == old(db.requests)[rid := old(db.requests)[rid].(status := RequestRejected)]
  {
    var refusal := ResolveRefusal(db.requests, userId, rid);
    if refusal.Some? {
      return Fail(refusal.value.0, refusal.value.1);
    }
    db.requests := db.requests[rid := db.requests[rid].(status := RequestRejected)];
    out := Ok(200, "Follow request rejected.");
  }

  /** As written, no issued token resolves a request: a missing one is a
      404 and an existing one a 500. */
  lemma EveryResolveFails(reqs: map<Id, FollowRequest>, uid: Id, rid: Id)
    ensures ResolveRefusal(reqs, Claim(Issued(uid), "_id"), rid) ==
      if rid in reqs then Some((500, UndefinedToString)) else Some((404, "Request not found."))
  {
    IssuedClaims(uid);
  }

  /** POST /api/follow-requests/accept/:requestId behind authMiddleware, as
      written: 404 or 500, and neither the request nor a user changes. */
  method AcceptRoute(db: Db, uid: Id, rid: Id) returns (out: Outcome<string>)
    requires db.Valid()
    modifies db`requests, db`users
    ensures db.Valid()
    ensures out == if rid in old(db.requests) then Fail(500, UndefinedToString) else Fail(404, "Request not found.")
    ensures db.requests == old(db.requests) && db.users == old(db.users)
  {
    EveryResolveFails(db.requests, uid, rid);
    out := AcceptFollowRequest(db, Claim(Issued(uid), "_id"), rid);
  }

  /** POST /api/follow-requests/reject/:requestId behind authMiddleware, as
      written: 404 or 500, and the request is left as it was. */
  method RejectRoute(db: Db, uid: Id, rid: Id) returns (out: Outcome<string>)
    requires db.Valid()
    modifies db`requests
    ensures db.Valid()
    ensures out == if rid in old(db.requests) then Fail(500, UndefinedToString) else Fail(404, "Request not found.")
    ensures db.requests == old(db.requests)
  {
    EveryResolveFails(db.requests, uid, rid);
    out := RejectFollowRequest(db, Claim(Issued(uid), "_id"), rid);
  }

  /** Read from `req.user.id`, the addressee of a request gets past the
      guards of accept and reject, and nobody else does. */
  lemma CorrectedResolvePasses(reqs: map<Id, FollowRequest>, uid: Id, rid: Id)
    requires rid in reqs
    ensures ResolveRefusal(reqs, Claim(Issued(uid), "id"), rid).None? <==> reqs[rid].to == uid
  {
    IssuedClaims(uid);
  }

  /** Resolving a request, either way, takes it out of the pending set and
      so keeps pending requests unique. */
  lemma ResolveKeepsUniquePending(reqs: map<Id, FollowRequest>, rid: Id, status: RequestStatus)
    requires UniquePending(reqs)
    requires rid in reqs && status != RequestPending
    ensures UniquePending(reqs[rid := reqs[rid].(status := status)])
  {
  }

  /** Accepting keeps the follow lists in agreement, and accepting the same
      request again leaves the users as they were after the first accept. */
  lemma AcceptLinks(users: map<Id, User>, req: FollowRequest)
    requires Consistent(users)
    ensures Consistent(AddLink(users, req.from, req.to))
    ensures AddLink(AddLink(users, req.from, req.to), req.from, req.to) == AddLink(users, req.from, req.to)
    ensures req.from in users ==> req.to in AddLink(users, req.from, req.to)[req.from].following
    ensures req.to in users ==> req.from in AddLink(users, req.from, req.to)[req.to].followers
  {
    AddLinkConsistent(users, req.from, req.to);
    AddLinkIdempotent(users, req.from, req.to);
  }

  /** getFollowRequests' query `{ to: userId, status: "pending" }`, in
      insertion order. The store drops a filter key whose value is
      undefined, so with `userId` absent every pending request matches. */
  function PendingFor(reqs: map<Id, FollowRequest>, bound: Id, userId: Option<Id>): (r: seq<Id>)
    ensures forall i :: i in r <==>
      i in reqs && i < bound && reqs[i].status == RequestPending &&
      (userId.Some? ==> reqs[i].to == userId.value)
    ensures Increasing(r)
  {
    var all := KeysBelow(reqs, bound);
    var wanted := (i: Id) => i in reqs && reqs[i].status == RequestPending &&
      (userId.Some? ==> reqs[i].to == userId.value);
    FilterIncreasing(all, wanted);
    Filter(all, wanted)
  }

  /** GET /api/follow-requests behind authMiddleware, as written: every
      pending request, whoever it is addressed to. */
  function ListingRoute(reqs: map<Id, FollowRequest>, bound: Id, uid: Id): (r: seq<Id>)
    ensures forall i :: i in r <==> i in reqs && i < bound && reqs[i].status == RequestPending
    ensures Increasing(r)
  {
    IssuedClaims(uid);
    PendingFor(reqs, bound, Claim(Issued(uid), "_id"))
  }

  /** As written, every user gets the same listing. */
  lemma ListingSameForAll(reqs: map<Id, FollowRequest>, bound: Id, a: Id, b: Id)
    ensures ListingRoute(reqs, bound, a) == ListingRoute(reqs, bound, b)
  {
    IssuedClaims(a);
    IssuedClaims(b);
  }

  /** Read from `req.user.id`, the listing holds exactly the pending
      requests addressed to the caller. */
  lemma CorrectedListingIsCallers(reqs: map<Id, FollowRequest>, bound: Id, uid: Id)
    ensures forall i :: i in PendingFor(reqs, bound, Claim(Issued(uid), "id")) <==>
      i in reqs && i < bound && reqs[i].status == RequestPending && reqs[i].to == uid
  {
    IssuedClaims(uid);
  }
}

=== FILE: group_chat_view.dfy ===
/** The group chat page: its message list, the input box and the open
    group, updated by the `new-group-message` handler and by sending, which
    shows the message at once under a temporary id and removes that entry
    once the post has finished, whether it succeeded or not. */
module GroupChatView {
  import opened Models
  import opened Strings

  /** A message as the page lists it; `optimistic` marks the entry shown
      before the server has answered. */
  datatype GroupEntry = GroupEntry(id: string, message: string, sender: string, optimistic: bool)

  /** `messages.filter(msg => msg._id !== tempId)`. */
  function WithoutEntry(msgs: seq<GroupEntry>, tempId: string): (r: seq<GroupEntry>)
    ensures |r| <= |msgs|
  {
    if msgs == [] then []
    else (if msgs[0].id != tempId then [msgs[0]] else []) + WithoutEntry(msgs[1..], tempId)
  }

  /** Exactly the entries with other ids remain. */
  lemma {:induction false} WithoutEntryMembers(msgs: seq<GroupEntry>, tempId: string, e: GroupEntry)
    ensures e in WithoutEntry(msgs, tempId) <==> e in msgs && e.id != tempId
  {
    if msgs != [] {
      WithoutEntryMembers(msgs[1..], tempId, e);
      assert msgs == [msgs[0]] + msgs[1..];
    }
  }

  /** No entry of the list carries the id. */
  predicate NoEntry(msgs: seq<GroupEntry>, id: string) {
    forall k :: 0 <= k < |msgs| ==> msgs[k].id != id
  }

  /** No entry with the id is left. */
  lemma WithoutEntryRemoves(msgs: seq<GroupEntry>, tempId: string)
    ensures NoEntry(WithoutEntry(msgs, tempId), tempId)
  {
    var r := WithoutEntry(msgs, tempId);
    forall k | 0 <= k < |r|
      ensures r[k].id != tempId
    {
      WithoutEntryMembers(msgs, tempId, r[k]);
    }
  }

  /** Removing an id no entry carries keeps the list as it is. */
  lemma {:induction false} WithoutAbsentEntry(msgs: seq<GroupEntry>, tempId: string)
    requires NoEntry(msgs, tempId)
    ensures WithoutEntry(msgs, tempId) == msgs
  {
    if msgs != [] {
      assert msgs[0].id != tempId;
      WithoutAbsentEntry(msgs[1..], tempId);
    }
  }

  /** The removal works piece by piece. */
  lemma {:induction false} WithoutEntryAppend(a: seq<GroupEntry>, b: seq<GroupEntry>, tempId: string)
    ensures WithoutEntry(a + b, tempId) == WithoutEntry(a, tempId) + WithoutEntry(b, tempId)
  {
    if a == [] {
      assert a + b == b;
    } else {
      assert (a + b)[1..] == a[1..] + b;
      WithoutEntryAppend(a[1..], b, tempId);
    }
  }

  /** The optimistic entry and its removal cancel out: with a fresh
      temporary id, what is left is the list before sending followed by
      every message that arrived meanwhile, server echoes included. */
  lemma RemoveOptimistic(msgs: seq<GroupEntry>, temp: GroupEntry, arrived: seq<GroupEntry>)
    requires NoEntry(msgs, temp.id) && NoEntry(arrived, temp.id)
    ensures WithoutEntry(msgs + [temp] + arrived, temp.id) == msgs + arrived
  {
    var id := temp.id;
    var front := msgs + [temp];
    WithoutEntryAppend(front, arrived, id);
    WithoutEntryAppend(msgs, [temp], id);
    WithoutAbsentEntry(msgs, id);
    WithoutAbsentEntry(arrived, id);
    assert WithoutEntry([temp], id) == [] + WithoutEntry([], id);
  }

  /** The page's state. */
  class GroupChat {
    var messages: seq<GroupEntry>
    var newMessage: string
    var selectedGroup: Option<string>

    /** No group open, no messages, an empty input. */
    constructor ()
      ensures messages == [] && newMessage == "" && selectedGroup.None?
    {
      messages := [];
      newMessage := "";
      selectedGroup := None;
    }

    /** Opening a group shows the messages fetched for it. */
    method OpenGroup(group: string, fetched: seq<GroupEntry>)
      modifies this`selectedGroup, this`messages
      ensures selectedGroup == Some(group) && messages == fetched
    {
      selectedGroup := Some(group);
      messages := fetched;
    }

    /** `new-group-message`: appended at the end. The handler is registered
        only while a group is open. */
    method OnGroupMessage(m: GroupEntry)
      modifies this`messages
      ensures selectedGroup.Some? ==> messages == old(messages) + [m]
      ensures selectedGroup.None? ==> messages == old(messages)
    {
      if selectedGroup.Some? {
        messages := messages + [m];
      }
    }

    /** The first half of handleSendMessage. A blank input or no open group
        changes nothing and posts nothing. Otherwise one optimistic entry
        with the temporary id is appended, the input is cleared, and the
        text to post is returned. */
    method BeginSend(tempId: string, sender: string) returns (posting: Option<string>)
      modifies this`messages, this`newMessage
      ensures Trim(old(newMessage)) == [] || selectedGroup.None? ==>
        posting.None? && messages == old(messages) && newMessage == old(newMessage)
      ensures Trim(old(newMessage)) != [] && selectedGroup.Some? ==>
        posting == Some(old(newMessage)) && newMessage == "" &&
        messages == old(messages) + [GroupEntry(tempId, old(newMessage), sender, true)]
    {
      if Trim(newMessage) == [] || selectedGroup.None? {
        return None;
      }
      posting := Some(newMessage);
      messages := messages + [GroupEntry(tempId, newMessage, sender, true)];
      newMessage := "";
    }

    /** The second half: on success and on failure alike the entry with the
        temporary id is removed, and nothing else. */
    method FinishSend(tempId: string, succeeded: bool)
      modifies this`messages
      ensures messages == WithoutEntry(old(messages), tempId)
      ensures NoEntry(messages, tempId)
    {
      messages := WithoutEntry(messages, tempId);
      WithoutEntryRemoves(old(messages), tempId);
    }

    /** handleSendMessage as a whole; `arrived` are the messages the
        `new-group-message` handler appended while the post was awaited. */
    method SendMessage(tempId: string, sender: string, arrived: seq<GroupEntry>, succeeded: bool)
      returns (posting: Option<string>)
      modifies this`messages, this`newMessage
      ensures Trim(old(newMessage)) == [] || selectedGroup.None? ==>
        posting.None? && messages == old(messages) && newMessage == old(newMessage)
      ensures Trim(old(newMessage)) != [] && selectedGroup.Some? ==>
        posting == Some(old(newMessage)) && newMessage == "" && NoEntry(messages, tempId) &&
        messages == WithoutEntry(old(messages) + [GroupEntry(tempId, old(newMessage), sender, true)] + arrived, tempId)
    {
      ghost var before, typed := messages, newMessage;
      posting := BeginSend(tempId, sender);
      if posting.Some? {
        ghost var sent := before + [GroupEntry(tempId, typed, sender, true)];
        assert messages == sent;
        messages := messages + arrived;
        FinishSend(tempId, succeeded);
        assert messages == WithoutEntry(sent + arrived, tempId);
      }
    }
  }
}

=== FILE: groups.dfy ===
/** The group routes: creating a group, joining it, the public and joined
    listings, and the group's message thread. */
module Groups {
  import opened Models
  import opened Lists
  import opened Store

  // --------------------------------------------------------------- create

  /** The group document POST / saves: the caller is its creator and its
      one member, with the admin role. */
  function NewGroup(name: string, description: string, creator: Id, isPublic: bool): (g: Group)
    ensures g.createdBy == creator && g.isPublic == isPublic
    ensures g.name == name && g.description == description
    ensures g.members == [Member(creator, GroupAdmin)]
  {
    Group(name, description, creator, isPublic, [Member(creator, GroupAdmin)])
  }

  /** Whether `u` is among the group's members. */
  predicate IsMember(g: Group, u: Id) {
    u in MemberIds(g.members)
  }

  /** No user appears twice in the member list. */
  predicate MembersDistinct(g: Group) {
    Distinct(MemberIds(g.members))
  }

  /** A new group holds exactly its creator, once. */
  lemma NewGroupMembers(name: string, description: string, creator: Id, isPublic: bool, u: Id)
    ensures MembersDistinct(NewGroup(name, description, creator, isPublic))
    ensures IsMember(NewGroup(name, description, creator, isPublic), u) <==> u == creator
  {
    assert MemberIds([Member(creator, GroupAdmin)]) == [creator];
  }

  /** POST /: stores the new group and answers 201 with it. */
  method CreateGroup(db: Db, caller: Id, name: string, description: string, isPublic: bool)
    returns (out: Outcome<Id>)
    requires db.Valid()
    modifies db`groups, db`nextId
    ensures db.Valid()
    ensures out.Ok? && out.status == 201 && out.value !in old(db.groups)
    ensures db.groups == old(db.groups)[out.value := NewGroup(name, description, caller, isPublic)]
  {
    var id := db.InsertGroup(NewGroup(name, description, caller, isPublic));
    out := Ok(201, id);
  }

  // ----------------------------------------------------------------- join

  /** The group after the caller joins with the member role. */
  function Joined(g: Group, u: Id): (r: Group)
    ensures r.members == g.members + [Member(u, GroupMember)]
    ensures r.(members := g.members) == g
  {
    g.(members := g.members + [Member(u, GroupMember)])
  }

  /** A join appends the caller once: the caller is then a member, every
      earlier member still is, and a duplicate-free list stays so. */
  lemma JoinedMembers(g: Group, u: Id)
    requires !IsMember(g, u)
    ensures IsMember(Joined(g, u), u)
    ensures forall v :: IsMember(Joined(g, u), v) <==> IsMember(g, v) || v == u
    ensures MembersDistinct(g) ==> MembersDistinct(Joined(g, u))
  {
    var ids := MemberIds(g.members);
    var ids' := MemberIds(Joined(g, u).members);
    assert ids' == ids + [u];
  }

  /** POST /:groupId/join: 404 for an unknown group, 400 for a member, else
      the caller is appended with the member role. */
  method JoinGroup(db: Db, caller: Id, groupId: Id) returns (out: Outcome<Group>)
    requires db.Valid()
    modifies db`groups
    ensures db.Valid()
    ensures groupId !in old(db.groups) ==> out == Fail(404, "Group not found") && db.groups == old(db.groups)
    ensures groupId in old(db.groups) && IsMember(old(db.groups)[groupId], caller) ==>
      out == Fail(400, "Already a member") && db.groups == old(db.groups)
    ensures groupId in old(db.groups) && !IsMember(old(db.groups)[groupId], caller) ==>
      var g := Joined(old(db.groups)[groupId], caller);
      db.groups == old(db.groups)[groupId := g] && out == Ok(200, g)
  {
    if groupId !in db.groups {
      return Fail(404, "Group not found");
    }
    var g := db.groups[groupId];
    if caller in MemberIds(g.members) {
      return Fail(400, "Already a member");
    }
    g := Joined(g, caller);
    db.groups := db.groups[groupId := g];
    out := Ok(200, g);
  }

  // ------------------------------------------------------------- listings

  /** GET /: the public groups, in insertion order. */
  function PublicGroups(groups: map<Id, Group>, bound: Id): (r: seq<Id>)
    ensures forall id :: id in r <==> id in groups && id < bound && groups[id].isPublic
    ensures Increasing(r)
  {
    var all := KeysBelow(groups, bound);
    var p := (id: Id) => id in groups && groups[id].isPublic;
    FilterIncreasing(all, p);
    Filter(all, p)
  }

  /** GET /joined: the groups with the caller among their members. */
  function JoinedGroups(groups: map<Id, Group>, bound: Id, caller: Id): (r: seq<Id>)
    ensures forall id :: id in r <==> id in groups && id < bound && IsMember(groups[id], caller)
    ensures Increasing(r)
  {
    var all := KeysBelow(groups, bound);
    var p := (id: Id) => id in groups && IsMember(groups[id], caller);
    FilterIncreasing(all, p);
    Filter(all, p)
  }

  /** After a successful join the group is among the caller's joined groups,
      and so is every group the caller had joined before. */
  lemma JoinListsGroup(groups: map<Id, Group>, bound: Id, caller: Id, groupId: Id)
    requires groupId in groups && groupId < bound && !IsMember(groups[groupId], caller)
    ensures var after := groups[groupId := Joined(groups[groupId], caller)];
      groupId in JoinedGroups(after, bound, caller) &&
      forall id :: id in JoinedGroups(groups, bound, caller) ==> id in JoinedGroups(after, bound, caller)
  {
    JoinedMembers(groups[groupId], caller);
  }

  // ------------------------------------------------------------- messages

  /** GET /:groupId/messages: the group's messages, oldest first. */
  function GroupThread(msgs: map<Id, GroupMessage>, bound: Id, groupId: Id): (r: seq<Id>)
    ensures forall id :: id in r <==> id in msgs && id < bound && msgs[id].group == groupId
    ensures Distinct(r)
    ensures forall i, j :: 0 <= i < j < |r| ==> msgs[r[i]].createdAt <= msgs[r[j]].createdAt
  {
    var key: nat -> int := (id: nat) => if id in msgs then msgs[id].createdAt else 0;
    var r := SelectSorted(msgs, bound, (id: nat) => id in msgs && msgs[id].group == groupId, key);
    assert forall i, j :: 0 <= i < j < |r| ==> key(r[i]) <= key(r[j]);
    r
  }

  /** The `new-group-message` event: the room it goes to and the stored
      message it carries. */
  datatype GroupEvent = NewGroupMessage(room: Id, message: GroupMessage)

  /** POST /:groupId/messages: the message is stored first, then the stored
      record is emitted to the group's room; the reply is 201. */
  method PostGroupMessage(db: Db, caller: Id, groupId: Id, text: string, now: nat)
    returns (out: Outcome<Id>, emitted: GroupEvent)
    requires db.Valid()
    modifies db`groupMessages, db`nextId
    ensures db.Valid()
    ensures out.Ok? && out.status == 201 && out.value !in old(db.groupMessages)
    ensures db.groupMessages == old(db.groupMessages)[out.value := GroupMessage(groupId, caller, text, now)]
    ensures emitted.room == groupId && emitted.message == db.groupMessages[out.value]
    ensures out.value < db.nextId
  {
    var id := db.InsertGroupMessage(GroupMessage(groupId, caller, text, now));
    emitted := NewGroupMessage(groupId, db.groupMessages[id]);
    out := Ok(201, id);
  }

  /** A posted message shows up in its group's thread, and no other
      group's thread changes. */
  lemma PostedMessageListed(msgs: map<Id, GroupMessage>, bound: Id, id: Id, m: GroupMessage, other: Id)
    requires id < bound && other != m.group
    ensures id in GroupThread(msgs[id := m], bound, m.group)
    ensures id !in msgs ==>
      forall x :: x in GroupThread(msgs[id := m], bound, other) <==> x in GroupThread(msgs, bound, other)
  {
  }
}

=== FILE: lists.dfy ===
/** Sequence operations shared by the handlers: the array methods the
    JavaScript code calls (`filter`, `indexOf` + `splice`, `push`) and the
    document store's array updates (`$pull`, `$addToSet`), plus the store's
    natural order and its `sort` on one key. */
module Lists {

  /** The ids of `m` below `bound`, ascending. The store hands out ids in
      increasing order, so this is the collection's insertion order. */
  function KeysBelow<T>(m: map<nat, T>, bound: nat): (r: seq<nat>)
    ensures forall i :: 0 <= i < |r| ==> r[i] in m && r[i] < bound
    ensures forall k :: k in m && k < bound ==> k in r
    ensures Increasing(r)
    decreases bound
  {
    if bound == 0 then []
    else KeysBelow(m, bound - 1) + (if bound - 1 in m then [bound - 1] else [])
  }

  /** The keys of `m` below `bound`, as a set. */
  function KeysUnder<T>(m: map<nat, T>, bound: nat): set<nat> {
    set k | k in m && k < bound
  }

  /** Raising the bound by one adds at most that one key. */
  lemma KeysUnderStep<T>(m: map<nat, T>, bound: nat)
    requires bound > 0
    ensures KeysUnder(m, bound) == KeysUnder(m, bound - 1) + (if bound - 1 in m then {bound - 1} else {})
    ensures bound - 1 !in KeysUnder(m, bound - 1)
  {
  }

  /** The ascending listing holds each key below the bound once. */
  lemma {:induction false} KeysBelowCount<T>(m: map<nat, T>, bound: nat)
    ensures |KeysBelow(m, bound)| == |KeysUnder(m, bound)|
    decreases bound
  {
    if bound == 0 {
      assert KeysUnder(m, 0) == {};
    } else {
      KeysBelowCount(m, bound - 1);
      KeysUnderStep(m, bound);
    }
  }

  /** When every key lies below the bound, the listing has one entry per
      key. */
  lemma KeysBelowAll<T>(m: map<nat, T>, bound: nat)
    ensures (forall k :: k in m ==> k < bound) ==> |KeysBelow(m, bound)| == |m|
  {
    KeysBelowCount(m, bound);
    if forall k :: k in m ==> k < bound {
      assert KeysUnder(m, bound) == m.Keys;
    }
  }

  /** `s.reverse()` on a copy. */
  function Reversed<T>(s: seq<T>): (r: seq<T>)
    ensures |r| == |s|
    ensures forall i :: 0 <= i < |r| ==> r[i] == s[|s| - 1 - i]
  {
    seq(|s|, i requires 0 <= i < |s| => s[|s| - 1 - i])
  }

  /** Reversing an ascending list gives a strictly descending one with the
      same elements. */
  lemma ReversedIncreasing(s: seq<nat>)
    requires Increasing(s)
    ensures forall x :: x in Reversed(s) <==> x in s
    ensures forall i, j :: 0 <= i < j < |Reversed(s)| ==> Reversed(s)[i] > Reversed(s)[j]
  {
    var r := Reversed(s);
    forall x | x in s
      ensures x in r
    {
      var i :| 0 <= i < |s| && s[i] == x;
      assert r[|s| - 1 - i] == x;
    }
    forall i, j | 0 <= i < j < |r|
      ensures r[i] > r[j]
    {
      assert s[|s| - 1 - j] < s[|s| - 1 - i];
    }
  }

  predicate Increasing(s: seq<nat>) {
    forall i, j :: 0 <= i < j < |s| ==> s[i] < s[j]
  }

  predicate Distinct<T(==)>(s: seq<T>) {
    forall i, j :: 0 <= i < j < |s| ==> s[i] != s[j]
  }

  /** `s.filter(p)`: the elements satisfying `p`, in their order. */
  function Filter<T(!new)>(s: seq<T>, p: T -> bool): (r: seq<T>)
    ensures |r| <= |s|
    ensures forall i :: 0 <= i < |r| ==> p(r[i])
    ensures forall x :: x in r <==> x in s && p(x)
    ensures (forall i :: 0 <= i < |s| ==> p(s[i])) ==> r == s
  {
    if s == [] then []
    else (if p(s[0]) then [s[0]] else []) + Filter(s[1..], p)
  }

  lemma {:induction false} FilterDistinct<T(!new)>(s: seq<T>, p: T -> bool)
    requires Distinct(s)
    ensures Distinct(Filter(s, p))
  {
    if s != [] {
      FilterDistinct(s[1..], p);
      assert s[0] !in s[1..];
    }
  }

  /** Filtering an ascending list keeps it ascending. */
  lemma {:induction false} FilterIncreasing(s: seq<nat>, p: nat -> bool)
    requires Increasing(s)
    ensures Increasing(Filter(s, p))
  {
    if s != [] {
      FilterIncreasing(s[1..], p);
      var t := Filter(s[1..], p);
      assert forall k :: 0 <= k < |t| ==> t[k] in s[1..];
      assert forall k :: 0 <= k < |t| ==> s[0] < t[k];
    }
  }

  /** `r` lists elements of `s` in their order in `s`: ascending positions
      of `s` hold `r`'s elements one by one. */
  ghost predicate InOrderOf<T>(r: seq<T>, s: seq<T>) {
    exists idx: seq<nat> :: |idx| == |r| && Increasing(idx) &&
      forall k :: 0 <= k < |r| ==> idx[k] < |s| && r[k] == s[idx[k]]
  }

  /** Putting an element in front of `s` keeps `r` in order in it. */
  lemma InOrderShift<T>(x: T, r: seq<T>, s: seq<T>) returns (w: seq<nat>)
    requires InOrderOf(r, s)
    ensures |w| == |r| && Increasing(w)
    ensures forall k :: 0 <= k < |r| ==> 0 < w[k] < |[x] + s| && r[k] == ([x] + s)[w[k]]
  {
    var idx: seq<nat> :| |idx| == |r| && Increasing(idx) &&
      forall k :: 0 <= k < |r| ==> idx[k] < |s| && r[k] == s[idx[k]];
    var xs := [x] + s;
    w := seq(|idx|, k requires 0 <= k < |idx| => idx[k] + 1);
    forall k | 0 <= k < |r|
      ensures 0 < w[k] < |xs| && r[k] == xs[w[k]]
    {
      assert xs[idx[k] + 1] == s[idx[k]];
    }
  }

  /** Putting an element in front of both lists keeps the order. */
  lemma InOrderCons<T>(x: T, r: seq<T>, s: seq<T>)
    requires InOrderOf(r, s)
    ensures InOrderOf([x] + r, [x] + s)
    ensures InOrderOf(r, [x] + s)
  {
    var shifted := InOrderShift(x, r, s);
    var xr, xs := [x] + r, [x] + s;
    var w: seq<nat> := [0] + shifted;
    forall k | 0 <= k < |w|
      ensures w[k] < |xs| && xr[k] == xs[w[k]]
    {
      if k > 0 {
        assert w[k] == shifted[k - 1] && xr[k] == r[k - 1];
      }
    }
    assert Increasing(w);
  }

  /** `s.filter(p)` keeps the order of `s`. */
  lemma {:induction false} FilterInOrder<T(!new)>(s: seq<T>, p: T -> bool)
    ensures InOrderOf(Filter(s, p), s)
  {
    if s == [] {
      var idx: seq<nat> := [];
      assert |idx| == |Filter(s, p)| && Increasing(idx);
    } else {
      var t := Filter(s[1..], p);
      FilterInOrder(s[1..], p);
      InOrderCons(s[0], t, s[1..]);
      assert [s[0]] + s[1..] == s;
      assert Filter(s, p) == if p(s[0]) then [s[0]] + t else t;
    }
  }

  /** Filtering distributes over concatenation. */
  lemma {:induction false} FilterAppend<T(!new)>(a: seq<T>, b: seq<T>, p: T -> bool)
    ensures Filter(a + b, p) == Filter(a, p) + Filter(b, p)
  {
    if a == [] {
      assert a + b == b;
    } else {
      assert (a + b)[1..] == a[1..] + b;
      FilterAppend(a[1..], b, p);
    }
  }

  /** `$pull`: removes every occurrence of `x`. */
  function RemoveAll<T(==,!new)>(s: seq<T>, x: T): (r: seq<T>)
    ensures x !in r
    ensures forall y :: y in r <==> y in s && y != x
    ensures x !in s ==> r == s
    ensures |r| <= |s|
    ensures multiset(r) == multiset(s)[x := 0]
  {
    if s == [] then []
    else
      assert s == [s[0]] + s[1..];
      (if s[0] == x then [] else [s[0]]) + RemoveAll(s[1..], x)
  }

  /** `$pull` keeps the other elements in their order: it is the filter
      that drops `x`. */
  lemma {:induction false} RemoveAllIsFilter<T(!new)>(s: seq<T>, x: T)
    ensures RemoveAll(s, x) == Filter(s, y => y != x)
  {
    if s != [] {
      RemoveAllIsFilter(s[1..], x);
    }
  }

  /** `$pull` undoes the append of an element that was absent. */
  lemma {:induction false} RemoveAllAppend<T(!new)>(s: seq<T>, x: T)
    requires x !in s
    ensures RemoveAll(s + [x], x) == s
  {
    if s == [] {
      assert [] + [x] == [x];
    } else {
      assert (s + [x])[1..] == s[1..] + [x];
      RemoveAllAppend(s[1..], x);
    }
  }

  /** `$pull` keeps a list free of duplicates. */
  lemma {:induction false} RemoveAllDistinct<T(!new)>(s: seq<T>, x: T)
    requires Distinct(s)
    ensures Distinct(RemoveAll(s, x))
  {
    if s != [] {
      RemoveAllDistinct(s[1..], x);
      assert s[0] !in s[1..];
    }
  }

  /** `$addToSet`: appends `x` unless it is already there. */
  function AddToSet<T(==,!new)>(s: seq<T>, x: T): (r: seq<T>)
    ensures x in r
    ensures forall y :: y in r <==> y in s || y == x
    ensures x in s ==> r == s
    ensures x !in s ==> r == s + [x]
  {
    if x in s then s else s + [x]
  }

  /** `$addToSet` never creates a duplicate. */
  lemma AddToSetDistinct<T(!new)>(s: seq<T>, x: T)
    requires Distinct(s)
    ensures Distinct(AddToSet(s, x))
  {
  }

  /** `s.indexOf(x)`: the first position of `x`, or -1. */
  function IndexOf<T(==)>(s: seq<T>, x: T): (r: int)
    ensures -1 <= r < |s|
    ensures r == -1 <==> x !in s
    ensures r >= 0 ==> s[r] == x && x !in s[..r]
  {
    if s == [] then -1
    else if s[0] == x then 0
    else var k := IndexOf(s[1..], x); if k == -1 then -1 else k + 1
  }

  /** `s.findIndex(p)`: the first position whose element satisfies `p`, or -1. */
  function FirstIndex<T>(s: seq<T>, p: T -> bool): (r: int)
    ensures -1 <= r < |s|
    ensures r == -1 <==> forall i :: 0 <= i < |s| ==> !p(s[i])
    ensures r >= 0 ==> p(s[r]) && forall j :: 0 <= j < r ==> !p(s[j])
  {
    if s == [] then -1
    else if p(s[0]) then 0
    else var k := FirstIndex(s[1..], p); if k == -1 then -1 else k + 1
  }

  /** `s.splice(i, 1)`: removes the element at position `i`. */
  function RemoveAt<T>(s: seq<T>, i: nat): (r: seq<T>)
    requires i < |s|
    ensures |r| == |s| - 1
    ensures forall j :: 0 <= j < i ==> r[j] == s[j]
    ensures forall j :: i <= j < |r| ==> r[j] == s[j + 1]
    ensures multiset(r) == multiset(s) - multiset{s[i]}
  {
    assert s == s[..i] + [s[i]] + s[i + 1..];
    s[..i] + s[i + 1..]
  }

  /** Number of occurrences of `x`. */
  function Count<T(==)>(s: seq<T>, x: T): nat
  {
    multiset(s)[x]
  }

  /** The keys are ascending under `key`. */
  predicate SortedBy(s: seq<nat>, key: nat -> int) {
    forall i, j :: 0 <= i < j < |s| ==> key(s[i]) <= key(s[j])
  }

  /** Inserts `x` before the first element whose key is not smaller. */
  function Insert(x: nat, s: seq<nat>, key: nat -> int): (r: seq<nat>)
    requires SortedBy(s, key)
    ensures SortedBy(r, key)
    ensures forall i :: 0 <= i < |r| ==> r[i] == x || r[i] in s
    ensures multiset(r) == multiset(s) + multiset{x}
  {
    if s == [] then [x]
    else if key(x) <= key(s[0]) then [x] + s
    else
      var t := Insert(x, s[1..], key);
      assert s == [s[0]] + s[1..];
      InsertBehindHead(x, s, key, t);
      [s[0]] + t
  }

  /** The head stays in front of a tail into which a larger key went. */
  lemma InsertBehindHead(x: nat, s: seq<nat>, key: nat -> int, t: seq<nat>)
    requires s != [] && SortedBy(s, key) && key(s[0]) < key(x)
    requires SortedBy(t, key)
    requires forall i :: 0 <= i < |t| ==> t[i] == x || t[i] in s[1..]
    ensures SortedBy([s[0]] + t, key)
  {
    HeadFirst(s, key);
    forall i | 0 <= i < |t|
      ensures key(s[0]) <= key(t[i])
    {
      if t[i] != x {
        assert t[i] in s[1..];
      }
    }
    ConsSorted(s[0], t, key);
  }

  /** In a sorted listing no later element has a smaller key than the head. */
  lemma HeadFirst(s: seq<nat>, key: nat -> int)
    requires s != [] && SortedBy(s, key)
    ensures forall y :: y in s[1..] ==> key(s[0]) <= key(y)
  {
    forall y | y in s[1..]
      ensures key(s[0]) <= key(y)
    {
      var j :| 0 <= j < |s[1..]| && s[1..][j] == y;
      assert s[j + 1] == y;
    }
  }

  /** A head whose key is not above any key of a sorted tail keeps it sorted. */
  lemma ConsSorted(h: nat, t: seq<nat>, key: nat -> int)
    requires SortedBy(t, key)
    requires forall i :: 0 <= i < |t| ==> key(h) <= key(t[i])
    ensures SortedBy([h] + t, key)
  {
    var r := [h] + t;
    forall i, j | 0 <= i < j < |r|
      ensures key(r[i]) <= key(r[j])
    {
      assert r[j] == t[j - 1];
      if i > 0 {
        assert r[i] == t[i - 1];
      }
    }
  }

  /** The store's `sort` on one key: a permutation of `s`, ascending by `key`.
      A descending sort is a sort on the negated key. */
  function SortBy(s: seq<nat>, key: nat -> int): (r: seq<nat>)
    ensures SortedBy(r, key)
    ensures multiset(r) == multiset(s)
    ensures |r| == |s|
  {
    if s == [] then []
    else
      assert s == [s[0]] + s[1..];
      Insert(s[0], SortBy(s[1..], key), key)
  }

  /** A sorted listing holds exactly the elements it was given. */
  lemma SortByMembers(s: seq<nat>, key: nat -> int, x: nat)
    ensures x in SortBy(s, key) <==> x in s
  {
    var r := SortBy(s, key);
    assert x in r <==> x in multiset(r);
    assert x in s <==> x in multiset(s);
  }

  /** Sorting keeps a listing free of duplicates. */
  lemma SortByDistinct(s: seq<nat>, key: nat -> int)
    requires Distinct(s)
    ensures Distinct(SortBy(s, key))
  {
    var r := SortBy(s, key);
    DistinctIffCountsAtMostOne(s);
    DistinctIffCountsAtMostOne(r);
  }

  /** `Model.find(filter).sort(key)`: the stored ids below `bound` whose
      record passes the filter, each once, ordered by the key. */
  function SelectSorted<T>(m: map<nat, T>, bound: nat, p: nat -> bool, key: nat -> int): (r: seq<nat>)
    ensures forall x :: x in r <==> x in m && x < bound && p(x)
    ensures Distinct(r)
    ensures SortedBy(r, key)
  {
    var all := KeysBelow(m, bound);
    var ids := Filter(all, p);
    FilterIncreasing(all, p);
    var r := SortBy(ids, key);
    forall x
      ensures x in r <==> x in ids
    {
      SortByMembers(ids, key, x);
    }
    SortByDistinct(ids, key);
    r
  }

  lemma {:induction false} DistinctIffCountsAtMostOne<T>(s: seq<T>)
    ensures Distinct(s) <==> forall x :: multiset(s)[x] <= 1
  {
    if s != [] {
      DistinctIffCountsAtMostOne(s[1..]);
      assert s == [s[0]] + s[1..];
      if Distinct(s) {
        assert s[0] !in s[1..];
      }
      if forall x :: multiset(s)[x] <= 1 {
        assert forall x :: multiset(s[1..])[x] <= multiset(s)[x];
        assert multiset(s[1..])[s[0]] == 0;
        forall i, j | 0 <= i < j < |s| ensures s[i] != s[j] {
          if i == 0 {
            assert s[j] in s[1..];
          } else {
            assert s[1..][i - 1] == s[i] && s[1..][j - 1] == s[j];
          }
        }
      }
    }
  }
}

=== FILE: messages_view.dfy ===
/** The direct-messages page as state updates: the chat list with the
    assistant's chat in front, routing an incoming message, starting a chat,
    sending (to the assistant or to the server) and the other participant
    shown in the header. Ids are the client's strings. */
module MessagesView {
  import opened Models
  import opened Strings
  import opened Lists

  /** A message as the page holds it. */
  datatype ClientMessage = ClientMessage(id: string, chat: string, sender: string, content: string)

  /** A populated participant. */
  datatype Participant = Participant(id: string, fullName: string)

  /** A chat as the page holds it; `lastMessage` is null for a chat with no
      message yet. */
  datatype ClientChat = ClientChat(id: string, isBot: bool, participants: seq<Participant>,
                                   lastMessage: Option<ClientMessage>)

  /** The page's state: the chat list, the open chat, its messages and the
      input box. */
  datatype Page = Page(chats: seq<ClientChat>, selected: Option<ClientChat>,
                       messages: seq<ClientMessage>, newMessage: string)

  const AssistantId := "chatbot-assistant"
  const AssistantChatId := "chatbot-chat"
  const Welcome := "Hi! I'm your Campus Assistant. How can I help you today?"
  const ReplyUnavailable := "Sorry, I'm having trouble processing your request right now."

  /** The assistant's chat object: its one participant is the assistant and
      its preview is the welcome text (the preview has no id and no chat). */
  const AssistantChat := ClientChat(AssistantChatId, true, [Participant(AssistantId, "Campus Assistant")],
                                    Some(ClientMessage("", "", AssistantId, Welcome)))

  // -------------------------------------------------------------- listing

  /** `[chatbotChat, ...response.data]`. */
  function ChatList(fetched: seq<ClientChat>): (r: seq<ClientChat>)
    ensures |r| == |fetched| + 1 && r[0] == AssistantChat && r[1..] == fetched
    ensures r[0].isBot
  {
    [AssistantChat] + fetched
  }

  // ------------------------------------------------------------- incoming

  /** `chats.map(chat => chat._id === message.chat ? { ...chat, lastMessage: message } : chat)`. */
  function WithLastMessage(chats: seq<ClientChat>, m: ClientMessage): (r: seq<ClientChat>)
    ensures |r| == |chats|
    ensures forall i :: 0 <= i < |r| && chats[i].id == m.chat ==> r[i] == chats[i].(lastMessage := Some(m))
    ensures forall i :: 0 <= i < |r| && chats[i].id != m.chat ==> r[i] == chats[i]
  {
    seq(|chats|, i requires 0 <= i < |chats| =>
      if chats[i].id == m.chat then chats[i].(lastMessage := Some(m)) else chats[i])
  }

  /** Whether a message belongs to the open chat. */
  predicate ForOpenChat(p: Page, m: ClientMessage) {
    p.selected.Some? && m.chat == p.selected.value.id
  }

  /** `new-message`: appended to the conversation exactly when it belongs to
      the open chat; the chat it belongs to gets it as its preview. */
  function OnNewMessage(p: Page, m: ClientMessage): (r: Page)
    ensures r.chats == WithLastMessage(p.chats, m)
    ensures ForOpenChat(p, m) ==> r.messages == p.messages + [m]
    ensures !ForOpenChat(p, m) ==> r.messages == p.messages
    ensures r.selected == p.selected && r.newMessage == p.newMessage
  {
    p.(messages := if ForOpenChat(p, m) then p.messages + [m] else p.messages,
       chats := WithLastMessage(p.chats, m))
  }

  /** The conversation shows only messages of the open chat. */
  predicate ShowsOpenChatOnly(p: Page) {
    forall k :: 0 <= k < |p.messages| ==> ForOpenChat(p, p.messages[k])
  }

  /** Routing keeps the conversation free of other chats' messages, keeps
      the chat list's ids and order, and gives the message's chat its
      preview. */
  lemma NewMessageRouting(p: Page, m: ClientMessage)
    requires ShowsOpenChatOnly(p)
    ensures var r := OnNewMessage(p, m);
      ShowsOpenChatOnly(r) &&
      (forall i :: 0 <= i < |r.chats| ==> r.chats[i].id == p.chats[i].id && r.chats[i].isBot == p.chats[i].isBot) &&
      (forall i :: 0 <= i < |r.chats| && p.chats[i].id == m.chat ==> r.chats[i].lastMessage == Some(m))
  {
  }

  // ---------------------------------------------------------- new chat

  /** startNewChat: the returned chat goes in front and is opened, whether
      or not it is listed already. */
  function StartNewChat(p: Page, c: ClientChat): (r: Page)
    ensures |r.chats| == |p.chats| + 1 && r.chats[0] == c && r.chats[1..] == p.chats
    ensures r.selected == Some(c)
    ensures r.messages == p.messages && r.newMessage == p.newMessage
  {
    p.(chats := [c] + p.chats, selected := Some(c))
  }

  /** Starting a chat that is already listed lists it twice. */
  lemma StartListedChatTwice(p: Page, c: ClientChat)
    requires c in p.chats
    ensures var r := StartNewChat(p, c);
      exists i, j :: 0 <= i < j < |r.chats| && r.chats[i] == c && r.chats[j] == c
  {
    var r := StartNewChat(p, c);
    var k :| 0 <= k < |p.chats| && p.chats[k] == c;
    assert r.chats[k + 1] == p.chats[k];
  }

  // -------------------------------------------------------------- send

  /** The assistant's answer as `Chatbot.getResponse` returns it: the
      server's reply, or a fixed apology when the request fails. */
  function AssistantAnswer(reply: Option<string>): (r: string)
    ensures reply.Some? ==> r == reply.value
    ensures reply.None? ==> r == ReplyUnavailable
  {
    if reply.Some? then reply.value else ReplyUnavailable
  }

  /** `{ ...chat.lastMessage, content: text }`; a missing preview becomes one
      carrying only the text. */
  function PreviewWith(last: Option<ClientMessage>, text: string): (r: ClientMessage)
    ensures r.content == text
    ensures last.Some? ==> r.id == last.value.id && r.chat == last.value.chat && r.sender == last.value.sender
  {
    if last.Some? then last.value.(content := text) else ClientMessage("", "", "", text)
  }

  /** The assistant chats' previews carry the user's text. */
  function WithBotPreview(chats: seq<ClientChat>, text: string): (r: seq<ClientChat>)
    ensures |r| == |chats|
    ensures forall i :: 0 <= i < |r| && chats[i].isBot ==>
      r[i] == chats[i].(lastMessage := Some(PreviewWith(chats[i].lastMessage, text)))
    ensures forall i :: 0 <= i < |r| && !chats[i].isBot ==> r[i] == chats[i]
  {
    seq(|chats|, i requires 0 <= i < |chats| =>
      if chats[i].isBot then chats[i].(lastMessage := Some(PreviewWith(chats[i].lastMessage, text))) else chats[i])
  }

  /** The two messages of an exchange with the assistant: the user's, with
      id "user-msg-<userStamp>", then the answer, with id
      "chatbot-msg-<botStamp>" (the two `Date.now()` readings). They never
      share an id, even within one millisecond. */
  function Exchange(chat: string, userId: string, text: string, userStamp: nat, botStamp: nat,
                    reply: Option<string>): (r: seq<ClientMessage>)
    ensures |r| == 2 && r[0].chat == chat && r[1].chat == chat
    ensures r[0].sender == userId && r[0].content == text
    ensures r[1].sender == AssistantId && r[1].content == AssistantAnswer(reply)
    ensures StartsWith(r[0].id, "user-msg-") && StartsWith(r[1].id, "chatbot-msg-") && r[0].id != r[1].id
  {
    var userMessage := ClientMessage("user-msg-" + NatToString(userStamp), chat, userId, text);
    var botMessage := ClientMessage("chatbot-msg-" + NatToString(botStamp), chat, AssistantId, AssistantAnswer(reply));
    assert userMessage.id[0] != botMessage.id[0];
    [userMessage, botMessage]
  }

  /** handleSendMessage. A blank input (`!newMessage.trim()`) or no open
      chat does nothing. In the assistant's chat the exchange is appended,
      the input is cleared and the assistant chats' previews take the
      user's text. In any other chat the text is posted and the input is
      cleared only when the post succeeds; the message itself arrives later
      as `new-message`. */
  function SendMessage(p: Page, userId: string, userStamp: nat, botStamp: nat,
                       reply: Option<string>, posted: bool): (r: Page)
    ensures Trim(p.newMessage) == [] || p.selected.None? ==> r == p
    ensures Trim(p.newMessage) != [] && p.selected.Some? && p.selected.value.isBot ==>
      r.messages == p.messages + Exchange(p.selected.value.id, userId, p.newMessage, userStamp, botStamp, reply) &&
      r.newMessage == "" && r.chats == WithBotPreview(p.chats, p.newMessage) && r.selected == p.selected
    ensures Trim(p.newMessage) != [] && p.selected.Some? && !p.selected.value.isBot ==>
      r == (if posted then p.(newMessage := "") else p)
  {
    if Trim(p.newMessage) == [] || p.selected.None? then p
    else if p.selected.value.isBot then
      var sent := Exchange(p.selected.value.id, userId, p.newMessage, userStamp, botStamp, reply);
      p.(messages := p.messages + sent, newMessage := "", chats := WithBotPreview(p.chats, p.newMessage))
    else if posted then p.(newMessage := "")
    else p
  }

  /** Appending messages of the open chat, with the same chat open, keeps
      the conversation free of other chats' messages. */
  lemma ExtendedConversation(p: Page, r: Page, sent: seq<ClientMessage>)
    requires ShowsOpenChatOnly(p)
    requires r.selected == p.selected && r.messages == p.messages + sent
    requires forall i :: 0 <= i < |sent| ==> ForOpenChat(p, sent[i])
    ensures ShowsOpenChatOnly(r)
  {
    forall k | 0 <= k < |r.messages|
      ensures ForOpenChat(r, r.messages[k])
    {
      if k < |p.messages| {
        assert r.messages[k] == p.messages[k];
      } else {
        assert r.messages[k] == sent[k - |p.messages|];
      }
    }
  }

  /** Sending keeps the conversation free of other chats' messages. */
  lemma SendKeepsConversation(p: Page, userId: string, userStamp: nat, botStamp: nat,
                              reply: Option<string>, posted: bool)
    requires ShowsOpenChatOnly(p)
    ensures ShowsOpenChatOnly(SendMessage(p, userId, userStamp, botStamp, reply, posted))
  {
    var r := SendMessage(p, userId, userStamp, botStamp, reply, posted);
    if Trim(p.newMessage) == [] || p.selected.None? {
      assert r == p;
    } else if p.selected.value.isBot {
      var sent := Exchange(p.selected.value.id, userId, p.newMessage, userStamp, botStamp, reply);
      assert r.messages == p.messages + sent && r.selected == p.selected;
      assert ForOpenChat(p, sent[0]) && ForOpenChat(p, sent[1]);
      ExtendedConversation(p, r, sent);
    } else {
      assert r.messages == p.messages && r.selected == p.selected;
    }
  }

  /** A blank input sends nothing, whatever the open chat. */
  lemma BlankSendsNothing(p: Page, userId: string, userStamp: nat, botStamp: nat,
                          reply: Option<string>, posted: bool)
    requires IsBlank(p.newMessage)
    ensures SendMessage(p, userId, userStamp, botStamp, reply, posted) == p
  {
    TrimEmptyIffBlank(p.newMessage);
  }

  // --------------------------------------------------------- the header

  /** `selectedChat?.participants?.find(p => p?._id !== userId) || null`:
      the first participant other than the user, if any. */
  function OtherParticipant(selected: Option<ClientChat>, userId: string): (r: Option<Participant>)
    ensures selected.None? ==> r.None?
    ensures selected.Some? ==>
      var ps := selected.value.participants;
      (r.None? <==> forall k :: 0 <= k < |ps| ==> ps[k].id == userId) &&
      (r.Some? ==> exists k :: 0 <= k < |ps| && ps[k] == r.value && r.value.id != userId &&
                     forall j :: 0 <= j < k ==> ps[j].id == userId)
  {
    if selected.None? then None
    else
      var ps := selected.value.participants;
      var k := FirstIndex(ps, (q: Participant) => q.id != userId);
      if k < 0 then None else Some(ps[k])
  }

  /** In the assistant's chat the header shows the assistant. */
  lemma AssistantIsTheOtherParticipant(userId: string)
    requires userId != AssistantId
    ensures OtherParticipant(Some(AssistantChat), userId) == Some(Participant(AssistantId, "Campus Assistant"))
  {
  }
}

=== FILE: messaging.dfy ===
/** Direct messaging: the chat list, a chat's messages, sending a message
    (which moves the chat's `lastMessage`), marking a chat read, and the
    find-or-create of a two-party chat. */
module Messaging {
  import opened Models
  import opened Lists
  import opened Store

  /** The socket events the controllers emit after their writes. */
  datatype ChatEvent =
    | NewMessage(room: Id, message: Message)
    | NewChat(recipient: Id, chat: Chat)

  // ------------------------------------------------------------- listings

  /** getChats: the chats the caller takes part in, most recently updated
      first. */
  function ChatsOf(chats: map<Id, Chat>, bound: Id, caller: Id): (r: seq<Id>)
    ensures forall id :: id in r <==> id in chats && id < bound && caller in chats[id].participants
    ensures Distinct(r)
    ensures forall i, j :: 0 <= i < j < |r| ==> chats[r[i]].updatedAt >= chats[r[j]].updatedAt
  {
    var key: nat -> int := (id: nat) => if id in chats then 0 - chats[id].updatedAt else 0;
    var r := SelectSorted(chats, bound, (id: nat) => id in chats && caller in chats[id].participants, key);
    assert forall i, j :: 0 <= i < j < |r| ==> key(r[i]) <= key(r[j]);
    r
  }

  /** getMessages: one chat's messages, oldest first. */
  function MessagesOf(msgs: map<Id, Message>, bound: Id, chatId: Id): (r: seq<Id>)
    ensures forall id :: id in r <==> id in msgs && id < bound && msgs[id].chat == chatId
    ensures Distinct(r)
    ensures forall i, j :: 0 <= i < j < |r| ==> msgs[r[i]].createdAt <= msgs[r[j]].createdAt
  {
    var key: nat -> int := (id: nat) => if id in msgs then msgs[id].createdAt else 0;
    var r := SelectSorted(msgs, bound, (id: nat) => id in msgs && msgs[id].chat == chatId, key);
    assert forall i, j :: 0 <= i < j < |r| ==> key(r[i]) <= key(r[j]);
    r
  }

  // ---------------------------------------------------------- sendMessage

  /** The message sendMessage saves: read by its sender only. */
  function NewChatMessage(chatId: Id, sender: Id, content: string, now: nat): (m: Message)
    ensures m.readBy == [sender]
    ensures m.chat == chatId && m.sender == sender && m.content == content && m.createdAt == now
  {
    Message(chatId, sender, content, [sender], now)
  }

  /** `Chat.findByIdAndUpdate(chatId, { lastMessage })`: points the chat at
      the message and refreshes its update time; a missing chat is left
      missing. */
  function WithLastMessage(chats: map<Id, Chat>, chatId: Id, msgId: Id, now: nat): (r: map<Id, Chat>)
    ensures r.Keys == chats.Keys
    ensures chatId in chats ==> r[chatId].lastMessage == Some(msgId) && r[chatId].updatedAt == now &&
                                r[chatId].participants == chats[chatId].participants
    ensures forall k :: k in chats && k != chatId ==> r[k] == chats[k]
  {
    if chatId in chats then chats[chatId := chats[chatId].(lastMessage := Some(msgId), updatedAt := now)]
    else chats
  }

  /** sendMessage: saves the message, then moves the chat's `lastMessage`
      to it, then emits the stored message to the chat's room; 201. */
  method SendMessage(db: Db, sender: Id, chatId: Id, content: string, now: nat)
    returns (out: Outcome<Id>, emitted: ChatEvent)
    requires db.Valid()
    modifies db`messages, db`chats, db`nextId
    ensures db.Valid()
    ensures out.Ok? && out.status == 201 && out.value !in old(db.messages)
    ensures db.messages == old(db.messages)[out.value := NewChatMessage(chatId, sender, content, now)]
    ensures db.chats == WithLastMessage(old(db.chats), chatId, out.value, now)
    ensures emitted == NewMessage(chatId, db.messages[out.value])
  {
    var id := db.InsertMessage(NewChatMessage(chatId, sender, content, now));
    db.UpdateChats(WithLastMessage(db.chats, chatId, id, now));
    emitted := NewMessage(chatId, db.messages[id]);
    out := Ok(201, id);
  }

  /** After a send the chat's thread lists the new message, which its
      sender has read. */
  lemma SentMessageListed(msgs: map<Id, Message>, bound: Id, id: Id,
                           chatId: Id, sender: Id, content: string, now: nat)
    requires id < bound
    ensures var m := NewChatMessage(chatId, sender, content, now);
      id in MessagesOf(msgs[id := m], bound, chatId) && sender in msgs[id := m][id].readBy
  {
    var m := NewChatMessage(chatId, sender, content, now);
    var msgs' := msgs[id := m];
    assert id in msgs' && msgs'[id].chat == m.chat;
    var r := MessagesOf(msgs', bound, m.chat);
    assert id in r;
  }

  // ----------------------------------------------------- markMessagesAsRead

  /** `updateMany({ chat, readBy: { $ne: reader } }, { $push: { readBy:
      reader } })`. */
  function MarkedRead(msgs: map<Id, Message>, chatId: Id, reader: Id): (r: map<Id, Message>)
    ensures r.Keys == msgs.Keys
    ensures forall k :: k in msgs && msgs[k].chat == chatId && reader !in msgs[k].readBy ==>
      r[k] == msgs[k].(readBy := msgs[k].readBy + [reader])
    ensures forall k :: k in msgs && (msgs[k].chat != chatId || reader in msgs[k].readBy) ==> r[k] == msgs[k]
  {
    map k | k in msgs ::
      if msgs[k].chat == chatId && reader !in msgs[k].readBy then msgs[k].(readBy := msgs[k].readBy + [reader])
      else msgs[k]
  }

  /** markMessagesAsRead: every message of the chat is then read by the
      reader. */
  method MarkMessagesAsRead(db: Db, reader: Id, chatId: Id) returns (out: Outcome<string>)
    requires db.Valid()
    modifies db`messages
    ensures db.Valid()
    ensures db.messages == MarkedRead(old(db.messages), chatId, reader)
    ensures out == Ok(200, "Messages marked as read")
  {
    db.UpdateMessages(MarkedRead(db.messages, chatId, reader));
    out := Ok(200, "Messages marked as read");
  }

  /** After marking, the reader has read every message of the chat; no
      `readBy` list gains a duplicate; messages of other chats are as they
      were; marking again changes nothing. */
  lemma MarkedReadProperties(msgs: map<Id, Message>, chatId: Id, reader: Id)
    ensures var r := MarkedRead(msgs, chatId, reader);
      forall k :: k in r && r[k].chat == chatId ==> reader in r[k].readBy
    ensures var r := MarkedRead(msgs, chatId, reader);
      forall k :: k in msgs && Distinct(msgs[k].readBy) ==> Distinct(r[k].readBy)
    ensures var r := MarkedRead(msgs, chatId, reader);
      forall k :: k in msgs && msgs[k].chat != chatId ==> r[k] == msgs[k]
    ensures MarkedRead(MarkedRead(msgs, chatId, reader), chatId, reader) == MarkedRead(msgs, chatId, reader)
  {
    var r := MarkedRead(msgs, chatId, reader);
    forall k | k in msgs && Distinct(msgs[k].readBy)
      ensures Distinct(r[k].readBy)
    {
      if msgs[k].chat == chatId && reader !in msgs[k].readBy {
        var s := msgs[k].readBy + [reader];
        assert r[k].readBy == s;
        forall i, j | 0 <= i < j < |s|
          ensures s[i] != s[j]
        {
          if j == |s| - 1 {
            assert s[i] in msgs[k].readBy;
          }
        }
      }
    }
    var r2 := MarkedRead(r, chatId, reader);
    assert forall k :: k in r ==> r2[k] == r[k];
  }

  // ------------------------------------------------------------ startChat

  /** The stored chat `k` holds both users. */
  predicate Both(chats: map<Id, Chat>, k: Id, a: Id, b: Id) {
    k in chats && a in chats[k].participants && b in chats[k].participants
  }

  /** `Chat.findOne({ participants: { $all: [a, b] } })`: the first stored
      chat holding both users. With `a == b` any chat holding `a` is a
      match. */
  function FindChat(chats: map<Id, Chat>, bound: Id, a: Id, b: Id): (r: Option<Id>)
    ensures r.Some? ==> r.value < bound && Both(chats, r.value, a, b)
    ensures r.Some? ==> forall k: Id :: k < r.value ==> !Both(chats, k, a, b)
    ensures r.None? <==> forall k: Id :: k < bound ==> !Both(chats, k, a, b)
  {
    FirstBoth(chats, a, b, 0, bound)
  }

  /** The scan behind FindChat, from id `from` up to the bound. */
  function FirstBoth(chats: map<Id, Chat>, a: Id, b: Id, from: Id, bound: Id): (r: Option<Id>)
    ensures r.Some? ==> from <= r.value < bound && Both(chats, r.value, a, b)
    ensures r.Some? ==> forall k :: from <= k < r.value ==> !Both(chats, k, a, b)
    ensures r.None? ==> forall k :: from <= k < bound ==> !Both(chats, k, a, b)
    decreases bound - from
  {
    if from >= bound then None
    else if Both(chats, from, a, b) then Some(from)
    else FirstBoth(chats, a, b, from + 1, bound)
  }

  /** The chat startChat creates when none is found. */
  function PairChat(caller: Id, target: Id, now: nat): (c: Chat)
    ensures c.participants == [caller, target] && c.lastMessage.None?
  {
    Chat([caller, target], None, now)
  }

  /** startChat: reuses the first chat holding both users or creates one
      with the two of them, then notifies the recipient's room; 201. */
  method StartChat(db: Db, caller: Id, target: Id, now: nat) returns (out: Outcome<Id>, emitted: ChatEvent)
    requires db.Valid()
    modifies db`chats, db`nextId
    ensures db.Valid()
    ensures out.Ok? && out.status == 201
    ensures FindChat(old(db.chats), old(db.nextId), caller, target).Some? ==>
      out.value == FindChat(old(db.chats), old(db.nextId), caller, target).value &&
      db.chats == old(db.chats) && db.nextId == old(db.nextId)
    ensures FindChat(old(db.chats), old(db.nextId), caller, target).None? ==>
      out.value !in old(db.chats) && db.chats == old(db.chats)[out.value := PairChat(caller, target, now)]
    ensures out.value in db.chats && emitted == NewChat(target, db.chats[out.value])
  {
    var found := FindChat(db.chats, db.nextId, caller, target);
    var id: Id;
    if found.Some? {
      id := found.value;
    } else {
      id := db.InsertChat(PairChat(caller, target, now));
    }
    emitted := NewChat(target, db.chats[id]);
    out := Ok(201, id);
  }

  /** A second startChat for the same pair finds the chat the first one
      returned. */
  lemma StartChatTwiceSameChat(chats: map<Id, Chat>, bound: Id, caller: Id, target: Id, now: nat)
    requires forall k :: k in chats ==> k < bound
    ensures var found := FindChat(chats, bound, caller, target);
      var after := if found.Some? then chats else chats[bound := PairChat(caller, target, now)];
      var id := if found.Some? then found.value else bound;
      FindChat(after, bound + 1, caller, target) == Some(id)
  {
    var found := FindChat(chats, bound, caller, target);
    if found.Some? {
      var again := FindChat(chats, bound + 1, caller, target);
      assert Both(chats, found.value, caller, target);
      assert again.Some? && again.value <= found.value;
    } else {
      var after := chats[bound := PairChat(caller, target, now)];
      forall k: Id | k < bound
        ensures !Both(after, k, caller, target)
      {
        assert !Both(chats, k, caller, target);
      }
      assert Both(after, bound, caller, target);
    }
  }

  /** The search does not depend on which of the two users asks. */
  lemma FindChatSymmetric(chats: map<Id, Chat>, bound: Id, a: Id, b: Id)
    ensures FindChat(chats, bound, a, b) == FindChat(chats, bound, b, a)
  {
    var r, s := FindChat(chats, bound, a, b), FindChat(chats, bound, b, a);
    if r.Some? {
      assert Both(chats, r.value, b, a);
      assert s.Some? && s.value <= r.value;
      assert Both(chats, s.value, a, b);
    } else {
      forall k: Id | k < bound
        ensures !Both(chats, k, b, a)
      {
        assert !Both(chats, k, a, b);
      }
    }
  }
}

=== FILE: models.dfy ===
/** The stored records of CampusVibes: users, posts with their comments,
    notifications, follow requests, groups, group messages, chats and
    direct messages. Every enum field of a schema is a datatype with its
    stored name and the parser the store applies when it validates a value. */
module Models {
  import opened Strings

  /** Document ids. The store issues them in increasing order. */
  type Id = nat

  datatype Option<T> = None | Some(value: T) {
    /** This value if there is one, otherwise `other`: the first of two
        checks that reports something. */
    function OrElse(other: Option<T>): Option<T> {
      if Some? then this else other
    }
  }

  /** A handler's reply: an HTTP status with a payload, or an HTTP status
      with the error message the handler sends. */
  datatype Outcome<T> = Ok(status: nat, value: T) | Fail(status: nat, message: string)

  // ---------------------------------------------------------------- enums

  datatype Gender = Male | Female | OtherGender

  function GenderName(g: Gender): string {
    match g
    case Male => "male"
    case Female => "female"
    case OtherGender => "other"
  }

  /** The `enum: ["male", "female", "other"]` check. */
  function ParseGender(s: string): (r: Option<Gender>)
    ensures r.Some? ==> GenderName(r.value) == s
    ensures forall g :: GenderName(g) == s ==> r == Some(g)
  {
    if s == "male" then Some(Male)
    else if s == "female" then Some(Female)
    else if s == "other" then Some(OtherGender)
    else None
  }

  datatype UserType = Student | Faculty

  function UserTypeName(t: UserType): string {
    match t
    case Student => "student"
    case Faculty => "faculty"
  }

  /** The `enum: ["student", "faculty"]` check. */
  function ParseUserType(s: string): (r: Option<UserType>)
    ensures r.Some? ==> UserTypeName(r.value) == s
    ensures forall t :: UserTypeName(t) == s ==> r == Some(t)
  {
    if s == "student" then Some(Student)
    else if s == "faculty" then Some(Faculty)
    else None
  }

  datatype Role = UserRole | AdminRole

  datatype PostType = Text | Image | Video | Document

  function PostTypeName(t: PostType): string {
    match t
    case Text => "text"
    case Image => "image"
    case Video => "video"
    case Document => "document"
  }

  /** The `enum: ["text", "image", "video", "document"]` check. */
  function ParsePostType(s: string): (r: Option<PostType>)
    ensures r.Some? ==> PostTypeName(r.value) == s
    ensures forall t :: PostTypeName(t) == s ==> r == Some(t)
  {
    if s == "text" then Some(Text)
    else if s == "image" then Some(Image)
    else if s == "video" then Some(Video)
    else if s == "document" then Some(Document)
    else None
  }

  datatype PostStatus = Pending | Approved | Rejected

  datatype NotificationType = LikeNote | CommentNote | FollowNote | UnfollowNote | WarningNote

  function NotificationTypeName(t: NotificationType): string {
    match t
    case LikeNote => "like"
    case CommentNote => "comment"
    case FollowNote => "follow"
    case UnfollowNote => "unfollow"
    case WarningNote => "warning"
  }

  datatype RequestStatus = RequestPending | RequestAccepted | RequestRejected

  datatype GroupRole = GroupAdmin | GroupMember

  // -------------------------------------------------------------- records

  /** A user document. `password` holds the stored hash. The visibility is
      kept as the stored string, because the update that writes it does not
      run the schema's enum check. */
  datatype User = User(
    fullName: string,
    email: string,
    password: string,
    image: string,
    aboutMe: string,
    gender: Gender,
    role: Role,
    userType: UserType,
    document: string,
    isApproved: bool,
    followers: seq<Id>,
    following: seq<Id>,
    posts: seq<Id>,
    profileVisibility: string)

  /** A new user document with the schema's defaults filled in: role "user",
      not approved, empty id lists, public profile; the string setters trim
      fullName and aboutMe and lower-case and trim the email. */
  function NewUser(fullName: string, email: string, passwordHash: string, image: string,
                   aboutMe: string, gender: Gender, userType: UserType, document: string): (u: User)
    ensures u.role == UserRole && !u.isApproved && u.profileVisibility == "public"
    ensures u.followers == [] && u.following == [] && u.posts == []
    ensures u.fullName == Trim(fullName) && u.aboutMe == Trim(aboutMe)
    ensures u.email == Trim(Lower(email))
    ensures u.gender == gender && u.userType == userType
    ensures u.image == image && u.document == document && u.password == passwordHash
  {
    User(Trim(fullName), Trim(Lower(email)), passwordHash, image, Trim(aboutMe), gender,
         UserRole, userType, document, false, [], [], [], "public")
  }

  /** The user document passes the schema's `required` checks after its
      setters have run. */
  predicate UserSavable(u: User) {
    RequiredString(u.fullName) && RequiredString(u.email) && RequiredString(u.password)
  }

  /** One entry of a post's `comments` array. */
  datatype Comment = Comment(user: Id, text: string, createdAt: nat)

  datatype Post = Post(
    user: Id,
    postType: PostType,
    caption: Option<string>,
    content: string,
    status: PostStatus,
    likes: seq<Id>,
    comments: seq<Comment>,
    createdAt: nat)

  /** A new post: status "pending", no likes and no comments, the caption
      trimmed by its setter. */
  function NewPost(user: Id, postType: PostType, caption: Option<string>, content: string, now: nat): (p: Post)
    ensures p.status == Pending && p.likes == [] && p.comments == []
    ensures p.user == user && p.postType == postType && p.content == content
    ensures p.createdAt == now
    ensures caption.None? <==> p.caption.None?
    ensures caption.Some? ==> p.caption == Some(Trim(caption.value))
  {
    Post(user, postType, if caption.Some? then Some(Trim(caption.value)) else None,
         content, Pending, [], [], now)
  }

  /** `required: true` on a String rejects the empty string. */
  predicate RequiredString(s: string) {
    s != []
  }

  /** The post document passes the schema's validators: content present and
      every comment's (trimmed) text present. */
  predicate PostSavable(p: Post) {
    RequiredString(p.content) && forall i :: 0 <= i < |p.comments| ==> RequiredString(p.comments[i].text)
  }

  datatype Notification = Notification(
    user: Id,
    noteType: NotificationType,
    fromUser: Id,
    post: Option<Id>,
    message: Option<string>,
    read: bool,
    createdAt: nat)

  /** A new notification is unread. */
  function NewNotification(user: Id, noteType: NotificationType, fromUser: Id,
                           post: Option<Id>, message: Option<string>, now: nat): (n: Notification)
    ensures !n.read
    ensures n.user == user && n.fromUser == fromUser && n.noteType == noteType
    ensures n.post == post && n.message == message && n.createdAt == now
  {
    Notification(user, noteType, fromUser, post, message, false, now)
  }

  datatype FollowRequest = FollowRequest(from: Id, to: Id, status: RequestStatus)

  datatype Member = Member(user: Id, role: GroupRole)

  datatype Group = Group(
    name: string,
    description: string,
    createdBy: Id,
    isPublic: bool,
    members: seq<Member>)

  /** The user ids of a member list. */
  function MemberIds(ms: seq<Member>): (r: seq<Id>)
    ensures |r| == |ms|
    ensures forall i :: 0 <= i < |ms| ==> r[i] == ms[i].user
  {
    seq(|ms|, i requires 0 <= i < |ms| => ms[i].user)
  }

  datatype GroupMessage = GroupMessage(group: Id, sender: Id, message: string, createdAt: nat)

  datatype Chat = Chat(participants: seq<Id>, lastMessage: Option<Id>, updatedAt: nat)

  datatype Message = Message(chat: Id, sender: Id, content: string, readBy: seq<Id>, createdAt: nat)
}

=== FILE: moderation.dfy ===
/** Content moderation: the blocked-word list, the post filter (which warns
    the author and lets the post through) and the comment filter (which
    rejects the comment). Both filters lower-case the stored words and the
    text, then look for any word as a substring. */
module Moderation {
  import opened Strings
  import opened Models
  import opened Lists
  import opened Store

  /** The text of the warning notification the post filter stores. */
  const WarningText := "Your message violates our community guidelines. Kindly refrain from using offensive words."

  const CommentRejected := "Your comment contains prohibited words."

  /** The error a `toLowerCase` call on an absent comment text throws. */
  const MissingTextError := "Cannot read properties of undefined (reading 'toLowerCase')"

  // ------------------------------------------------------- the word list

  /** `BlockedWord.find()`: the stored words, in insertion order. */
  function WordList(m: map<Id, string>, bound: Id): (r: seq<string>)
    ensures forall w :: w in r <==> exists id :: id in m && id < bound && m[id] == w
  {
    var ids := KeysBelow(m, bound);
    var r := WordsAt(m, ids);
    WordsAtMembers(m, bound, ids, r);
    r
  }

  /** The words stored under the given ids, in their order. */
  function WordsAt(m: map<Id, string>, ids: seq<Id>): (r: seq<string>)
    requires forall i :: 0 <= i < |ids| ==> ids[i] in m
    ensures |r| == |ids| && forall i :: 0 <= i < |ids| ==> r[i] == m[ids[i]]
  {
    seq(|ids|, i requires 0 <= i < |ids| => m[ids[i]])
  }

  /** The words under the ids below the bound are the words stored below
      it. */
  lemma WordsAtMembers(m: map<Id, string>, bound: Id, ids: seq<Id>, r: seq<string>)
    requires forall i :: 0 <= i < |ids| ==> ids[i] in m && ids[i] < bound
    requires forall k :: k in m && k < bound ==> k in ids
    requires |r| == |ids| && forall i :: 0 <= i < |ids| ==> r[i] == m[ids[i]]
    ensures forall w :: w in r <==> exists id :: id in m && id < bound && m[id] == w
  {
    forall w | w in r
      ensures exists id :: id in m && id < bound && m[id] == w
    {
      var k :| 0 <= k < |r| && r[k] == w;
      assert m[ids[k]] == w;
    }
    forall w | exists id :: id in m && id < bound && m[id] == w
      ensures w in r
    {
      var id :| id in m && id < bound && m[id] == w;
      var k :| 0 <= k < |ids| && ids[k] == id;
      assert r[k] == w;
    }
  }

  /** `words.map(w => w.word.toLowerCase())`. */
  function LowerAll(words: seq<string>): (r: seq<string>)
    ensures |r| == |words|
    ensures forall i :: 0 <= i < |words| ==> r[i] == Lower(words[i])
  {
    seq(|words|, i requires 0 <= i < |words| => Lower(words[i]))
  }

  /** `blockedWords.some(word => text.includes(word))`, with the text and
      the words lower-cased first. */
  function MatchesBlocked(text: string, words: seq<string>): (r: bool)
    ensures r <==> exists i :: 0 <= i < |words| && Includes(Lower(text), Lower(words[i]))
  {
    var lowered := LowerAll(words);
    assert forall i :: 0 <= i < |words| ==> lowered[i] == Lower(words[i]);
    ContainsAny(Lower(text), lowered)
  }

  /** Matching ignores case in the text. */
  lemma MatchIgnoresTextCase(text: string, words: seq<string>)
    ensures MatchesBlocked(Lower(text), words) == MatchesBlocked(text, words)
  {
    LowerIdempotent(text);
  }

  /** Matching ignores case in the stored words. */
  lemma MatchIgnoresWordCase(text: string, words: seq<string>)
    ensures MatchesBlocked(text, LowerAll(words)) == MatchesBlocked(text, words)
  {
    forall i | 0 <= i < |words|
      ensures Lower(LowerAll(words)[i]) == Lower(words[i])
    {
      LowerIdempotent(words[i]);
    }
  }

  /** Blocking one more word never lets through a text that was caught. */
  lemma MatchMonotone(text: string, words: seq<string>, w: string)
    requires MatchesBlocked(text, words)
    ensures MatchesBlocked(text, words + [w])
  {
    var i :| 0 <= i < |words| && Includes(Lower(text), Lower(words[i]));
    assert (words + [w])[i] == words[i];
  }

  // ------------------------------------------------------ the post filter

  /** The post filter's test: an absent content or caption counts as "". */
  function PostFlagged(words: seq<string>, content: Option<string>, caption: Option<string>): (r: bool)
    ensures r <==> exists i :: (0 <= i < |words| &&
      (Includes(Lower(OrEmpty(content)), Lower(words[i])) || Includes(Lower(OrEmpty(caption)), Lower(words[i]))))
  {
    MatchesBlocked(OrEmpty(content), words) || MatchesBlocked(OrEmpty(caption), words)
  }

  function OrEmpty(s: Option<string>): string {
    if s.Some? then s.value else ""
  }

  /** The warning stored for a flagged post: addressed to the author, from
      the author, unread, with the fixed text and no post. */
  function Warning(author: Id, now: nat): (n: Notification)
    ensures n.user == author && n.fromUser == author && !n.read
    ensures n.noteType == WarningNote && n.message == Some(WarningText) && n.post.None?
  {
    NewNotification(author, WarningNote, author, None, Some(WarningText), now)
  }

  /** filterPost: when the post is flagged, stores one warning and sets the
      flag; the request goes on in both cases. */
  method FilterPost(db: Db, author: Id, content: Option<string>, caption: Option<string>, now: nat)
    returns (flagged: bool)
    requires db.Valid()
    modifies db`notifications, db`nextId
    ensures db.Valid()
    ensures flagged == PostFlagged(WordList(old(db.blockedWords), old(db.nextId)), content, caption)
    ensures flagged ==>
      old(db.nextId) !in old(db.notifications) &&
      db.notifications == old(db.notifications)[old(db.nextId) := Warning(author, now)]
    ensures !flagged ==> db.notifications == old(db.notifications) && db.nextId == old(db.nextId)
  {
    var words := WordList(db.blockedWords, db.nextId);
    flagged := PostFlagged(words, content, caption);
    if flagged {
      var id := db.InsertNotification(Warning(author, now));
    }
  }

  // --------------------------------------------------- the comment filter

  /** filterComment's decision: `None` lets the comment through. An absent
      text makes `toLowerCase` throw. */
  function CommentRefusal(words: seq<string>, text: Option<string>): (r: Option<(nat, string)>)
    ensures text.None? ==> r == Some((500, MissingTextError))
    ensures text.Some? ==>
      (r.Some? <==> exists i :: 0 <= i < |words| && Includes(Lower(text.value), Lower(words[i])))
    ensures text.Some? && r.Some? ==> r == Some((400, CommentRejected))
    ensures words == [] && text.Some? ==> r.None?
  {
    if text.None? then Some((500, MissingTextError))
    else if MatchesBlocked(text.value, words) then Some((400, CommentRejected))
    else None
  }

  // ------------------------------------------------ blocked-word routes

  /** No two stored entries hold the same word, and none is empty. */
  predicate WordsWellFormed(m: map<Id, string>) {
    (forall a, b :: a in m && b in m && a != b ==> m[a] != m[b]) &&
    (forall a :: a in m ==> m[a] != [])
  }

  /** POST /add: the word must be present and non-empty, and not stored
      already (an exact, case-sensitive match). */
  method AddBlockedWord(db: Db, word: Option<string>) returns (out: Outcome<Id>)
    requires db.Valid()
    modifies db`blockedWords, db`nextId
    ensures db.Valid()
    ensures (word.None? || word.value == []) ==>
      out == Fail(400, "Word is required") && db.blockedWords == old(db.blockedWords)
    ensures word.Some? && word.value != [] && word.value in old(db.blockedWords).Values ==>
      out == Fail(400, "Word already blocked") && db.blockedWords == old(db.blockedWords)
    ensures word.Some? && word.value != [] && word.value !in old(db.blockedWords).Values ==>
      out.Ok? && out.status == 201 && out.value !in old(db.blockedWords) &&
      db.blockedWords == old(db.blockedWords)[out.value := word.value]
  {
    if word.None? || word.value == [] {
      return Fail(400, "Word is required");
    }
    if word.value in db.blockedWords.Values {
      return Fail(400, "Word already blocked");
    }
    var id := db.InsertBlockedWord(word.value);
    out := Ok(201, id);
  }

  /** A word that passes the add route's checks keeps the list well formed. */
  lemma AddKeepsWordsWellFormed(m: map<Id, string>, id: Id, w: string)
    requires WordsWellFormed(m)
    requires id !in m && w != [] && w !in m.Values
    ensures WordsWellFormed(m[id := w])
  {
    forall a | a in m
      ensures m[a] != w
    {
      assert m[a] in m.Values;
    }
  }

  /** DELETE /:id: removes the entry, and reports success whether or not it
      was stored. */
  method DeleteBlockedWord(db: Db, id: Id) returns (out: Outcome<string>)
    requires db.Valid()
    modifies db`blockedWords
    ensures db.Valid()
    ensures db.blockedWords == old(db.blockedWords) - {id}
    ensures out == Ok(200, "Word removed")
  {
    db.blockedWords := db.blockedWords - {id};
    out := Ok(200, "Word removed");
  }

  /** Removing an entry keeps the list well formed, and the word is no
      longer matched unless another entry holds it. */
  lemma DeleteKeepsWordsWellFormed(m: map<Id, string>, id: Id)
    requires WordsWellFormed(m)
    ensures WordsWellFormed(m - {id})
    ensures id in m ==> m[id] !in (m - {id}).Values
  {
  }
}

=== FILE: notifications.dfy ===
/** The notification routes: the caller's notifications, newest first, each
    with a readable `message` built from its type, and marking one read. */
module Notifications {
  import opened Strings
  import opened Models
  import opened Lists
  import opened Store

  const DefaultWarning := "Your post contains inappropriate content."

  /** A template literal's rendering of a value that may be missing:
      `undefined` prints as "undefined". */
  function Shown(v: Option<string>): (r: string)
    ensures v.Some? ==> r == v.value
    ensures v.None? ==> r == "undefined"
  {
    if v.Some? then v.value else "undefined"
  }

  /** The caption between double quotes. */
  function QuotedCaption(caption: Option<string>): string {
    "\"" + Shown(caption) + "\""
  }

  /** The phrase that follows the actor's name, by type; the like and
      comment phrases quote the post's caption. */
  function Phrase(t: NotificationType, caption: Option<string>): string
    requires t != WarningNote
  {
    match t
    case LikeNote => "liked your post " + QuotedCaption(caption) + "."
    case CommentNote => "commented on your post " + QuotedCaption(caption) + "."
    case FollowNote => "started following you."
    case UnfollowNote => "unfollowed you."
  }

  /** The `message` a listed notification carries. A warning shows its
      stored message, or the default when that is missing or empty; any
      other type shows the actor's name, a space and the type's phrase. */
  function FormatMessage(n: Notification, fromName: Option<string>, caption: Option<string>): (r: string)
    ensures n.noteType == WarningNote && n.message.Some? && n.message.value != [] ==> r == n.message.value
    ensures n.noteType == WarningNote && (n.message.None? || n.message.value == []) ==> r == DefaultWarning
    ensures n.noteType != WarningNote ==>
      StartsWith(r, Shown(fromName) + " ") && r[|Shown(fromName)| + 1..] == Phrase(n.noteType, caption)
  {
    if n.noteType == WarningNote then
      (if n.message.Some? && n.message.value != [] then n.message.value else DefaultWarning)
    else
      var head := Shown(fromName) + " ";
      var r := head + Phrase(n.noteType, caption);
      assert r[..|head|] == head;
      assert r[|head|..] == Phrase(n.noteType, caption);
      r
  }

  /** Like and comment texts quote the caption between double quotes. */
  lemma QuotesCaption(t: NotificationType, caption: Option<string>)
    requires t == LikeNote || t == CommentNote
    ensures Includes(Phrase(t, caption), "\"" + Shown(caption) + "\"")
  {
    if t == LikeNote {
      IncludesMiddle("liked your post ", QuotedCaption(caption), ".");
    } else {
      IncludesMiddle("commented on your post ", QuotedCaption(caption), ".");
    }
  }

  /** The four non-warning types give four different phrases. */
  lemma PhrasesDiffer(t: NotificationType, u: NotificationType, caption: Option<string>)
    requires t != WarningNote && u != WarningNote && t != u
    ensures Phrase(t, caption) != Phrase(u, caption)
  {
    assert Phrase(t, caption)[0] != Phrase(u, caption)[0];
  }

  /** One element of the listing: the stored notification with its
      computed message. */
  datatype Listed = Listed(id: Id, note: Notification, message: string)

  /** The actor's name as `populate("fromUser", "fullName")` finds it. */
  function ActorName(users: map<Id, User>, n: Notification): (r: Option<string>)
    ensures n.fromUser in users ==> r == Some(users[n.fromUser].fullName)
    ensures n.fromUser !in users ==> r.None?
  {
    if n.fromUser in users then Some(users[n.fromUser].fullName) else None
  }

  /** The caption as `populate("post", "caption")` finds it. */
  function PostCaption(posts: map<Id, Post>, n: Notification): (r: Option<string>)
    ensures n.post.Some? && n.post.value in posts ==> r == posts[n.post.value].caption
    ensures n.post.None? || n.post.value !in posts ==> r.None?
  {
    if n.post.Some? && n.post.value in posts then posts[n.post.value].caption else None
  }

  /** The message of one notification, with its actor and post looked
      up. */
  function ListedMessage(users: map<Id, User>, posts: map<Id, Post>, n: Notification): string {
    FormatMessage(n, ActorName(users, n), PostCaption(posts, n))
  }

  /** The ids of the caller's notifications, newest first. */
  function NotificationIds(notes: map<Id, Notification>, bound: Id, caller: Id): (r: seq<Id>)
    ensures forall id :: id in r <==> id in notes && id < bound && notes[id].user == caller
    ensures Distinct(r)
    ensures forall i, j :: 0 <= i < j < |r| ==> notes[r[i]].createdAt >= notes[r[j]].createdAt
  {
    var key: nat -> int := (id: nat) => if id in notes then 0 - notes[id].createdAt else 0;
    var r := SelectSorted(notes, bound, (id: nat) => id in notes && notes[id].user == caller, key);
    assert forall i, j :: 0 <= i < j < |r| ==> key(r[i]) <= key(r[j]);
    r
  }

  /** `notifications.map(...)`: each stored notification with its
      message, in the given order. */
  function Formatted(users: map<Id, User>, posts: map<Id, Post>, notes: map<Id, Notification>,
                     ids: seq<Id>): (r: seq<Listed>)
    requires forall i :: 0 <= i < |ids| ==> ids[i] in notes
    ensures |r| == |ids|
    ensures forall i :: 0 <= i < |r| ==>
      r[i].id == ids[i] && r[i].note == notes[ids[i]] && r[i].message == ListedMessage(users, posts, notes[ids[i]])
  {
    seq(|ids|, i requires 0 <= i < |ids| => Listed(ids[i], notes[ids[i]], ListedMessage(users, posts, notes[ids[i]])))
  }

  /** GET /:userId: the authenticated caller's notifications, newest first,
      each keeping its stored fields and carrying its message. The path's
      user id is not consulted. */
  function ListNotifications(users: map<Id, User>, posts: map<Id, Post>, notes: map<Id, Notification>,
                             bound: Id, caller: Id, pathUserId: string): (r: seq<Listed>)
    ensures var ids := NotificationIds(notes, bound, caller);
      |r| == |ids| &&
      forall i :: 0 <= i < |r| ==>
        r[i].id == ids[i] && r[i].note == notes[ids[i]] && r[i].message == ListedMessage(users, posts, notes[ids[i]])
  {
    Formatted(users, posts, notes, NotificationIds(notes, bound, caller))
  }

  /** The listing holds exactly the caller's notifications, each once,
      newest first. */
  lemma ListingIsCallersNewestFirst(users: map<Id, User>, posts: map<Id, Post>, notes: map<Id, Notification>,
                                    bound: Id, caller: Id, pathUserId: string)
    ensures var r := ListNotifications(users, posts, notes, bound, caller, pathUserId);
      (forall i :: 0 <= i < |r| ==> r[i].note.user == caller) &&
      (forall i, j :: 0 <= i < j < |r| ==> r[i].id != r[j].id && r[i].note.createdAt >= r[j].note.createdAt) &&
      (forall id :: id in notes && id < bound && notes[id].user == caller ==>
        exists i :: 0 <= i < |r| && r[i].id == id)
  {
    ListedInIdOrder(notes, NotificationIds(notes, bound, caller), bound, caller,
                    ListNotifications(users, posts, notes, bound, caller, pathUserId));
  }

  /** Any list that follows the caller's ids, entry by entry, has the
      listing's properties. */
  lemma ListedInIdOrder(notes: map<Id, Notification>, ids: seq<Id>, bound: Id, caller: Id, r: seq<Listed>)
    requires ids == NotificationIds(notes, bound, caller)
    requires |r| == |ids| && forall i :: 0 <= i < |r| ==> r[i].id == ids[i] && r[i].note == notes[ids[i]]
    ensures forall i :: 0 <= i < |r| ==> r[i].note.user == caller
    ensures forall i, j :: 0 <= i < j < |r| ==> r[i].id != r[j].id && r[i].note.createdAt >= r[j].note.createdAt
    ensures forall id :: id in notes && id < bound && notes[id].user == caller ==>
      exists i :: 0 <= i < |r| && r[i].id == id
  {
    CallersIds(notes, ids, bound, caller);
    forall i | 0 <= i < |r|
      ensures r[i].note.user == caller
    {
      assert notes[ids[i]].user == caller;
    }
    forall i, j | 0 <= i < j < |r|
      ensures r[i].id != r[j].id && r[i].note.createdAt >= r[j].note.createdAt
    {
      assert ids[i] != ids[j];
    }
    forall id | id in notes && id < bound && notes[id].user == caller
      ensures exists i :: 0 <= i < |r| && r[i].id == id
    {
      var i := IndexOfId(ids, id);
      assert r[i].id == id;
    }
  }

  /** The caller's ids, position by position. */
  lemma CallersIds(notes: map<Id, Notification>, ids: seq<Id>, bound: Id, caller: Id)
    requires ids == NotificationIds(notes, bound, caller)
    ensures forall i :: 0 <= i < |ids| ==> ids[i] in notes && notes[ids[i]].user == caller
    ensures forall i, j :: 0 <= i < j < |ids| ==> ids[i] != ids[j]
    ensures forall id :: id in notes && id < bound && notes[id].user == caller ==> id in ids
  {
    forall i | 0 <= i < |ids|
      ensures ids[i] in notes && notes[ids[i]].user == caller
    {
      assert ids[i] in ids;
    }
  }

  /** A position of an id the list holds. */
  function IndexOfId(ids: seq<Id>, id: Id): (i: nat)
    requires id in ids
    ensures i < |ids| && ids[i] == id
  {
    if ids[0] == id then 0 else 1 + IndexOfId(ids[1..], id)
  }

  /** PUT /:id/read: sets `read` on that notification only; an unknown id
      changes nothing; the reply is the same either way. */
  method MarkNotificationRead(db: Db, id: Id) returns (out: Outcome<string>)
    requires db.Valid()
    modifies db`notifications
    ensures db.Valid()
    ensures id in old(db.notifications) ==>
      db.notifications == old(db.notifications)[id := old(db.notifications)[id].(read := true)]
    ensures id !in old(db.notifications) ==> db.notifications == old(db.notifications)
    ensures out == Ok(200, "Notification marked as read")
  {
    if id in db.notifications {
      db.notifications := db.notifications[id := db.notifications[id].(read := true)];
    }
    out := Ok(200, "Notification marked as read");
  }

  /** Marking read keeps the listing: the same ids in the same order. */
  lemma MarkReadKeepsListing(notes: map<Id, Notification>, bound: Id, caller: Id, id: Id)
    requires id in notes
    ensures var after := notes[id := notes[id].(read := true)];
      forall x :: x in NotificationIds(after, bound, caller) <==> x in NotificationIds(notes, bound, caller)
  {
  }
}

=== FILE: paging.dfy ===
/** The pagination both paged listings use: `parseInt(query) || default`
    for the page and the limit, `skip = (page - 1) * limit`, the store's
    `skip`/`limit` window, and `totalPages = Math.ceil(total / limit)`. */
module Paging {
  import opened Models

  /** `parseInt(q) || d`: a missing or unparsable value (NaN) and 0 give the
      default. */
  function QueryNumber(q: Option<int>, d: nat): (r: int)
    requires d > 0
    ensures r != 0
    ensures q.None? || q.value == 0 ==> r == d
    ensures q.Some? && q.value != 0 ==> r == q.value
  {
    if q.None? || q.value == 0 then d else q.value
  }

  /** `(page - 1) * limit`. */
  function SkipOf(page: int, limit: int): int {
    (page - 1) * limit
  }

  /** The number of documents the store returns for `limit(n)`: a negative
      limit returns as many as a positive one. */
  function PageSize(limit: int): (n: nat)
    ensures limit != 0 ==> n > 0
    ensures limit >= 0 ==> n == limit
  {
    if limit >= 0 then limit else -limit
  }

  /** `Math.ceil(total / limit)` for a non-zero integer limit. */
  function CeilDiv(total: nat, limit: int): (r: int)
    requires limit != 0
    ensures limit > 0 ==> r >= 0 && total <= r * limit && (r - 1) * limit < total
    ensures limit < 0 ==> r <= 0
  {
    if limit > 0 then
      var q := (total + limit - 1) / limit;
      var m := (total + limit - 1) % limit;
      assert total + limit - 1 == q * limit + m && 0 <= m < limit;
      assert q * limit == total + (limit - 1 - m);
      assert (q - 1) * limit == q * limit - limit;
      q
    else -(total / -limit)
  }

  /** `.skip(skip).limit(n)` on a listing: at most `n` elements, taken in
      order from position `skip`. */
  function PageWindow<T>(s: seq<T>, skip: nat, n: nat): (r: seq<T>)
    ensures |r| == (if skip >= |s| then 0 else if skip + n <= |s| then n else |s| - skip)
    ensures forall i :: 0 <= i < |r| ==> r[i] == s[skip + i]
  {
    if skip >= |s| then [] else if skip + n <= |s| then s[skip..skip + n] else s[skip..]
  }

  /** Everything on a page comes from the listing. */
  lemma WindowWithin<T>(s: seq<T>, skip: nat, n: nat)
    ensures forall x :: x in PageWindow(s, skip, n) ==> x in s
  {
    var w := PageWindow(s, skip, n);
    forall x | x in w
      ensures x in s
    {
      var i :| 0 <= i < |w| && w[i] == x;
      assert s[skip + i] == x;
    }
  }

  /** Position k of a listing lies on page k / limit + 1, and that page is
      one of the pages counted by totalPages. */
  lemma PageOfIndex(total: nat, limit: int, k: nat)
    requires limit > 0 && k < total
    ensures var page := k / limit + 1;
      1 <= page <= CeilDiv(total, limit) &&
      SkipOf(page, limit) <= k < SkipOf(page, limit) + limit
  {
    var q := k / limit;
    var t := CeilDiv(total, limit);
    assert q * limit <= k < q * limit + limit;
    assert SkipOf(q + 1, limit) == q * limit;
    assert (t - q) * limit == t * limit - q * limit > 0;
    PositiveFactor(t - q, limit);
  }

  /** A product with a positive factor is positive only if the other factor
      is. */
  lemma PositiveFactor(x: int, c: int)
    requires c > 0 && x * c > 0
    ensures x > 0
  {
  }

  /** With a positive limit, every element of a listing appears on the page
      PageOfIndex names; the pages 1 to totalPages cover the listing. */
  lemma EveryElementOnAPage<T>(s: seq<T>, limit: int, k: nat)
    requires limit > 0 && k < |s|
    ensures var page := k / limit + 1;
      1 <= page <= CeilDiv(|s|, limit) &&
      s[k] in PageWindow(s, SkipOf(page, limit), PageSize(limit))
  {
    PageOfIndex(|s|, limit, k);
    var page := k / limit + 1;
    var skip := SkipOf(page, limit);
    var w := PageWindow(s, skip, limit);
    assert w[k - skip] == s[k];
  }
}

=== FILE: post_card_view.dfy ===
/** One post's card: its like and comment counters, set from the post and
    then overwritten by the post's socket events, the comment box, the
    like button and the gate deciding whether the card renders. Ids are
    the client's strings. */
module PostCardView {
  import opened Models
  import opened Strings
  import opened ProfileView

  /** A comment as the card lists it. */
  datatype CardComment = CardComment(user: string, text: string)

  /** What the comment request ended with: the stored comment, or a failure
      with the server's `error` field (if any) and the request error's
      `message`. */
  datatype CommentReply = CommentStored(comment: CardComment)
                        | CommentFailed(serverError: Option<string>, message: string)

  /** `new-comment`, emitted after a comment was stored. */
  datatype NewCommentEvent = NewCommentEvent(postId: string, comment: CardComment, userId: string, postOwnerId: string)

  /** `like-post`, emitted after the like request; `like` is the response
      body. */
  datatype LikePostEvent<B> = LikePostEvent(postId: string, userId: string, like: B, postOwnerId: string)

  /** What the error toast shows: a text, or the thrown error object itself. */
  datatype Toast = TextToast(text: string) | ErrorObjectToast

  /** `error.response?.data?.error || error.message || error || "Failed to
      create comment"`. The thrown error is an object, hence truthy, so
      the last alternative is never taken. */
  function CommentErrorToast(serverError: Option<string>, message: string): (t: Toast)
    ensures serverError.Some? && serverError.value != "" ==> t == TextToast(serverError.value)
    ensures (serverError.None? || serverError.value == "") && message != "" ==> t == TextToast(message)
    ensures (serverError.None? || serverError.value == "") && message == "" ==> t == ErrorObjectToast
  {
    if serverError.Some? && serverError.value != "" then TextToast(serverError.value)
    else if message != "" then TextToast(message)
    else ErrorObjectToast
  }

  /** The fallback text shows only when the server or the error itself
      carries that very text. */
  lemma FallbackTextUnreachable(serverError: Option<string>, message: string)
    requires serverError != Some("Failed to create comment") && message != "Failed to create comment"
    ensures CommentErrorToast(serverError, message) != TextToast("Failed to create comment")
  {
  }

  /** Whether the card renders: not while the loading skeleton shows; then
      the same gate as the profile's posts, with the post's author in place
      of the profile. */
  function CardShown(isLoading: bool, authorVisibility: string, authorId: string, current: string,
                     viewerFollowing: Option<seq<FollowerEntry>>): (r: bool)
    ensures r <==> (!isLoading &&
                    (authorVisibility == "public" || authorId == current ||
                     (viewerFollowing.Some? && ListsUser(viewerFollowing.value, authorId))))
  {
    !isLoading && PostsVisible(authorVisibility, authorId, current, viewerFollowing)
  }

  /** The card's state for one post seen by one user. */
  class PostCard {
    const postId: string
    const userId: string
    const authorId: string
    var likesCount: nat
    var isLiked: bool
    var comments: seq<CardComment>
    var commentsCount: nat
    var newComment: string
    var isLoading: bool

    /** The like state agrees with a likes list. */
    predicate LikesFrom(likes: seq<string>)
      reads this
    {
      likesCount == |likes| && (isLiked <==> userId in likes)
    }

    /** The comment counter counts the listed comments. */
    predicate CountsComments()
      reads this
    {
      commentsCount == |comments|
    }

    /** The initial state: `post.likes?.length || 0`, membership of the
        user's id in the likes, the post's comments and their number, an
        empty comment box and the loading skeleton. */
    constructor (postId: string, userId: string, authorId: string,
                 likes: Option<seq<string>>, postComments: Option<seq<CardComment>>)
      ensures this.postId == postId && this.userId == userId && this.authorId == authorId
      ensures likes.Some? ==> LikesFrom(likes.value)
      ensures likes.None? ==> likesCount == 0 && !isLiked
      ensures comments == (if postComments.Some? then postComments.value else [])
      ensures CountsComments()
      ensures newComment == "" && isLoading
    {
      this.postId := postId;
      this.userId := userId;
      this.authorId := authorId;
      likesCount := if likes.Some? then |likes.value| else 0;
      isLiked := likes.Some? && userId in likes.value;
      comments := if postComments.Some? then postComments.value else [];
      commentsCount := if postComments.Some? then |postComments.value| else 0;
      newComment := "";
      isLoading := true;
    }

    /** `post:<id>:like`: the counter and the heart are overwritten from the
        list sent, whatever they were. */
    method OnLike(updatedLikes: seq<string>)
      modifies this`likesCount, this`isLiked
      ensures LikesFrom(updatedLikes)
    {
      likesCount := |updatedLikes|;
      isLiked := userId in updatedLikes;
    }

    /** `post:<id>:comment`: the comment is appended and the counter grows by
        exactly one. */
    method OnComment(c: CardComment)
      modifies this`comments, this`commentsCount
      ensures comments == old(comments) + [c]
      ensures commentsCount == old(commentsCount) + 1
      ensures old(CountsComments()) ==> CountsComments()
    {
      comments := comments + [c];
      commentsCount := commentsCount + 1;
    }

    /** Opening the comments replaces the list with the fetched one; the
        counter is left as it is. */
    method CommentsFetched(fetched: seq<CardComment>)
      modifies this`comments
      ensures comments == fetched && commentsCount == old(commentsCount)
    {
      comments := fetched;
    }

    /** The one-second timer ends the skeleton. */
    method LoadingDone()
      modifies this`isLoading
      ensures !isLoading
    {
      isLoading := false;
    }

    /** Typing in the comment box. */
    method Typed(text: string)
      modifies this`newComment
      ensures newComment == text
    {
      newComment := text;
    }

    /** handleCommentSubmit. A blank box (`!newComment.trim()`) sends nothing
        and changes nothing. Otherwise the text is posted: a stored comment
        clears the box and emits `new-comment` (the card's own list changes
        only when the event comes back); a failure keeps the box and shows
        the error toast. */
    method SubmitComment(reply: CommentReply)
      returns (posted: Option<string>, emitted: Option<NewCommentEvent>, toast: Option<Toast>)
      modifies this`newComment
      ensures Trim(old(newComment)) == [] ==>
        posted.None? && emitted.None? && toast.None? && newComment == old(newComment)
      ensures Trim(old(newComment)) != [] ==> posted == Some(old(newComment))
      ensures Trim(old(newComment)) != [] && reply.CommentStored? ==>
        newComment == "" && toast.None? &&
        emitted == Some(NewCommentEvent(postId, reply.comment, userId, authorId))
      ensures Trim(old(newComment)) != [] && reply.CommentFailed? ==>
        newComment == old(newComment) && emitted.None? &&
        toast == Some(CommentErrorToast(reply.serverError, reply.message))
    {
      posted, emitted, toast := None, None, None;
      if Trim(newComment) == [] {
        return;
      }
      posted := Some(newComment);
      if reply.CommentStored? {
        newComment := "";
        emitted := Some(NewCommentEvent(postId, reply.comment, userId, authorId));
      } else {
        toast := Some(CommentErrorToast(reply.serverError, reply.message));
      }
    }

    /** handleLike. After a successful request `like-post` is emitted with
        the response body; the next statement reads `likes` off the
        response object, which has none, so it throws and the catch only
        logs: the card's state does not change, and the new likes arrive as
        `post:<id>:like`. A failed request emits nothing. */
    method HandleLike<B>(succeeded: bool, body: B) returns (emitted: Option<LikePostEvent<B>>)
      ensures succeeded <==> emitted.Some?
      ensures succeeded ==> emitted == Some(LikePostEvent(postId, userId, body, authorId))
    {
      emitted := if succeeded then Some(LikePostEvent(postId, userId, body, authorId)) else None;
    }
  }
}

=== FILE: post_composer.dfy ===
/** The create-post dialog: the checks a chosen file goes through before it
    is kept, and the form the dialog posts. The dialog is opened for one
    post type (the `type` prop: "text", "image", "video" or "document"). */
module PostComposer {
  import opened Models
  import opened Strings

  /** A chosen file: its MIME type and its size in bytes. */
  datatype ChosenFile = ChosenFile(name: string, mime: string, size: nat)

  /** The dialog's state. */
  datatype Composer = Composer(caption: string, content: string, file: Option<ChosenFile>, error: string)

  const MiB: nat := 1024 * 1024

  /** The largest file accepted: 100 MiB for a video, 10 MiB otherwise. */
  function MaxSize(postType: string): (n: nat)
    ensures postType == "video" ==> n == 104857600
    ensures postType != "video" ==> n == 10485760
  {
    if postType == "video" then 100 * MiB else 10 * MiB
  }

  /** Why a chosen file is refused, if it is: the type check of the post's
      kind first, then the size check. */
  function FileProblem(postType: string, f: ChosenFile): (r: Option<string>)
    ensures postType == "image" && !StartsWith(f.mime, "image/") ==> r == Some("Please upload an image file")
    ensures postType == "video" && !StartsWith(f.mime, "video/") ==> r == Some("Please upload a video file")
    ensures postType == "document" && f.mime != "application/pdf" ==> r == Some("Only PDF files are allowed.")
    ensures r.None? <==>
      (postType == "image" ==> StartsWith(f.mime, "image/")) &&
      (postType == "video" ==> StartsWith(f.mime, "video/")) &&
      (postType == "document" ==> f.mime == "application/pdf") &&
      f.size <= MaxSize(postType)
  {
    if postType == "image" && !StartsWith(f.mime, "image/") then Some("Please upload an image file")
    else if postType == "video" && !StartsWith(f.mime, "video/") then Some("Please upload a video file")
    else if postType == "document" && f.mime != "application/pdf" then Some("Only PDF files are allowed.")
    else if f.size > MaxSize(postType) then
      Some("File size too large (max " + (if postType == "video" then "100MB" else "10MB") + ")")
    else None
  }

  /** handleFileChange: no file changes nothing; a refused file sets the
      error and keeps the file chosen before; an accepted file is kept and
      the error cleared. */
  function FileChanged(c: Composer, postType: string, chosen: Option<ChosenFile>): (r: Composer)
    ensures chosen.None? ==> r == c
    ensures chosen.Some? && FileProblem(postType, chosen.value).Some? ==>
      r == c.(error := FileProblem(postType, chosen.value).value)
    ensures chosen.Some? && FileProblem(postType, chosen.value).None? ==>
      r == c.(file := chosen, error := "")
  {
    if chosen.None? then c
    else
      var problem := FileProblem(postType, chosen.value);
      if problem.Some? then c.(error := problem.value) else c.(file := chosen, error := "")
  }

  /** A file of the wrong kind is refused for its kind, whatever its
      size: the type check comes first. */
  lemma TypeCheckedBeforeSize(f: ChosenFile)
    requires f.mime == "text/plain" && f.size > 100 * MiB
    ensures FileProblem("image", f) == Some("Please upload an image file")
    ensures FileProblem("video", f) == Some("Please upload a video file")
    ensures FileProblem("document", f) == Some("Only PDF files are allowed.")
  {
    assert f.mime[0] == 't';
    assert !StartsWith(f.mime, "image/") by { assert "image/"[0] == 'i'; }
    assert !StartsWith(f.mime, "video/") by { assert "video/"[0] == 'v'; }
  }

  /** A video of 50 MiB is accepted, an image of 50 MiB is not. */
  lemma SizeLimitDependsOnKind()
    ensures FileProblem("video", ChosenFile("a.mp4", "video/mp4", 50 * MiB)).None?
    ensures FileProblem("image", ChosenFile("a.png", "image/png", 50 * MiB)) ==
      Some("File size too large (max 10MB)")
  {
    assert StartsWith("video/mp4", "video/");
    assert StartsWith("image/png", "image/");
    assert MaxSize("image") == 10485760 && 50 * MiB == 52428800;
    assert "File size too large (max " + "10MB" + ")" == "File size too large (max 10MB)";
  }

  // -------------------------------------------------------------- submit

  /** One entry of the posted form. */
  datatype Field = TypeField(postType: string) | ContentField(content: string)
                 | FileField(file: ChosenFile) | CaptionField(caption: string)

  /** The form handleSubmit builds, or the error it throws before any
      request. */
  datatype Form = Fields(fields: seq<Field>) | NoFile(message: string)

  /** The type first; a text post then sends its content, any other post
      its file, which it must have; the caption only when it is not empty. */
  function BuildForm(postType: string, c: Composer): (r: Form)
    ensures postType != "text" && c.file.None? ==> r == NoFile("Please select a file to upload")
    ensures r.Fields? ==> |r.fields| >= 2 && r.fields[0] == TypeField(postType)
    ensures r.Fields? && postType == "text" ==> r.fields[1] == ContentField(c.content)
    ensures r.Fields? && postType != "text" ==> c.file.Some? && r.fields[1] == FileField(c.file.value)
    ensures r.Fields? ==> (CaptionField(c.caption) in r.fields <==> c.caption != "")
    ensures r.Fields? ==> |r.fields| == if c.caption != "" then 3 else 2
  {
    var captionPart := if c.caption != "" then [CaptionField(c.caption)] else [];
    if postType == "text" then Fields([TypeField(postType), ContentField(c.content)] + captionPart)
    else if c.file.None? then NoFile("Please select a file to upload")
    else Fields([TypeField(postType), FileField(c.file.value)] + captionPart)
  }

  /** How the post request ended: created, or refused with the server's
      `message` (if any) and the request error's own message (if any). */
  datatype Reply = Created | Refused(serverMessage: Option<string>, errorMessage: Option<string>)

  /** `err.response?.data?.message || err.message || "Failed to create post"`:
      the first of the two that is present and not empty. */
  function ErrorText(serverMessage: Option<string>, errorMessage: Option<string>): (r: string)
    ensures serverMessage.Some? && serverMessage.value != "" ==> r == serverMessage.value
    ensures (serverMessage.None? || serverMessage.value == "") && errorMessage.Some? && errorMessage.value != "" ==>
      r == errorMessage.value
    ensures r != ""
  {
    if serverMessage.Some? && serverMessage.value != "" then serverMessage.value
    else if errorMessage.Some? && errorMessage.value != "" then errorMessage.value
    else "Failed to create post"
  }

  /** handleSubmit: a missing file shows its message without a request;
      otherwise a created post resets the dialog and a refusal shows its
      error and keeps what was typed. */
  function Submitted(postType: string, c: Composer, reply: Reply): (r: Composer)
    ensures BuildForm(postType, c).NoFile? ==> r == c.(error := "Please select a file to upload")
    ensures BuildForm(postType, c).Fields? && reply.Created? ==> r == Composer("", "", None, "")
    ensures BuildForm(postType, c).Fields? && reply.Refused? ==>
      r == c.(error := ErrorText(reply.serverMessage, reply.errorMessage))
  {
    var form := BuildForm(postType, c);
    if form.NoFile? then c.(error := ErrorText(None, Some(form.message)))
    else if reply.Created? then Composer("", "", None, "")
    else c.(error := ErrorText(reply.serverMessage, reply.errorMessage))
  }

  /** Without a file a non-text post never reaches the server: the outcome
      is the same whatever the server would have said. */
  lemma NoFileNoRequest(postType: string, c: Composer, a: Reply, b: Reply)
    requires postType != "text" && c.file.None?
    ensures Submitted(postType, c, a) == Submitted(postType, c, b)
    ensures Submitted(postType, c, a).error == "Please select a file to upload"
  {
  }

  /** A file the dialog kept passes the checks of its kind, so a non-text
      form sends a file that passed them. */
  lemma KeptFilePassesChecks(c: Composer, postType: string, chosen: Option<ChosenFile>)
    requires FileChanged(c, postType, chosen).file != c.file
    ensures chosen.Some? && FileProblem(postType, chosen.value).None?
    ensures FileChanged(c, postType, chosen).file == chosen
  {
  }
}

=== FILE: posts.dfy ===
/** The post controller and the post routes: creating a post (after the
    moderation filter), the approved feed with its pagination, owner-only
    delete, the like toggle, comments (after the comment filter) and the
    admin status writes. */
module Posts {
  import opened Strings
  import opened Models
  import opened Lists
  import opened Uploads
  import opened Store
  import opened Moderation
  import opened Paging

  const MediaTypes := ["image", "video", "document"]
  const FileRequired := "File is required for image/video/document posts"

  // ------------------------------------------------------------ createPost

  /** The content createPost chooses by the post type: the body's content
      for a text post, the upload's public path for a media post. `None` is
      the refusal of a media post without a file. Any other type leaves the
      content "". */
  function SelectedContent(postType: Option<string>, bodyContent: Option<string>, file: Option<string>): (r: Option<string>)
    ensures r.None? <==> postType.Some? && postType.value in MediaTypes && file.None?
    ensures postType == Some("text") ==> r == Some(OrEmpty(bodyContent))
    ensures postType.Some? && postType.value in MediaTypes && file.Some? ==>
      r == Some(UploadedPath(file.value))
    ensures (postType.None? || (postType.value != "text" && postType.value !in MediaTypes)) ==>
      r == Some("")
  {
    if postType == Some("text") then Some(OrEmpty(bodyContent))
    else if postType.Some? && postType.value in MediaTypes then
      (if file.None? then None else Some(UploadedPath(file.value)))
    else Some("")
  }

  /** The new post when it passes the schema: the type is one of the enum's
      values and the content is not empty. `None` means `save` fails. */
  function CreatedPost(author: Id, postType: Option<string>, caption: Option<string>,
                       content: string, now: nat): (r: Option<Post>)
    ensures r.Some? <==> postType.Some? && ParsePostType(postType.value).Some? && content != []
    ensures r.Some? ==>
      r.value == NewPost(author, ParsePostType(postType.value).value, caption, content, now) &&
      PostTypeName(r.value.postType) == postType.value && PostSavable(r.value)
  {
    if postType.Some? && ParsePostType(postType.value).Some? && content != [] then
      Some(NewPost(author, ParsePostType(postType.value).value, caption, content, now))
    else None
  }

  /** `User.findByIdAndUpdate(userId, { $push: { posts: postId } })`. */
  function AppendPost(users: map<Id, User>, userId: Id, postId: Id): (r: map<Id, User>)
    ensures r.Keys == users.Keys
    ensures userId in users ==> r[userId] == users[userId].(posts := users[userId].posts + [postId])
    ensures forall k :: k in users && k != userId ==> r[k] == users[k]
  {
    if userId in users then users[userId := users[userId].(posts := users[userId].posts + [postId])]
    else users
  }

  /** What createPost decides before writing anything: 400 for a media post
      without a file, 500 when the schema refuses the post, otherwise the
      post to store. */
  function PostDraft(author: Id, postType: Option<string>, caption: Option<string>,
                     bodyContent: Option<string>, file: Option<string>, now: nat): (r: Outcome<Post>)
    ensures r.Fail? && r.status == 400 <==>
      postType.Some? && postType.value in MediaTypes && file.None?
    ensures r.Fail? ==> r == Fail(400, FileRequired) || r == Fail(500, "Server error")
    ensures r.Ok? ==>
      r.status == 201 && postType.Some? && PostTypeName(r.value.postType) == postType.value &&
      PostSavable(r.value) && r.value.user == author && r.value.status == Pending &&
      r.value.createdAt == now && r.value.likes == [] && r.value.comments == []
    ensures r.Ok? && postType == Some("text") ==> r.value.content == OrEmpty(bodyContent)
    ensures r.Ok? && postType.value != "text" ==> file.Some? && r.value.content == UploadedPath(file.value)
    ensures r.Fail? && r.status == 500 <==>
      SelectedContent(postType, bodyContent, file).Some? &&
      CreatedPost(author, postType, caption, SelectedContent(postType, bodyContent, file).value, now).None?
  {
    var content := SelectedContent(postType, bodyContent, file);
    if content.None? then Fail(400, FileRequired)
    else
      var post := CreatedPost(author, postType, caption, content.value, now);
      if post.None? then Fail(500, "Server error") else Ok(201, post.value)
  }

  /** The writes of createPost once the draft is decided: a refused draft
      writes nothing; an accepted one is stored under a fresh id, which is
      appended to the author's `posts`. */
  method SaveDraft(db: Db, author: Id, draft: Outcome<Post>, flagged: bool) returns (out: Outcome<(Id, bool)>)
    requires db.Valid()
    modifies db`posts, db`users, db`nextId
    ensures db.Valid()
    ensures draft.Fail? ==>
      out == Fail(draft.status, draft.message) && db.posts == old(db.posts) && db.users == old(db.users)
    ensures draft.Ok? ==>
      out.Ok? && out.status == 201 && out.value.1 == flagged && out.value.0 !in old(db.posts) &&
      db.posts == old(db.posts)[out.value.0 := draft.value] &&
      db.users == AppendPost(old(db.users), author, out.value.0)
  {
    if draft.Fail? {
      return Fail(draft.status, draft.message);
    }
    var id := db.InsertPost(draft.value);
    db.UpdateUsers(AppendPost(db.users, author, id));
    out := Ok(201, (id, flagged));
  }

  /** createPost: decides the draft, then saves it, answering 201 with
      `warning` set exactly when the moderation filter flagged the
      request. */
  method CreatePost(db: Db, author: Id, postType: Option<string>, caption: Option<string>,
                    bodyContent: Option<string>, file: Option<string>, flagged: bool, now: nat)
    returns (out: Outcome<(Id, bool)>)
    requires db.Valid()
    modifies db`posts, db`users, db`nextId
    ensures db.Valid()
    ensures var draft := PostDraft(author, postType, caption, bodyContent, file, now);
      draft.Fail? ==>
        out == Fail(draft.status, draft.message) && db.posts == old(db.posts) && db.users == old(db.users)
    ensures var draft := PostDraft(author, postType, caption, bodyContent, file, now);
      draft.Ok? ==>
        out.Ok? && out.status == 201 && out.value.1 == flagged && out.value.0 !in old(db.posts) &&
        db.posts == old(db.posts)[out.value.0 := draft.value] &&
        db.users == AppendPost(old(db.users), author, out.value.0)
  {
    var draft := PostDraft(author, postType, caption, bodyContent, file, now);
    out := SaveDraft(db, author, draft, flagged);
  }

  /** The moderation filter, then createPost: a flagged request stores its
      warning even when createPost then refuses. */
  method FilterThenCreate(db: Db, author: Id, postType: Option<string>, caption: Option<string>,
                          bodyContent: Option<string>, file: Option<string>, now: nat)
    returns (out: Outcome<(Id, bool)>)
    requires db.Valid()
    modifies db`posts, db`users, db`notifications, db`nextId
    ensures db.Valid()
    ensures var flagged := PostFlagged(WordList(old(db.blockedWords), old(db.nextId)), bodyContent, caption);
      (flagged ==> db.notifications == old(db.notifications)[old(db.nextId) := Warning(author, now)]) &&
      (!flagged ==> db.notifications == old(db.notifications))
    ensures var draft := PostDraft(author, postType, caption, bodyContent, file, now);
      draft.Fail? ==>
        out == Fail(draft.status, draft.message) && db.posts == old(db.posts) && db.users == old(db.users)
    ensures var draft := PostDraft(author, postType, caption, bodyContent, file, now);
      draft.Ok? ==>
        out.Ok? && out.status == 201 && out.value.0 !in old(db.posts) &&
        out.value.1 == PostFlagged(WordList(old(db.blockedWords), old(db.nextId)), bodyContent, caption) &&
        db.posts == old(db.posts)[out.value.0 := draft.value] &&
        db.users == AppendPost(old(db.users), author, out.value.0)
  {
    var flagged := FilterPost(db, author, bodyContent, caption, now);
    ghost var notified := db.notifications;
    assert db.posts == old(db.posts) && db.users == old(db.users);
    out := CreatePost(db, author, postType, caption, bodyContent, file, flagged, now);
    assert db.notifications == notified;
  }

  /** POST /api/posts: multer's `upload.single("file")` with the shared
      filter, then the moderation filter, then createPost. A refused upload
      fails with 500 before anything is written. */
  method CreatePostRoute(db: Db, author: Id, postType: Option<string>, caption: Option<string>,
                         bodyContent: Option<string>, file: Option<UploadedFile>, now: nat)
    returns (out: Outcome<(Id, bool)>)
    requires db.Valid()
    modifies db`posts, db`users, db`notifications, db`nextId
    ensures db.Valid()
    ensures SharedFilterRefuses(file) ==>
      out == Fail(FilterFailureStatus, FilterError) && db.posts == old(db.posts) &&
      db.users == old(db.users) && db.notifications == old(db.notifications)
    ensures !SharedFilterRefuses(file) ==>
      var flagged := PostFlagged(WordList(old(db.blockedWords), old(db.nextId)), bodyContent, caption);
      (flagged ==> db.notifications == old(db.notifications)[old(db.nextId) := Warning(author, now)]) &&
      (!flagged ==> db.notifications == old(db.notifications))
    ensures !SharedFilterRefuses(file) ==>
      var draft := PostDraft(author, postType, caption, bodyContent, FileName(file), now);
      (draft.Fail? ==>
        out == Fail(draft.status, draft.message) && db.posts == old(db.posts) && db.users == old(db.users)) &&
      (draft.Ok? ==>
        out.Ok? && out.status == 201 && out.value.0 !in old(db.posts) &&
        out.value.1 == PostFlagged(WordList(old(db.blockedWords), old(db.nextId)), bodyContent, caption) &&
        db.posts == old(db.posts)[out.value.0 := draft.value] &&
        db.users == AppendPost(old(db.users), author, out.value.0))
  {
    if SharedFilterRefuses(file) {
      return Fail(FilterFailureStatus, FilterError);
    }
    out := FilterThenCreate(db, author, postType, caption, bodyContent, FileName(file), now);
  }

  // -------------------------------------------------------------- getPosts

  /** The approved posts, newest first (a stable sort on the negated
      creation time). */
  function ApprovedNewestFirst(posts: map<Id, Post>, bound: Id): (r: seq<Id>)
    ensures forall id :: id in r <==> id in posts && id < bound && posts[id].status == Approved
    ensures Distinct(r)
    ensures forall i, j :: 0 <= i < j < |r| ==> posts[r[i]].createdAt >= posts[r[j]].createdAt
  {
    var key: nat -> int := (id: nat) => if id in posts then 0 - posts[id].createdAt else 0;
    var r := SelectSorted(posts, bound, (id: nat) => id in posts && posts[id].status == Approved, key);
    assert forall i, j :: 0 <= i < j < |r| ==> key(r[i]) <= key(r[j]);
    r
  }

  datatype Pagination = Pagination(currentPage: int, totalPages: int, totalPosts: nat)

  /** getPosts: one page of the approved posts, newest first, with the
      pagination block. A negative `skip` makes the store refuse the
      query. */
  function GetPosts(posts: map<Id, Post>, bound: Id, pageQuery: Option<int>, limitQuery: Option<int>)
    : (r: Outcome<(seq<Id>, Pagination)>)
    ensures var page := QueryNumber(pageQuery, 1);
      var limit := QueryNumber(limitQuery, 10);
      (r.Fail? <==> SkipOf(page, limit) < 0) &&
      (r.Ok? ==>
        var sorted := ApprovedNewestFirst(posts, bound);
        r.status == 200 &&
        r.value.0 == PageWindow(sorted, SkipOf(page, limit), PageSize(limit)) &&
        r.value.1 == Pagination(page, CeilDiv(|sorted|, limit), |sorted|))
    ensures r.Ok? ==> forall id :: id in r.value.0 ==> id in posts && posts[id].status == Approved
  {
    var page := QueryNumber(pageQuery, 1);
    var limit := QueryNumber(limitQuery, 10);
    var skip := SkipOf(page, limit);
    if skip < 0 then Fail(500, "Server error")
    else
      var sorted := ApprovedNewestFirst(posts, bound);
      var items := PageWindow(sorted, skip, PageSize(limit));
      assert forall id :: id in items ==> id in sorted;
      Ok(200, (items, Pagination(page, CeilDiv(|sorted|, limit), |sorted|)))
  }

  // ------------------------------------------------------------ deletePost

  /** deletePost: 404 for a missing post, 403 unless the caller owns it;
      the author's `posts` list keeps the id. */
  method DeletePost(db: Db, caller: Id, postId: Id) returns (out: Outcome<string>)
    requires db.Valid()
    modifies db`posts
    ensures db.Valid()
    ensures postId !in old(db.posts) ==> out == Fail(404, "Post not found") && db.posts == old(db.posts)
    ensures postId in old(db.posts) && old(db.posts)[postId].user != caller ==>
      out == Fail(403, "Unauthorized to delete this post") && db.posts == old(db.posts)
    ensures postId in old(db.posts) && old(db.posts)[postId].user == caller ==>
      out == Ok(200, "Post deleted successfully") && db.posts == old(db.posts) - {postId}
  {
    if postId !in db.posts {
      return Fail(404, "Post not found");
    }
    if db.posts[postId].user != caller {
      return Fail(403, "Unauthorized to delete this post");
    }
    db.posts := db.posts - {postId};
    out := Ok(200, "Post deleted successfully");
  }

  // -------------------------------------------------------------- likePost

  /** The like list after likePost: the caller's id appended when absent,
      otherwise its first occurrence spliced out. */
  function ToggledLikes(likes: seq<Id>, u: Id): (r: seq<Id>)
    ensures u !in likes ==> r == likes + [u]
    ensures u in likes ==>
      exists front, back :: likes == front + [u] + back && u !in front && r == front + back
    ensures u in likes ==> multiset(r) == multiset(likes) - multiset{u}
  {
    var i := IndexOf(likes, u);
    if i == -1 then likes + [u]
    else
      var front, back := likes[..i], likes[i + 1..];
      assert likes == front + [u] + back;
      assert RemoveAt(likes, i) == front + back;
      RemoveAt(likes, i)
  }

  /** On a list without duplicates a toggle flips the caller's like,
      leaves every other id as it was and keeps the list free of
      duplicates. */
  lemma ToggledLikesFlips(likes: seq<Id>, u: Id)
    requires Distinct(likes)
    ensures Distinct(ToggledLikes(likes, u))
    ensures u in ToggledLikes(likes, u) <==> u !in likes
    ensures forall v :: v != u ==> (v in ToggledLikes(likes, u) <==> v in likes)
  {
    if u in likes {
      var i := IndexOf(likes, u);
      var front, back := likes[..i], likes[i + 1..];
      assert likes == front + [u] + back;
      assert ToggledLikes(likes, u) == front + back;
      SpliceDistinct(front, u, back);
    } else {
      assert ToggledLikes(likes, u) == likes + [u];
    }
  }

  /** Splicing out the middle element of a duplicate-free list. */
  lemma SpliceDistinct(front: seq<Id>, u: Id, back: seq<Id>)
    requires Distinct(front + [u] + back)
    ensures Distinct(front + back) && u !in front + back
  {
    var s := front + [u] + back;
    var r := front + back;
    forall a, b | 0 <= a < b < |r|
      ensures r[a] != r[b]
    {
      var a' := if a < |front| then a else a + 1;
      var b' := if b < |front| then b else b + 1;
      assert r[a] == s[a'] && r[b] == s[b'];
    }
    forall j | 0 <= j < |r|
      ensures r[j] != u
    {
      var j' := if j < |front| then j else j + 1;
      assert r[j] == s[j'] && s[|front|] == u;
    }
  }

  /** Liking twice from "not liked" restores the list exactly. */
  lemma LikeTwiceRestores(likes: seq<Id>, u: Id)
    requires u !in likes
    ensures ToggledLikes(ToggledLikes(likes, u), u) == likes
  {
    var once := likes + [u];
    assert once[..|likes|] == likes;
  }

  /** likePost: 404 for a missing post, otherwise the toggled list is
      stored and returned. */
  method LikePost(db: Db, caller: Id, postId: Id) returns (out: Outcome<seq<Id>>)
    requires db.Valid()
    modifies db`posts
    ensures db.Valid()
    ensures postId !in old(db.posts) ==> out == Fail(404, "Post not found") && db.posts == old(db.posts)
    ensures postId in old(db.posts) ==>
      var p := old(db.posts)[postId];
      var likes := ToggledLikes(p.likes, caller);
      db.posts == old(db.posts)[postId := p.(likes := likes)] && out == Ok(200, likes)
  {
    if postId !in db.posts {
      return Fail(404, "Post not found");
    }
    var p := db.posts[postId];
    var likes := ToggledLikes(p.likes, caller);
    db.posts := db.posts[postId := p.(likes := likes)];
    out := Ok(200, likes);
  }

  // ------------------------------------------------------------ addComment

  /** The comment addComment pushes: the caller, the text as the trimming
      setter stores it, the creation time. */
  function NewComment(caller: Id, text: Option<string>, now: nat): (c: Comment)
    ensures c.user == caller && c.createdAt == now
    ensures c.text == Trim(OrEmpty(text))
  {
    Comment(caller, Trim(OrEmpty(text)), now)
  }

  /** Mongoose's message when the new comment's trimmed text is empty. */
  function CommentValidationMessage(p: Post): string {
    "Post validation failed: comments." + NatToString(|p.comments|) + ".text: Path `text` is required."
  }

  /** addComment: 404 for a missing post; a text that trims to "" fails the
      save (500); otherwise one comment is appended and returned with 201. */
  method AddComment(db: Db, caller: Id, postId: Id, text: Option<string>, now: nat) returns (out: Outcome<Comment>)
    requires db.Valid()
    modifies db`posts
    ensures db.Valid()
    ensures postId !in old(db.posts) ==> out == Fail(404, "Post not found") && db.posts == old(db.posts)
    ensures postId in old(db.posts) && NewComment(caller, text, now).text == [] ==>
      out == Fail(500, CommentValidationMessage(old(db.posts)[postId])) && db.posts == old(db.posts)
    ensures postId in old(db.posts) && NewComment(caller, text, now).text != [] ==>
      var p := old(db.posts)[postId];
      var c := NewComment(caller, text, now);
      db.posts == old(db.posts)[postId := p.(comments := p.comments + [c])] && out == Ok(201, c)
  {
    var c := NewComment(caller, text, now);
    if postId !in db.posts {
      out := Fail(404, "Post not found");
    } else if c.text == [] {
      out := Fail(500, CommentValidationMessage(db.posts[postId]));
    } else {
      var p := db.posts[postId];
      db.posts := db.posts[postId := p.(comments := p.comments + [c])];
      out := Ok(201, c);
    }
  }

  /** A comment that is stored keeps the post savable, and it is the last
      comment, the one the reply carries. */
  lemma AddCommentKeepsSavable(p: Post, c: Comment)
    requires PostSavable(p) && RequiredString(c.text)
    ensures PostSavable(p.(comments := p.comments + [c]))
    ensures (p.comments + [c])[|p.comments|] == c
  {
    var p' := p.(comments := p.comments + [c]);
    forall i | 0 <= i < |p'.comments|
      ensures RequiredString(p'.comments[i].text)
    {
      if i < |p.comments| {
        assert p'.comments[i] == p.comments[i];
      }
    }
  }

  /** POST /:postId/comments: the comment filter runs before addComment, so
      a comment it rejects never reaches the post, and one it passes gets
      exactly addComment's answer. */
  method CommentRoute(db: Db, caller: Id, postId: Id, text: Option<string>, now: nat) returns (out: Outcome<Comment>)
    requires db.Valid()
    modifies db`posts
    ensures db.Valid()
    ensures var refusal := CommentRefusal(WordList(old(db.blockedWords), old(db.nextId)), text);
      refusal.Some? ==> out == Fail(refusal.value.0, refusal.value.1) && db.posts == old(db.posts)
    ensures CommentRefusal(WordList(old(db.blockedWords), old(db.nextId)), text).None? && postId !in old(db.posts) ==>
      out == Fail(404, "Post not found") && db.posts == old(db.posts)
    ensures (CommentRefusal(WordList(old(db.blockedWords), old(db.nextId)), text).None? && postId in old(db.posts) &&
             NewComment(caller, text, now).text == []) ==>
      out == Fail(500, CommentValidationMessage(old(db.posts)[postId])) && db.posts == old(db.posts)
    ensures (CommentRefusal(WordList(old(db.blockedWords), old(db.nextId)), text).None? && postId in old(db.posts) &&
             NewComment(caller, text, now).text != []) ==>
      var p := old(db.posts)[postId];
      var c := NewComment(caller, text, now);
      db.posts == old(db.posts)[postId := p.(comments := p.comments + [c])] && out == Ok(201, c)
    ensures out.Ok? ==>
      CommentRefusal(WordList(old(db.blockedWords), old(db.nextId)), text).None? &&
      out.value == NewComment(caller, text, now)
  {
    var refusal := CommentRefusal(WordList(db.blockedWords, db.nextId), text);
    if refusal.Some? {
      return Fail(refusal.value.0, refusal.value.1);
    }
    out := AddComment(db, caller, postId, text, now);
  }

  // ------------------------------------------------------------ admin routes

  /** GET /admin: every stored post, whatever its status, in insertion
      order. */
  function AdminPosts(posts: map<Id, Post>, bound: Id): (r: seq<Id>)
    ensures forall id :: id in r <==> id in posts && id < bound
    ensures Increasing(r)
  {
    KeysBelow(posts, bound)
  }

  /** `findByIdAndUpdate(id, { status })`: only the status changes. */
  function WithStatus(p: Post, s: PostStatus): (r: Post)
    ensures r.status == s
    ensures r.(status := p.status) == p
  {
    p.(status := s)
  }

  /** Neither admin transition looks at the current status: the last write
      wins. */
  lemma StatusLastWriteWins(p: Post, s: PostStatus, t: PostStatus)
    ensures WithStatus(WithStatus(p, s), t) == WithStatus(p, t)
  {
  }

  /** PUT /admin/:id/approve. */
  method ApprovePost(db: Db, postId: Id) returns (out: Outcome<Post>)
    requires db.Valid()
    modifies db`posts
    ensures db.Valid()
    ensures postId !in old(db.posts) ==> out == Fail(404, "Post not found") && db.posts == old(db.posts)
    ensures postId in old(db.posts) ==>
      var p := WithStatus(old(db.posts)[postId], Approved);
      db.posts == old(db.posts)[postId := p] && out == Ok(200, p)
  {
    if postId !in db.posts {
      return Fail(404, "Post not found");
    }
    var p := WithStatus(db.posts[postId], Approved);
    db.posts := db.posts[postId := p];
    out := Ok(200, p);
  }

  /** PUT /admin/:id/reject. */
  method RejectPost(db: Db, postId: Id) returns (out: Outcome<Post>)
    requires db.Valid()
    modifies db`posts
    ensures db.Valid()
    ensures postId !in old(db.posts) ==> out == Fail(404, "Post not found") && db.posts == old(db.posts)
    ensures postId in old(db.posts) ==>
      var p := WithStatus(old(db.posts)[postId], Rejected);
      db.posts == old(db.posts)[postId := p] && out == Ok(200, p)
  {
    if postId !in db.posts {
      return Fail(404, "Post not found");
    }
    var p := WithStatus(db.posts[postId], Rejected);
    db.posts := db.posts[postId := p];
    out := Ok(200, p);
  }
}

=== FILE: profile_view.dfy ===
/** The profile page: whether the viewer follows the profile, the follow
    button (a follow request for a private profile, a follow or unfollow
    otherwise), who may see the posts, the post-type tabs and deleting a
    post. Ids are the client's strings. */
module ProfileView {
  import opened Models
  import opened Lists

  /** An entry of a followers (or following) list as the page holds it. The
      profile route sends populated users, whose `_id` is the id; an entry
      the page appends itself is a bare id string, whose `_id` is
      undefined. */
  datatype FollowerEntry = Populated(id: string) | BareId(id: string)

  /** `list.some(fo => fo._id === id)`: only populated entries have an `_id`. */
  predicate ListsUser(list: seq<FollowerEntry>, id: string) {
    exists k :: 0 <= k < |list| && list[k] == Populated(id)
  }

  /** A post of the profile; `postType` is the stored `type`. */
  datatype ProfilePost = ProfilePost(id: string, postType: string)

  const PostTypes := ["text", "image", "video", "document"]
  const Tabs := ["all", "images", "videos", "text", "document"]

  // ------------------------------------------------------------- follow

  /** The local followers update as written: on unfollow,
      `followers.filter(id => id !== current)`, which drops only entries
      that are the bare string itself; on follow, the bare id appended. */
  function FollowersAsWritten(followers: seq<FollowerEntry>, current: string, wasFollowing: bool): (r: seq<FollowerEntry>)
    ensures wasFollowing ==> forall e :: e in r <==> e in followers && e != BareId(current)
    ensures !wasFollowing ==> r == followers + [BareId(current)]
  {
    if wasFollowing then Filter(followers, (e: FollowerEntry) => e != BareId(current))
    else followers + [BareId(current)]
  }

  /** Unfollowing a fetched profile (every entry populated) that lists the
      viewer leaves the list as it was, viewer included, although the page
      now shows "Follow". */
  lemma UnfollowAsWrittenKeepsViewer(followers: seq<FollowerEntry>, current: string)
    requires forall k :: 0 <= k < |followers| ==> followers[k].Populated?
    requires ListsUser(followers, current)
    ensures FollowersAsWritten(followers, current, true) == followers
    ensures ListsUser(FollowersAsWritten(followers, current, true), current)
  {
  }

  /** Following appends an entry the `isFollowing` test cannot see. */
  lemma FollowAsWrittenUnseen(followers: seq<FollowerEntry>, current: string)
    requires !ListsUser(followers, current)
    ensures !ListsUser(FollowersAsWritten(followers, current, false), current)
  {
    var r := FollowersAsWritten(followers, current, false);
    forall k | 0 <= k < |r|
      ensures r[k] != Populated(current)
    {
      if k < |followers| {
        assert r[k] == followers[k];
      }
    }
  }

  /** The update the page evidently means: on unfollow every entry for the
      viewer is dropped, on follow the viewer is appended as a populated
      entry. */
  function FollowersAfter(followers: seq<FollowerEntry>, current: string, wasFollowing: bool): (r: seq<FollowerEntry>)
    ensures wasFollowing ==> forall e :: e in r <==> e in followers && e.id != current
    ensures !wasFollowing ==> r == followers + [Populated(current)]
  {
    if wasFollowing then Filter(followers, (e: FollowerEntry) => e.id != current)
    else followers + [Populated(current)]
  }

  /** After the corrected update the followers list agrees with the flipped
      `isFollowing`, and other users' entries are untouched. */
  lemma FollowersAfterAgrees(followers: seq<FollowerEntry>, current: string, wasFollowing: bool)
    ensures ListsUser(FollowersAfter(followers, current, wasFollowing), current) <==> !wasFollowing
    ensures forall e: FollowerEntry :: e.id != current ==> (e in FollowersAfter(followers, current, wasFollowing) <==> e in followers)
  {
    var r := FollowersAfter(followers, current, wasFollowing);
    if wasFollowing {
      forall k | 0 <= k < |r|
        ensures r[k] != Populated(current)
      {
        assert r[k] in r;
      }
    } else {
      assert r[|followers|] == Populated(current);
    }
  }

  /** On the one-entry list of a fetched profile followed by the viewer, the
      corrected unfollow empties the list; the update as written does not. */
  lemma UnfollowOnlyFollower(current: string)
    ensures FollowersAfter([Populated(current)], current, true) == []
    ensures FollowersAsWritten([Populated(current)], current, true) == [Populated(current)]
  {
  }

  /** What a click on the button posts. */
  datatype FollowCall = RequestFollow(to: string) | Follow(to: string) | Unfollow(to: string)

  /** `follow-user`, emitted after a follow or unfollow succeeded. */
  datatype FollowUserEvent = FollowUserEvent(followerId: string, followingId: string, isFollowing: bool)

  /** The request sent for a click, given `isFollowing` (null counts as
      not following): a request for a private profile not followed,
      otherwise an unfollow or a follow. */
  function CallFor(visibility: string, isFollowing: Option<bool>, userId: string): (c: FollowCall)
    ensures c.to == userId
    ensures c.RequestFollow? <==> visibility == "private" && isFollowing != Some(true)
    ensures c.Unfollow? <==> isFollowing == Some(true)
  {
    if visibility == "private" && isFollowing != Some(true) then RequestFollow(userId)
    else if isFollowing == Some(true) then Unfollow(userId)
    else Follow(userId)
  }

  /** A follow request as `/api/follow-requests` lists it. */
  datatype RequestView = RequestView(from: string, to: string, status: string)

  /** Whether the listed requests hold a pending one from the viewer to the
      profile. */
  predicate HasPendingRequest(requests: seq<RequestView>, current: string, userId: string) {
    exists k :: 0 <= k < |requests| && requests[k] == RequestView(current, userId, "pending")
  }

  // --------------------------------------------------------- visibility

  /** The posts are shown when the profile is public, when it is the
      viewer's own, or when the viewer's following (once loaded) lists the
      profile. */
  function PostsVisible(visibility: string, userId: string, current: string,
                        viewerFollowing: Option<seq<FollowerEntry>>): (r: bool)
    ensures r <==> visibility == "public" || userId == current ||
                   (viewerFollowing.Some? && ListsUser(viewerFollowing.value, userId))
  {
    if visibility == "public" || userId == current then true
    else viewerFollowing.Some? && ListsUser(viewerFollowing.value, userId)
  }

  /** A private profile of someone else is hidden until the viewer's
      following is loaded, and from a viewer who does not follow it. */
  lemma PrivateHiddenFromStrangers(userId: string, current: string, viewerFollowing: Option<seq<FollowerEntry>>)
    requires userId != current
    requires viewerFollowing.None? || !ListsUser(viewerFollowing.value, userId)
    ensures !PostsVisible("private", userId, current, viewerFollowing)
  {
  }

  // --------------------------------------------------------------- tabs

  /** `posts.filter(post => tab === "all" || post.type === tab)`. */
  function TabPosts(posts: seq<ProfilePost>, tab: string): (r: seq<ProfilePost>)
    ensures forall p :: p in r <==> p in posts && (tab == "all" || p.postType == tab)
  {
    Filter(posts, (p: ProfilePost) => tab == "all" || p.postType == tab)
  }

  /** A tab no post's type carries shows nothing. */
  lemma {:induction false} TabOfNoType(posts: seq<ProfilePost>, tab: string)
    requires tab != "all"
    requires forall k :: 0 <= k < |posts| ==> posts[k].postType != tab
    ensures TabPosts(posts, tab) == []
  {
    if posts != [] {
      assert posts[0].postType != tab;
      TabOfNoType(posts[1..], tab);
    }
  }

  /** "all" shows every post; the "images" and "videos" tabs show nothing,
      since no stored type is spelled with the plural. */
  lemma TabsShown(posts: seq<ProfilePost>)
    requires forall k :: 0 <= k < |posts| ==> posts[k].postType in PostTypes
    ensures TabPosts(posts, "all") == posts
    ensures TabPosts(posts, "images") == [] && TabPosts(posts, "videos") == []
  {
    assert "images" !in PostTypes && "videos" !in PostTypes;
    TabOfNoType(posts, "images");
    TabOfNoType(posts, "videos");
  }

  /** `posts.filter(post => post._id !== postId)`. */
  function WithoutPost(posts: seq<ProfilePost>, postId: string): (r: seq<ProfilePost>)
    ensures forall p :: p in r <==> p in posts && p.id != postId
    ensures |r| <= |posts|
  {
    Filter(posts, (p: ProfilePost) => p.id != postId)
  }

  // --------------------------------------------------------------- page

  /** The page's state for one profile (`userId`) seen by one viewer
      (`current`). */
  class ProfilePage {
    const userId: string
    const current: string
    var loaded: bool
    var visibility: string
    var followers: seq<FollowerEntry>
    var posts: seq<ProfilePost>
    var isFollowing: Option<bool>
    var requestStatus: Option<string>

    /** `isFollowing`, once known, agrees with the followers list. */
    predicate Valid()
      reads this
    {
      isFollowing.Some? ==> isFollowing.value == ListsUser(followers, current)
    }

    /** Nothing loaded: no user, no posts, `isFollowing` and the request
        status null. */
    constructor (userId: string, current: string)
      ensures this.userId == userId && this.current == current
      ensures !loaded && posts == [] && followers == [] && isFollowing.None? && requestStatus.None?
      ensures Valid()
    {
      this.userId := userId;
      this.current := current;
      loaded := false;
      visibility := "";
      followers := [];
      posts := [];
      isFollowing := None;
      requestStatus := None;
    }

    /** The profile fetch: the user, its posts, and `isFollowing` derived
        from the populated followers. */
    method ProfileLoaded(visibility: string, followers: seq<FollowerEntry>, posts: seq<ProfilePost>)
      modifies this
      ensures loaded && this.visibility == visibility && this.followers == followers && this.posts == posts
      ensures isFollowing == Some(ListsUser(followers, current))
      ensures requestStatus == old(requestStatus)
      ensures Valid()
    {
      loaded := true;
      this.visibility := visibility;
      this.followers := followers;
      this.posts := posts;
      isFollowing := Some(ListsUser(followers, current));
    }

    /** The request-status fetch, made for a loaded private profile of
        someone else that the viewer does not follow: "pending" when a
        pending request from the viewer to the profile is listed, null
        otherwise (a failed fetch lists nothing). */
    method RequestsLoaded(requests: seq<RequestView>)
      modifies this`requestStatus
      ensures loaded && visibility == "private" && isFollowing != Some(true) && userId != current ==>
        (requestStatus == Some("pending") <==> HasPendingRequest(requests, current, userId)) &&
        (requestStatus.None? <==> !HasPendingRequest(requests, current, userId))
      ensures !(loaded && visibility == "private" && isFollowing != Some(true) && userId != current) ==>
        requestStatus == old(requestStatus)
    {
      if loaded && visibility == "private" && isFollowing != Some(true) && userId != current {
        if HasPendingRequest(requests, current, userId) {
          requestStatus := Some("pending");
        } else {
          requestStatus := None;
        }
      }
    }

    /** The button is shown on someone else's profile once `isFollowing`
        is known, and is disabled while a request is pending. */
    predicate ButtonShown()
      reads this
    {
      userId != current && isFollowing.Some?
    }

    predicate ButtonDisabled()
      reads this
    {
      requestStatus == Some("pending")
    }

    /** handleFollow, as written. A private profile not followed gets a
        follow request, marked "pending" when it is accepted by the server;
        nothing else changes and nothing is emitted. Otherwise the follow or
        unfollow is posted; when it succeeds the followers change by the
        update as written, `isFollowing` flips and `follow-user` is emitted.
        The page's invariant is not kept: after unfollowing a fetched
        profile that lists the viewer, the list still does, until the
        refetch that the flipped `isFollowing` triggers (ProfileLoaded). */
    method HandleFollow(succeeded: bool) returns (call: FollowCall, emitted: Option<FollowUserEvent>)
      modifies this`followers, this`isFollowing, this`requestStatus
      ensures call == CallFor(visibility, old(isFollowing), userId)
      ensures call.RequestFollow? ==>
        followers == old(followers) && isFollowing == old(isFollowing) && emitted.None? &&
        requestStatus == (if succeeded then Some("pending") else old(requestStatus))
      ensures !call.RequestFollow? && !succeeded ==>
        followers == old(followers) && isFollowing == old(isFollowing) && emitted.None? &&
        requestStatus == old(requestStatus)
      ensures !call.RequestFollow? && succeeded ==>
        var was := old(isFollowing) == Some(true);
        followers == FollowersAsWritten(old(followers), current, was) && isFollowing == Some(!was) &&
        requestStatus == old(requestStatus) &&
        emitted == Some(FollowUserEvent(current, userId, !was))
      ensures (!call.RequestFollow? && succeeded && old(isFollowing) == Some(true) &&
               (forall k :: 0 <= k < |old(followers)| ==> old(followers)[k].Populated?) &&
               ListsUser(old(followers), current)) ==> !Valid()
    {
      call := CallFor(visibility, isFollowing, userId);
      emitted := None;
      if call.RequestFollow? {
        if succeeded {
          requestStatus := Some("pending");
        }
        return;
      }
      if succeeded {
        var was := isFollowing == Some(true);
        if was && (forall k :: 0 <= k < |followers| ==> followers[k].Populated?) && ListsUser(followers, current) {
          UnfollowAsWrittenKeepsViewer(followers, current);
        }
        followers := FollowersAsWritten(followers, current, was);
        isFollowing := Some(!was);
        emitted := Some(FollowUserEvent(current, userId, !was));
      }
    }

    /** handleFollow with the corrected followers update, which keeps the
        page's invariant. */
    method HandleFollowCorrected(succeeded: bool) returns (call: FollowCall, emitted: Option<FollowUserEvent>)
      requires Valid()
      modifies this`followers, this`isFollowing, this`requestStatus
      ensures call == CallFor(visibility, old(isFollowing), userId)
      ensures Valid()
      ensures call.RequestFollow? ==>
        followers == old(followers) && isFollowing == old(isFollowing) && emitted.None? &&
        requestStatus == (if succeeded then Some("pending") else old(requestStatus))
      ensures !call.RequestFollow? && !succeeded ==>
        followers == old(followers) && isFollowing == old(isFollowing) && emitted.None? &&
        requestStatus == old(requestStatus)
      ensures !call.RequestFollow? && succeeded ==>
        var was := old(isFollowing) == Some(true);
        followers == FollowersAfter(old(followers), current, was) && isFollowing == Some(!was) &&
        requestStatus == old(requestStatus) &&
        emitted == Some(FollowUserEvent(current, userId, !was))
    {
      call := CallFor(visibility, isFollowing, userId);
      emitted := None;
      if call.RequestFollow? {
        if succeeded {
          requestStatus := Some("pending");
        }
        return;
      }
      if succeeded {
        var was := isFollowing == Some(true);
        if isFollowing.None? {
          assert !was;
        }
        FollowersAfterAgrees(followers, current, was);
        followers := FollowersAfter(followers, current, was);
        isFollowing := Some(!was);
        emitted := Some(FollowUserEvent(current, userId, !was));
      }
    }

    /** handleDeletePost: the post leaves the list, and `delete-post` is
        emitted, only when the server's delete succeeded. */
    method HandleDeletePost(postId: string, succeeded: bool) returns (emitted: bool)
      modifies this`posts
      ensures emitted == succeeded
      ensures succeeded ==> posts == WithoutPost(old(posts), postId)
      ensures !succeeded ==> posts == old(posts)
    {
      emitted := succeeded;
      if succeeded {
        posts := WithoutPost(posts, postId);
      }
    }

    /** `delete-post` from another client removes the post too. */
    method OnDeletePost(postId: string)
      modifies this`posts
      ensures posts == WithoutPost(old(posts), postId)
    {
      posts := WithoutPost(posts, postId);
    }
  }
}

=== FILE: profiles.dfy ===
/** The profile controller: reading a profile, the visibility and profile
    updates, and its three follow endpoints. `toggleFollow` loads both users
    and edits their lists in place with `push` and `pull`; `followUser` and
    `unfollowUser` write with `$addToSet` and `$pull`. */
module Profiles {
  import opened Strings
  import opened Models
  import opened Lists
  import opened SocialGraph
  import opened Uploads
  import opened Store

  // ------------------------------------------------------------ getProfile

  /** The `posts` populate with `match: { status: "approved" }`: the listed
      posts that exist and are approved, in list order. */
  function ApprovedPostsOf(postIds: seq<Id>, posts: map<Id, Post>): (r: seq<Id>)
    ensures forall id :: id in r <==> id in postIds && id in posts && posts[id].status == Approved
    ensures |r| <= |postIds|
  {
    Filter(postIds, (id: Id) => id in posts && posts[id].status == Approved)
  }

  /** getProfile: the user with its approved posts, or 404. */
  function GetProfile(users: map<Id, User>, posts: map<Id, Post>, userId: Id): (r: Outcome<(User, seq<Id>)>)
    ensures r.Fail? <==> userId !in users
    ensures r.Fail? ==> r == Fail(404, "User not found")
    ensures r.Ok? ==> r.status == 200 && r.value.0 == users[userId]
    ensures r.Ok? ==> forall id :: id in r.value.1 <==>
      id in users[userId].posts && id in posts && posts[id].status == Approved
  {
    if userId !in users then Fail(404, "User not found")
    else Ok(200, (users[userId], ApprovedPostsOf(users[userId].posts, posts)))
  }

  // ------------------------------------------------------ profile updates

  /** updateProfileVisibility: overwrites `profileVisibility` with the sent
      value, without the schema's enum check. An absent value is dropped
      from the update, which then changes nothing. */
  method UpdateProfileVisibility(db: Db, userId: Id, visibility: Option<string>) returns (out: Outcome<User>)
    requires db.Valid()
    modifies db`users
    ensures db.Valid()
    ensures userId !in old(db.users) ==> out == Fail(404, "User not found") && db.users == old(db.users)
    ensures userId in old(db.users) ==>
      var u := old(db.users)[userId];
      var u' := if visibility.Some? then u.(profileVisibility := visibility.value) else u;
      db.users == old(db.users)[userId := u'] && out == Ok(200, u')
  {
    if userId !in db.users {
      return Fail(404, "User not found");
    }
    var u := db.users[userId];
    if visibility.Some? {
      u := u.(profileVisibility := visibility.value);
    }
    db.users := db.users[userId := u];
    out := Ok(200, u);
  }

  /** The image updateProfile writes: the uploaded file's public path, or
      else the body's `image`. */
  function ProfileImage(imageFile: Option<string>, bodyImage: Option<string>): (r: Option<string>)
    ensures imageFile.Some? ==> r == Some(UploadedPath(imageFile.value))
    ensures imageFile.None? ==> r == bodyImage
  {
    if imageFile.Some? then Some(UploadedPath(imageFile.value)) else bodyImage
  }

  /** The user after updateProfile's `{ fullName, aboutMe, image }`: absent
      keys are dropped, the trimming setters run on the two text fields, and
      no validator runs. */
  function ProfileUpdated(u: User, fullName: Option<string>, aboutMe: Option<string>, image: Option<string>): (r: User)
    ensures r.fullName == (if fullName.Some? then Trim(fullName.value) else u.fullName)
    ensures r.aboutMe == (if aboutMe.Some? then Trim(aboutMe.value) else u.aboutMe)
    ensures r.image == (if image.Some? then image.value else u.image)
    ensures r.(fullName := u.fullName, aboutMe := u.aboutMe, image := u.image) == u
  {
    var u1 := if fullName.Some? then u.(fullName := Trim(fullName.value)) else u;
    var u2 := if aboutMe.Some? then u1.(aboutMe := Trim(aboutMe.value)) else u1;
    if image.Some? then u2.(image := image.value) else u2
  }

  /** Sending the same profile update twice leaves the user as the first
      one did. */
  lemma ProfileUpdateIdempotent(u: User, fullName: Option<string>, aboutMe: Option<string>, image: Option<string>)
    ensures ProfileUpdated(ProfileUpdated(u, fullName, aboutMe, image), fullName, aboutMe, image) ==
            ProfileUpdated(u, fullName, aboutMe, image)
  {
    if fullName.Some? {
      TrimIdempotent(fullName.value);
    }
    if aboutMe.Some? {
      TrimIdempotent(aboutMe.value);
    }
  }

  /** PUT /api/profile/update: multer's `upload.single("image")` with the shared
      filter, then updateProfile on the caller. A refused image fails with
      500 and nothing written; a caller that is not stored gets a null body
      with status 200. */
  method UpdateProfile(db: Db, caller: Id, fullName: Option<string>, aboutMe: Option<string>,
                       image: Option<UploadedFile>, bodyImage: Option<string>) returns (out: Outcome<Option<User>>)
    requires db.Valid()
    modifies db`users
    ensures db.Valid()
    ensures SharedFilterRefuses(image) ==> out == Fail(FilterFailureStatus, FilterError) && db.users == old(db.users)
    ensures !SharedFilterRefuses(image) && caller !in old(db.users) ==> out == Ok(200, None) && db.users == old(db.users)
    ensures !SharedFilterRefuses(image) && caller in old(db.users) ==>
      var u' := ProfileUpdated(old(db.users)[caller], fullName, aboutMe, ProfileImage(FileName(image), bodyImage));
      db.users == old(db.users)[caller := u'] && out == Ok(200, Some(u'))
  {
    if SharedFilterRefuses(image) {
      return Fail(FilterFailureStatus, FilterError);
    }
    if caller !in db.users {
      return Ok(200, None);
    }
    var u := ProfileUpdated(db.users[caller], fullName, aboutMe, ProfileImage(FileName(image), bodyImage));
    db.UpdateUsers(db.users[caller := u]);
    out := Ok(200, Some(u));
  }

  // ------------------------------------------------------------ following

  /** The lists after toggleFollow: `pull` on both sides when the caller
      already follows the target, otherwise `push` on both sides. */
  function Toggled(users: map<Id, User>, me: Id, target: Id): (r: map<Id, User>)
    requires me in users
    ensures r.Keys == users.Keys
  {
    if target in users[me].following then RemoveLink(users, me, target) else PushLink(users, me, target)
  }

  /** toggleFollow: 404 when the target is not stored; a caller that is not
      stored makes the handler throw (500) before anything is written. */
  method ToggleFollow(db: Db, me: Id, target: Id) returns (out: Outcome<string>)
    requires db.Valid()
    modifies db`users
    ensures db.Valid()
    ensures target !in old(db.users) ==> out == Fail(404, "User not found") && db.users == old(db.users)
    ensures target in old(db.users) && me !in old(db.users) ==>
      out == Fail(500, "Server error") && db.users == old(db.users)
    ensures target in old(db.users) && me in old(db.users) ==>
      db.users == Toggled(old(db.users), me, target) &&
      out == Ok(200, if target in old(db.users)[me].following then "Unfollowed" else "Followed")
  {
    if target !in db.users {
      return Fail(404, "User not found");
    }
    if me !in db.users {
      return Fail(500, "Server error");
    }
    var isFollowing := target in db.users[me].following;
    if isFollowing {
      db.users := MapFollowing(db.users, me, s => RemoveAll(s, target));
      db.users := MapFollowers(db.users, target, s => RemoveAll(s, me));
    } else {
      db.users := MapFollowing(db.users, me, s => s + [target]);
      db.users := MapFollowers(db.users, target, s => s + [me]);
    }
    out := Ok(200, if isFollowing then "Unfollowed" else "Followed");
  }

  /** A toggle flips whether the caller follows the target, on both lists. */
  lemma ToggleFlips(users: map<Id, User>, me: Id, target: Id)
    requires Consistent(users)
    requires me in users && target in users
    ensures var r := Toggled(users, me, target);
      (target in r[me].following <==> target !in users[me].following) &&
      (me in r[target].followers <==> me !in users[target].followers)
  {
  }

  /** A toggle keeps the two lists in agreement. */
  lemma ToggleKeepsConsistent(users: map<Id, User>, me: Id, target: Id)
    requires Consistent(users)
    requires me in users && target in users
    ensures Consistent(Toggled(users, me, target))
  {
    if target in users[me].following {
      RemoveLinkConsistent(users, me, target);
    } else {
      PushLinkConsistent(users, me, target);
    }
  }

  /** From "not following", two toggles restore both lists exactly. */
  lemma ToggleTwiceFromUnfollowed(users: map<Id, User>, me: Id, target: Id)
    requires Consistent(users)
    requires me in users && target in users && target !in users[me].following
    ensures var once := Toggled(users, me, target);
      me in once && Toggled(once, me, target) == users
  {
    var once := PushLink(users, me, target);
    assert target in once[me].following;
    RemoveAfterPush(users, me, target);
  }

  /** From "following", two toggles restore both lists as sets: the link
      moves to the end of each list and any duplicate of it is gone. */
  lemma ToggleTwiceFromFollowed(users: map<Id, User>, me: Id, target: Id)
    requires Consistent(users)
    requires me in users && target in users && me != target && target in users[me].following
    ensures var once := Toggled(users, me, target);
      me in once &&
      var twice := Toggled(once, me, target);
      twice.Keys == users.Keys &&
      (forall k, x :: k in users ==> (x in twice[k].following <==> x in users[k].following)) &&
      (forall k, x :: k in users ==> (x in twice[k].followers <==> x in users[k].followers))
  {
    var once := RemoveLink(users, me, target);
    assert target !in once[me].following;
    var twice := PushLink(once, me, target);
    assert me in users[target].followers;
    assert twice[me].following == RemoveAll(users[me].following, target) + [target];
    assert twice[me].followers == users[me].followers;
    assert twice[target].followers == RemoveAll(users[target].followers, me) + [me];
    assert twice[target].following == users[target].following;
    forall k, x | k in users
      ensures (x in twice[k].following <==> x in users[k].following)
      ensures (x in twice[k].followers <==> x in users[k].followers)
    {
      if k != me && k != target {
        assert twice[k] == users[k];
      }
    }
  }

  /** followUser of the profile controller: refuses to follow oneself,
      then adds the link with `$addToSet` on both sides. Missing users are
      left alone. No request reaches it: its route, POST /follow/:userId, is
      registered after the same path's toggleFollow, and Express runs the
      first match. */
  method FollowUser(db: Db, me: Id, target: Id) returns (out: Outcome<string>)
    requires db.Valid()
    modifies db`users
    ensures db.Valid()
    ensures me == target ==> out == Fail(400, "You cannot follow yourself") && db.users == old(db.users)
    ensures me != target ==>
      out == Ok(200, "User followed successfully") && db.users == AddLink(old(db.users), me, target)
  {
    if me == target {
      return Fail(400, "You cannot follow yourself");
    }
    db.users := MapFollowing(db.users, me, s => AddToSet(s, target));
    db.users := MapFollowers(db.users, target, s => AddToSet(s, me));
    out := Ok(200, "User followed successfully");
  }

  /** unfollowUser: `$pull` on both sides, reporting success whether or not
      the link was there. */
  method UnfollowUser(db: Db, me: Id, target: Id) returns (out: Outcome<string>)
    requires db.Valid()
    modifies db`users
    ensures db.Valid()
    ensures out == Ok(200, "User unfollowed successfully")
    ensures db.users == RemoveLink(old(db.users), me, target)
  {
    db.users := MapFollowing(db.users, me, s => RemoveAll(s, target));
    db.users := MapFollowers(db.users, target, s => RemoveAll(s, me));
    out := Ok(200, "User unfollowed successfully");
  }
}

=== FILE: realtime.dfy ===
/** The socket handlers of the server that decide who is notified: a like
    or a comment notifies the post's owner unless the owner is the actor,
    a follow notifies the followed user and an unfollow notifies nobody;
    plus the payload checks of `join-user-room` and `new-chat`. */
module Realtime {
  import opened Strings
  import opened Models
  import opened Store
  import opened Notifications

  /** A `new-notification` event sent to a user's room. */
  datatype Emit = Emit(room: Id, note: Notification)

  /** The `new-comment` re-broadcast: to the post's room, every socket but
      the sender's. */
  datatype CommentBroadcast<C> = CommentBroadcast(room: Id, postId: Id, comment: C)

  /** The notification a like stores: to the owner, from the liker. */
  function LikeNotification(postId: Id, liker: Id, owner: Id, now: nat): (n: Notification)
    ensures n.user == owner && n.fromUser == liker && n.noteType == LikeNote
    ensures n.post == Some(postId) && n.message.None? && !n.read
  {
    NewNotification(owner, LikeNote, liker, Some(postId), None, now)
  }

  /** The notification a comment stores: to the owner, from the commenter. */
  function CommentNotification(postId: Id, commenter: Id, owner: Id, now: nat): (n: Notification)
    ensures n.user == owner && n.fromUser == commenter && n.noteType == CommentNote
    ensures n.post == Some(postId) && n.message.None? && !n.read
  {
    NewNotification(owner, CommentNote, commenter, Some(postId), None, now)
  }

  /** The notification a follow stores: to the followed user, no post. */
  function FollowNotification(follower: Id, followed: Id, now: nat): (n: Notification)
    ensures n.user == followed && n.fromUser == follower && n.noteType == FollowNote
    ensures n.post.None? && n.message.None? && !n.read
  {
    NewNotification(followed, FollowNote, follower, None, None, now)
  }

  /** Stores a notification and addresses it to its recipient's room. */
  method Deliver(db: Db, n: Notification) returns (sent: Emit)
    requires db.Valid()
    modifies db`notifications, db`nextId
    ensures db.Valid()
    ensures old(db.nextId) !in old(db.notifications)
    ensures db.notifications == old(db.notifications)[old(db.nextId) := n]
    ensures sent == Emit(n.user, n)
  {
    var id := db.InsertNotification(n);
    sent := Emit(n.user, db.notifications[id]);
  }

  /** `like-post`: notifies the owner exactly when the liker is someone
      else; the notification is saved before it is emitted. */
  method LikePostEvent(db: Db, postId: Id, liker: Id, owner: Id, now: nat) returns (sent: Option<Emit>)
    requires db.Valid()
    modifies db`notifications, db`nextId
    ensures db.Valid()
    ensures sent.Some? <==> liker != owner
    ensures liker == owner ==> db.notifications == old(db.notifications)
    ensures liker != owner ==>
      old(db.nextId) !in old(db.notifications) &&
      db.notifications == old(db.notifications)[old(db.nextId) := LikeNotification(postId, liker, owner, now)] &&
      sent == Some(Emit(owner, LikeNotification(postId, liker, owner, now)))
  {
    sent := None;
    if liker != owner {
      var e := Deliver(db, LikeNotification(postId, liker, owner, now));
      sent := Some(e);
    }
  }

  /** `new-comment`: notifies the owner exactly when the commenter is
      someone else, and re-broadcasts the comment to the post's room in
      both cases. */
  method NewCommentEvent<C>(db: Db, postId: Id, comment: C, commenter: Id, owner: Id, now: nat)
    returns (sent: Option<Emit>, broadcast: CommentBroadcast<C>)
    requires db.Valid()
    modifies db`notifications, db`nextId
    ensures db.Valid()
    ensures sent.Some? <==> commenter != owner
    ensures commenter == owner ==> db.notifications == old(db.notifications)
    ensures commenter != owner ==>
      old(db.nextId) !in old(db.notifications) &&
      db.notifications == old(db.notifications)[old(db.nextId) := CommentNotification(postId, commenter, owner, now)] &&
      sent == Some(Emit(owner, CommentNotification(postId, commenter, owner, now)))
    ensures broadcast == CommentBroadcast(postId, postId, comment)
  {
    sent := None;
    if commenter != owner {
      var e := Deliver(db, CommentNotification(postId, commenter, owner, now));
      sent := Some(e);
    }
    broadcast := CommentBroadcast(postId, postId, comment);
  }

  /** `follow-user`: only a follow (`isFollowing`) is notified; an unfollow
      stores and sends nothing. Following oneself is not excluded. */
  method FollowUserEvent(db: Db, follower: Id, followed: Id, isFollowing: bool, now: nat) returns (sent: Option<Emit>)
    requires db.Valid()
    modifies db`notifications, db`nextId
    ensures db.Valid()
    ensures sent.Some? <==> isFollowing
    ensures !isFollowing ==> db.notifications == old(db.notifications)
    ensures isFollowing ==>
      old(db.nextId) !in old(db.notifications) &&
      db.notifications == old(db.notifications)[old(db.nextId) := FollowNotification(follower, followed, now)] &&
      sent == Some(Emit(followed, FollowNotification(follower, followed, now)))
  {
    sent := None;
    if isFollowing {
      var e := Deliver(db, FollowNotification(follower, followed, now));
      sent := Some(e);
    }
  }

  /** What the notification routes later show for a like, a comment or a
      follow produced here: the actor's name, a space and the type's
      phrase, never the warning text. */
  lemma SocketNotificationsRead(users: map<Id, User>, posts: map<Id, Post>, postId: Id, actor: Id, owner: Id, now: nat)
    ensures var n := LikeNotification(postId, actor, owner, now);
      StartsWith(ListedMessage(users, posts, n), Shown(ActorName(users, n)) + " ") &&
      ListedMessage(users, posts, n)[|Shown(ActorName(users, n))| + 1..] == Phrase(LikeNote, PostCaption(posts, n))
    ensures var n := CommentNotification(postId, actor, owner, now);
      StartsWith(ListedMessage(users, posts, n), Shown(ActorName(users, n)) + " ") &&
      ListedMessage(users, posts, n)[|Shown(ActorName(users, n))| + 1..] == Phrase(CommentNote, PostCaption(posts, n))
    ensures var n := FollowNotification(actor, owner, now);
      ListedMessage(users, posts, n)[|Shown(ActorName(users, n))| + 1..] == "started following you."
  {
  }

  // ------------------------------------------------------ payload checks

  /** The outcome of `join-user-room`. */
  datatype JoinResult = JoinError(message: string) | JoinedRoom(room: string)

  /** `join-user-room`: a missing or empty id (falsy) is refused with an
      error event and joins nothing. */
  function JoinUserRoom(userId: Option<string>): (r: JoinResult)
    ensures r.JoinedRoom? <==> userId.Some? && userId.value != ""
    ensures r.JoinedRoom? ==> r.room == userId.value
    ensures r.JoinError? ==> r.message == "User ID is required to join a room."
  {
    if userId.None? || userId.value == "" then JoinError("User ID is required to join a room.")
    else JoinedRoom(userId.value)
  }

  /** The `new-chat` payload: a recipient and the chat to forward. */
  datatype NewChatPayload<T> = NewChatPayload(recipientUserId: Option<string>, chatData: Option<T>)

  /** The outcome of `new-chat`. */
  datatype Relay<T> = RelayError(message: string) | Forward(room: string, data: T)

  /** `new-chat`: forwards the chat to the recipient's room only when the
      payload, its recipient (non-empty) and its chat data are all there. */
  function NewChatRelay<T>(payload: Option<NewChatPayload<T>>): (r: Relay<T>)
    ensures r.Forward? <==>
      payload.Some? && payload.value.recipientUserId.Some? && payload.value.recipientUserId.value != "" &&
      payload.value.chatData.Some?
    ensures r.Forward? ==>
      r.room == payload.value.recipientUserId.value && r.data == payload.value.chatData.value
    ensures r.RelayError? ==> r.message == "Invalid chat data. recipientUserId and chatData are required."
  {
    if payload.None? || payload.value.recipientUserId.None? || payload.value.recipientUserId.value == "" ||
       payload.value.chatData.None?
    then RelayError("Invalid chat data. recipientUserId and chatData are required.")
    else Forward(payload.value.recipientUserId.value, payload.value.chatData.value)
  }
}

=== FILE: register_form.dfy ===
/** The registration page's form: the checks each field goes through
    before the form is sent, and the multipart body it sends. A file field
    holds the input's file list, which exists even when no file is chosen;
    the model keeps its first file, if any. The e-mail format test is a
    parameter. */
module RegisterForm {
  import opened Models
  import opened Validation

  /** A chosen file: its name and MIME type. */
  datatype FormFile = FormFile(name: string, mime: string)

  /** The form's values as the page collects them. */
  datatype Form = Form(
    fullName: string,
    email: string,
    password: string,
    image: Option<FormFile>,
    aboutMe: string,
    gender: string,
    userType: string,
    document: Option<FormFile>)

  predicate AsciiLetter(c: char) {
    'a' <= c <= 'z' || 'A' <= c <= 'Z'
  }

  predicate AsciiDigit(c: char) {
    '0' <= c <= '9'
  }

  /** `[A-Za-z0-9@-]`. */
  predicate NameChar(c: char) {
    AsciiLetter(c) || AsciiDigit(c) || c == '@' || c == '-'
  }

  /** `/^(?=.*[A-Za-z])[A-Za-z0-9@-]+$/`: one or more allowed characters, at
      least one of them a letter. */
  predicate NameMatches(s: string) {
    |s| > 0 &&
    (forall i :: 0 <= i < |s| ==> NameChar(s[i])) &&
    (exists i :: 0 <= i < |s| && AsciiLetter(s[i]))
  }

  const NameRequired := "Full name is required"
  const NameFormat := "Name must contain at least one letter and can include letters, numbers, hyphens, or @ symbols"
  const EmailInvalid := "Invalid email"
  const EmailRequired := "Email is required"
  const PasswordShort := "Password must be at least 6 characters"
  const PasswordRequired := "Password is required"
  const ImageType := "Only image files are allowed"
  const GenderInvalid := "Invalid gender"
  const GenderRequired := "Gender is required"
  const TypeInvalid := "Invalid type"
  const TypeRequired := "Type is required"
  const DocumentType := "Only PDF or image files are allowed"

  const ImageTypes := ["image/jpeg", "image/png", "image/jpg"]
  const DocumentTypes := ["application/pdf", "image/jpeg", "image/png", "image/jpg"]

  /** The messages of the name's failing tests: `required` fails on "" and
      `matches` on anything the pattern refuses, "" included. */
  function NameErrors(s: string): (r: set<string>)
    ensures r == {} <==> NameMatches(s)
    ensures s == "" ==> r == {NameRequired, NameFormat}
  {
    (if s == "" then {NameRequired} else {}) + (if !NameMatches(s) then {NameFormat} else {})
  }

  /** The e-mail's failing tests; the format test leaves "" to `required`. */
  function EmailErrors(s: string, isEmail: string -> bool): (r: set<string>)
    ensures r == {} <==> s != "" && isEmail(s)
    ensures s == "" ==> r == {EmailRequired}
  {
    if s == "" then {EmailRequired} else if !isEmail(s) then {EmailInvalid} else {}
  }

  /** The password's failing tests: `min(6)` and `required`. */
  function PasswordErrors(s: string): (r: set<string>)
    ensures r == {} <==> |s| >= 6
    ensures 0 < |s| < 6 ==> r == {PasswordShort}
  {
    (if s == "" then {PasswordRequired} else {}) + (if |s| < 6 then {PasswordShort} else {})
  }

  /** The optional picture: no file passes; a file must have an image type. */
  function ImageErrors(f: Option<FormFile>): (r: set<string>)
    ensures r == {} <==> f.None? || f.value.mime in ImageTypes
  {
    if f.Some? && f.value.mime !in ImageTypes then {ImageType} else {}
  }

  /** A required choice: "" fails both `required` and `oneOf`, any other
      value outside the list only `oneOf`. */
  function ChoiceErrors(v: string, allowed: seq<string>, invalid: string, required: string): (r: set<string>)
    ensures "" !in allowed ==> (r == {} <==> v in allowed)
    ensures v == "" && "" !in allowed ==> r == {required, invalid}
  {
    (if v == "" then {required} else {}) + (if v !in allowed then {invalid} else {})
  }

  /** The document: the file list is present even when empty, so
      `required` passes and the type test refuses a missing file. */
  function DocumentErrors(f: Option<FormFile>): (r: set<string>)
    ensures r == {} <==> f.Some? && f.value.mime in DocumentTypes
    ensures f.None? ==> r == {DocumentType}
  {
    if f.None? || f.value.mime !in DocumentTypes then {DocumentType} else {}
  }

  /** Every failing test's message over the whole form. */
  function FormErrors(f: Form, isEmail: string -> bool): set<string> {
    NameErrors(f.fullName) + EmailErrors(f.email, isEmail) + PasswordErrors(f.password) +
    ImageErrors(f.image) + ChoiceErrors(f.gender, Genders, GenderInvalid, GenderRequired) +
    ChoiceErrors(f.userType, UserTypes, TypeInvalid, TypeRequired) + DocumentErrors(f.document)
  }

  /** The schema, declaratively: what a form must be for the page to send it. */
  predicate FormValid(f: Form, isEmail: string -> bool) {
    NameMatches(f.fullName) && f.email != "" && isEmail(f.email) && |f.password| >= 6 &&
    (f.image.None? || f.image.value.mime in ImageTypes) &&
    f.gender in Genders && f.userType in UserTypes &&
    f.document.Some? && f.document.value.mime in DocumentTypes
  }

  /** The page sends the form exactly when no test fails. */
  lemma NoErrorsIffValid(f: Form, isEmail: string -> bool)
    ensures FormErrors(f, isEmail) == {} <==> FormValid(f, isEmail)
  {
    var parts := [NameErrors(f.fullName), EmailErrors(f.email, isEmail), PasswordErrors(f.password),
                  ImageErrors(f.image), ChoiceErrors(f.gender, Genders, GenderInvalid, GenderRequired),
                  ChoiceErrors(f.userType, UserTypes, TypeInvalid, TypeRequired), DocumentErrors(f.document)];
    assert FormErrors(f, isEmail) == parts[0] + parts[1] + parts[2] + parts[3] + parts[4] + parts[5] + parts[6];
  }

  /** Names the pattern accepts and refuses. */
  lemma NameExamples()
    ensures NameMatches("jane-doe@2")
    ensures !NameMatches("2024")
    ensures !NameMatches("Jane Doe")
  {
    assert AsciiLetter("jane-doe@2"[0]);
    assert forall i :: 0 <= i < 4 ==> !AsciiLetter("2024"[i]);
    assert !NameChar("Jane Doe"[4]);
  }

  // -------------------------------------------------------------- submit

  /** One part of the multipart body. */
  datatype Part = TextPart(key: string, text: string) | FilePart(key: string, file: FormFile)

  /** onSubmit's body: the six text fields in order, then the picture only
      when one is chosen, then the document when one is chosen. */
  function Body(f: Form): (r: seq<Part>)
    ensures |r| >= 6
    ensures r[..6] == [TextPart("fullName", f.fullName), TextPart("email", f.email), TextPart("password", f.password),
                       TextPart("aboutMe", f.aboutMe), TextPart("gender", f.gender), TextPart("type", f.userType)]
    ensures (exists i :: 0 <= i < |r| && r[i].key == "image") <==> f.image.Some?
    ensures (exists i :: 0 <= i < |r| && r[i].key == "document") <==> f.document.Some?
    ensures |r| == 6 + (if f.image.Some? then 1 else 0) + (if f.document.Some? then 1 else 0)
  {
    var texts := [TextPart("fullName", f.fullName), TextPart("email", f.email), TextPart("password", f.password),
                  TextPart("aboutMe", f.aboutMe), TextPart("gender", f.gender), TextPart("type", f.userType)];
    var image := if f.image.Some? then [FilePart("image", f.image.value)] else [];
    var document := if f.document.Some? then [FilePart("document", f.document.value)] else [];
    var r := texts + image + document;
    assert f.image.Some? ==> r[6].key == "image";
    assert f.document.Some? ==> r[|r| - 1].key == "document";
    r
  }

  /** A form the page sends always carries its document. */
  lemma ValidFormSendsDocument(f: Form, isEmail: string -> bool)
    requires FormValid(f, isEmail)
    ensures exists i :: 0 <= i < |Body(f)| && Body(f)[i] == FilePart("document", f.document.value)
  {
    var r := Body(f);
    assert r[|r| - 1] == FilePart("document", f.document.value);
  }

  /** The request body the server's schema sees: the text fields, and the
      file fields left for the upload step. */
  function ServerView(f: Form): (b: RegisterBody)
    ensures b.fullName == Some(f.fullName) && b.email == Some(f.email) && b.password == Some(f.password)
    ensures b.gender == Some(f.gender) && b.userType == Some(f.userType) && b.aboutMe == Some(f.aboutMe)
    ensures b.image.None? && b.document.None?
    ensures b.unknown == []
  {
    RegisterBody(Some(f.fullName), Some(f.email), Some(f.password), Some(f.gender), None,
                 Some(f.aboutMe), Some(f.userType), None, [])
  }

  /** The page's name test is looser than the server's: a two-letter name
      passes the form and is refused by the server as too short. */
  lemma ShortNamePassesFormOnly(f: Form, isEmail: string -> bool)
    requires f.fullName == "Al"
    ensures NameErrors(f.fullName) == {}
    ensures RegisterError(ServerView(f), isEmail) == Some(TooShort("fullName", 3))
  {
    assert AsciiLetter(f.fullName[0]);
  }
}

=== FILE: social_graph.dfy ===
/** The follow relation as it is stored: every user carries a `following`
    and a `followers` id list, and every handler that follows or unfollows
    updates both lists. These are the list updates the handlers make. */
module SocialGraph {
  import opened Models
  import opened Lists

  /** The two lists agree: `a` lists `b` as followed exactly when `b` lists
      `a` as a follower, for every pair of stored users. */
  predicate Consistent(users: map<Id, User>) {
    forall a, b :: a in users && b in users ==>
      (b in users[a].following <==> a in users[b].followers)
  }

  /** No list holds an id twice. */
  predicate NoDuplicates(users: map<Id, User>) {
    forall a :: a in users ==> Distinct(users[a].following) && Distinct(users[a].followers)
  }

  /** `findByIdAndUpdate(id, { following: f(following) })`: a missing id is
      left alone. */
  function MapFollowing(users: map<Id, User>, id: Id, f: seq<Id> -> seq<Id>): (r: map<Id, User>)
    ensures r.Keys == users.Keys
    ensures id in users ==> r[id] == users[id].(following := f(users[id].following))
    ensures forall k :: k in users && k != id ==> r[k] == users[k]
  {
    if id in users then users[id := users[id].(following := f(users[id].following))] else users
  }

  /** The same update on the `followers` list. */
  function MapFollowers(users: map<Id, User>, id: Id, f: seq<Id> -> seq<Id>): (r: map<Id, User>)
    ensures r.Keys == users.Keys
    ensures id in users ==> r[id] == users[id].(followers := f(users[id].followers))
    ensures forall k :: k in users && k != id ==> r[k] == users[k]
  {
    if id in users then users[id := users[id].(followers := f(users[id].followers))] else users
  }

  /** `$addToSet: { following: to }` on `from`, then `$addToSet: { followers:
      from }` on `to`. */
  function AddLink(users: map<Id, User>, from: Id, to: Id): (r: map<Id, User>)
    ensures r.Keys == users.Keys
    ensures from in users ==> to in r[from].following
    ensures to in users ==> from in r[to].followers
    ensures forall k :: k in users && k != from && k != to ==> r[k] == users[k]
    ensures from in users && from != to ==>
      r[from] == users[from].(following := AddToSet(users[from].following, to))
    ensures to in users && from != to ==>
      r[to] == users[to].(followers := AddToSet(users[to].followers, from))
    ensures from in users && from == to ==>
      r[from] == users[from].(following := AddToSet(users[from].following, to),
                              followers := AddToSet(users[from].followers, from))
  {
    MapFollowers(MapFollowing(users, from, s => AddToSet(s, to)), to, s => AddToSet(s, from))
  }

  /** `$pull: { following: to }` on `from`, then `$pull: { followers: from }`
      on `to`. */
  function RemoveLink(users: map<Id, User>, from: Id, to: Id): (r: map<Id, User>)
    ensures r.Keys == users.Keys
    ensures from in users ==> to !in r[from].following
    ensures to in users ==> from !in r[to].followers
    ensures forall k :: k in users && k != from && k != to ==> r[k] == users[k]
    ensures from in users && from != to ==>
      r[from] == users[from].(following := RemoveAll(users[from].following, to))
    ensures to in users && from != to ==>
      r[to] == users[to].(followers := RemoveAll(users[to].followers, from))
    ensures from in users && from == to ==>
      r[from] == users[from].(following := RemoveAll(users[from].following, to),
                              followers := RemoveAll(users[from].followers, from))
  {
    MapFollowers(MapFollowing(users, from, s => RemoveAll(s, to)), to, s => RemoveAll(s, from))
  }

  /** `following.push(to)` on `from` and `followers.push(from)` on `to`,
      with no membership test. */
  function PushLink(users: map<Id, User>, from: Id, to: Id): (r: map<Id, User>)
    ensures r.Keys == users.Keys
    ensures forall k :: k in users && k != from && k != to ==> r[k] == users[k]
    ensures from in users && from != to ==> r[from].following == users[from].following + [to]
    ensures to in users && from != to ==> r[to].followers == users[to].followers + [from]
  {
    MapFollowers(MapFollowing(users, from, s => s + [to]), to, s => s + [from])
  }

  /** A link added with `$addToSet` leaves the two lists in agreement. */
  lemma AddLinkConsistent(users: map<Id, User>, from: Id, to: Id)
    requires Consistent(users)
    ensures Consistent(AddLink(users, from, to))
  {
    var r := AddLink(users, from, to);
    forall a, b | a in r && b in r
      ensures b in r[a].following <==> a in r[b].followers
    {
      assert b in users[a].following <==> a in users[b].followers;
    }
  }

  /** A link removed with `$pull` leaves the two lists in agreement. */
  lemma RemoveLinkConsistent(users: map<Id, User>, from: Id, to: Id)
    requires Consistent(users)
    ensures Consistent(RemoveLink(users, from, to))
  {
    var r := RemoveLink(users, from, to);
    forall a, b | a in r && b in r
      ensures b in r[a].following <==> a in r[b].followers
    {
      assert b in users[a].following <==> a in users[b].followers;
    }
  }

  /** Pushing a link that is absent on both sides leaves the lists in
      agreement. */
  lemma PushLinkConsistent(users: map<Id, User>, from: Id, to: Id)
    requires Consistent(users)
    requires from in users && to in users && to !in users[from].following
    ensures Consistent(PushLink(users, from, to))
  {
    var r := PushLink(users, from, to);
    forall a, b | a in r && b in r
      ensures b in r[a].following <==> a in r[b].followers
    {
      assert b in users[a].following <==> a in users[b].followers;
    }
  }

  /** Adding a link twice is adding it once. */
  lemma AddLinkIdempotent(users: map<Id, User>, from: Id, to: Id)
    ensures AddLink(AddLink(users, from, to), from, to) == AddLink(users, from, to)
  {
  }

  /** `$addToSet` never introduces a duplicate on either side. */
  lemma AddLinkNoDuplicates(users: map<Id, User>, from: Id, to: Id)
    requires NoDuplicates(users)
    ensures NoDuplicates(AddLink(users, from, to))
  {
    var r := AddLink(users, from, to);
    forall a | a in r
      ensures Distinct(r[a].following) && Distinct(r[a].followers)
    {
      if a == from && from in users {
        AddToSetDistinct(users[from].following, to);
      }
      if a == to && to in users {
        var mid := MapFollowing(users, from, s => AddToSet(s, to));
        AddToSetDistinct(mid[to].followers, from);
      }
    }
  }

  /** Removing a link that is not there changes nothing; removing it twice
      is removing it once. */
  lemma RemoveLinkAbsent(users: map<Id, User>, from: Id, to: Id)
    requires from in users ==> to !in users[from].following
    requires to in users ==> from !in users[to].followers
    ensures RemoveLink(users, from, to) == users
  {
    var r := RemoveLink(users, from, to);
    forall k | k in users
      ensures r[k] == users[k]
    {
      if k == from {
        assert RemoveAll(users[from].following, to) == users[from].following;
      }
      if k == to {
        assert RemoveAll(users[to].followers, from) == users[to].followers;
      }
    }
  }

  lemma RemoveLinkIdempotent(users: map<Id, User>, from: Id, to: Id)
    ensures RemoveLink(RemoveLink(users, from, to), from, to) == RemoveLink(users, from, to)
  {
    RemoveLinkAbsent(RemoveLink(users, from, to), from, to);
  }

  /** Removing a pushed link restores both lists exactly, provided neither
      list held it before. */
  lemma RemoveAfterPush(users: map<Id, User>, from: Id, to: Id)
    requires from in users ==> to !in users[from].following
    requires to in users ==> from !in users[to].followers
    ensures RemoveLink(PushLink(users, from, to), from, to) == users
  {
    var p := PushLink(users, from, to);
    var r := RemoveLink(p, from, to);
    forall k | k in users
      ensures r[k] == users[k]
    {
      if k == from {
        RemoveAllAppend(users[from].following, to);
      }
      if k == to {
        RemoveAllAppend(users[to].followers, from);
      }
    }
  }
}

=== FILE: store.dfy ===
/** The document store as one object: a map from id to record per
    collection, and the counter that issues fresh ids. */
module Store {
  import opened Models

  class Db {
    var users: map<Id, User>
    var posts: map<Id, Post>
    var requests: map<Id, FollowRequest>
    var notifications: map<Id, Notification>
    var blockedWords: map<Id, string>
    var groups: map<Id, Group>
    var groupMessages: map<Id, GroupMessage>
    var chats: map<Id, Chat>
    var messages: map<Id, Message>
    /** Every id issued so far is below `nextId`. */
    var nextId: Id

    /** No stored id has been issued in the future, so a fresh id names no
        stored record. */
    predicate Valid()
      reads this
    {
      (forall k :: k in users ==> k < nextId) &&
      (forall k :: k in posts ==> k < nextId) &&
      (forall k :: k in requests ==> k < nextId) &&
      (forall k :: k in notifications ==> k < nextId) &&
      (forall k :: k in blockedWords ==> k < nextId) &&
      (forall k :: k in groups ==> k < nextId) &&
      (forall k :: k in groupMessages ==> k < nextId) &&
      (forall k :: k in chats ==> k < nextId) &&
      (forall k :: k in messages ==> k < nextId)
    }

    /** An empty database. */
    constructor()
      ensures Valid()
      ensures users == map[] && posts == map[] && requests == map[] && notifications == map[]
      ensures blockedWords == map[] && groups == map[] && groupMessages == map[]
      ensures chats == map[] && messages == map[]
    {
      users, posts, requests, notifications := map[], map[], map[], map[];
      blockedWords, groups, groupMessages, chats, messages := map[], map[], map[], map[], map[];
      nextId := 0;
    }

    /** Issues a fresh id: one that no collection holds. */
    method NewId() returns (id: Id)
      requires Valid()
      modifies this`nextId
      ensures Valid()
      ensures id == old(nextId) && nextId == id + 1
      ensures id !in users && id !in posts && id !in requests && id !in notifications
      ensures id !in blockedWords && id !in groups && id !in groupMessages
      ensures id !in chats && id !in messages
    {
      id := nextId;
      nextId := nextId + 1;
    }

    // `Model.create(doc)` for each collection: the document is stored under
    // a fresh id.

    method InsertUser(v: User) returns (id: Id)
      requires Valid()
      modifies this`users, this`nextId
      ensures Valid()
      ensures id == old(nextId) && nextId == id + 1 && id !in old(users)
      ensures users == old(users)[id := v]
    {
      id := nextId;
      nextId := nextId + 1;
      users := users[id := v];
    }

    method InsertPost(v: Post) returns (id: Id)
      requires Valid()
      modifies this`posts, this`nextId
      ensures Valid()
      ensures id == old(nextId) && nextId == id + 1 && id !in old(posts)
      ensures posts == old(posts)[id := v]
    {
      id := nextId;
      nextId := nextId + 1;
      posts := posts[id := v];
    }

    method InsertRequest(v: FollowRequest) returns (id: Id)
      requires Valid()
      modifies this`requests, this`nextId
      ensures Valid()
      ensures id == old(nextId) && nextId == id + 1 && id !in old(requests)
      ensures requests == old(requests)[id := v]
    {
      id := nextId;
      nextId := nextId + 1;
      requests := requests[id := v];
    }

    method InsertNotification(v: Notification) returns (id: Id)
      requires Valid()
      modifies this`notifications, this`nextId
      ensures Valid()
      ensures id == old(nextId) && nextId == id + 1 && id !in old(notifications)
      ensures notifications == old(notifications)[id := v]
    {
      id := nextId;
      nextId := nextId + 1;
      notifications := notifications[id := v];
    }

    method InsertBlockedWord(v: string) returns (id: Id)
      requires Valid()
      modifies this`blockedWords, this`nextId
      ensures Valid()
      ensures id == old(nextId) && nextId == id + 1 && id !in old(blockedWords)
      ensures blockedWords == old(blockedWords)[id := v]
    {
      id := nextId;
      nextId := nextId + 1;
      blockedWords := blockedWords[id := v];
    }

    method InsertGroup(v: Group) returns (id: Id)
      requires Valid()
      modifies this`groups, this`nextId
      ensures Valid()
      ensures id == old(nextId) && nextId == id + 1 && id !in old(groups)
      ensures groups == old(groups)[id := v]
    {
      id := nextId;
      nextId := nextId + 1;
      groups := groups[id := v];
    }

    method InsertGroupMessage(v: GroupMessage) returns (id: Id)
      requires Valid()
      modifies this`groupMessages, this`nextId
      ensures Valid()
      ensures id == old(nextId) && nextId == id + 1 && id !in old(groupMessages)
      ensures groupMessages == old(groupMessages)[id := v]
    {
      id := nextId;
      nextId := nextId + 1;
      groupMessages := groupMessages[id := v];
    }

    method InsertChat(v: Chat) returns (id: Id)
      requires Valid()
      modifies this`chats, this`nextId
      ensures Valid()
      ensures id == old(nextId) && nextId == id + 1 && id !in old(chats)
      ensures chats == old(chats)[id := v]
    {
      id := nextId;
      nextId := nextId + 1;
      chats := chats[id := v];
    }

    method InsertMessage(v: Message) returns (id: Id)
      requires Valid()
      modifies this`messages, this`nextId
      ensures Valid()
      ensures id == old(nextId) && nextId == id + 1 && id !in old(messages)
      ensures messages == old(messages)[id := v]
    {
      id := nextId;
      nextId := nextId + 1;
      messages := messages[id := v];
    }

    /** Writes to existing user documents: the same ids, new contents. */
    method UpdateUsers(u: map<Id, User>)
      requires Valid() && u.Keys == users.Keys
      modifies this`users
      ensures Valid() && users == u
    {
      users := u;
    }

    method UpdateChats(c: map<Id, Chat>)
      requires Valid() && c.Keys == chats.Keys
      modifies this`chats
      ensures Valid() && chats == c
    {
      chats := c;
    }

    method UpdateMessages(m: map<Id, Message>)
      requires Valid() && m.Keys == messages.Keys
      modifies this`messages
      ensures Valid() && messages == m
    {
      messages := m;
    }
  }
}

=== FILE: strings.dfy ===
/** String operations the JavaScript code relies on: `toLowerCase`,
    `toUpperCase` on one character, `trim`, `startsWith` and `includes`.
    Case mapping and whitespace are modelled for ASCII only. */
module Strings {

  /** `c.toLowerCase()` for ASCII letters; every other character is kept. */
  function LowerChar(c: char): char {
    if 'A' <= c <= 'Z' then (c as int + 32) as char else c
  }

  /** `c.toUpperCase()` for ASCII letters; every other character is kept. */
  function UpperChar(c: char): char {
    if 'a' <= c <= 'z' then (c as int - 32) as char else c
  }

  predicate IsAsciiLetter(c: char) {
    ('A' <= c <= 'Z') || ('a' <= c <= 'z')
  }

  predicate IsDigit(c: char) {
    '0' <= c <= '9'
  }

  /** `s.toLowerCase()`, character by character. */
  function Lower(s: string): (r: string)
    ensures |r| == |s|
    ensures forall i :: 0 <= i < |s| ==> r[i] == LowerChar(s[i])
  {
    seq(|s|, i requires 0 <= i < |s| => LowerChar(s[i]))
  }

  /** Lower-casing twice is lower-casing once. */
  lemma LowerIdempotent(s: string)
    ensures Lower(Lower(s)) == Lower(s)
  {
  }

  /** The characters `String.prototype.trim` strips (ASCII subset). */
  predicate IsWhitespace(c: char) {
    c == ' ' || c == '\t' || c == '\n' || c == '\r' || c == '\U{B}' || c == '\U{C}'
  }

  /** `!s.trim()`: the string is empty or whitespace only. */
  predicate IsBlank(s: string) {
    forall i :: 0 <= i < |s| ==> IsWhitespace(s[i])
  }

  function TrimStart(s: string): (r: string)
    ensures |r| <= |s| && r == s[|s| - |r|..]
    ensures r == [] || !IsWhitespace(r[0])
    ensures IsBlank(s[..|s| - |r|])
    decreases |s|
  {
    if s != [] && IsWhitespace(s[0]) then TrimStart(s[1..]) else s
  }

  function TrimEnd(s: string): (r: string)
    ensures |r| <= |s| && r == s[..|r|]
    ensures r == [] || !IsWhitespace(r[|r| - 1])
    ensures IsBlank(s[|r|..])
    decreases |s|
  {
    if s != [] && IsWhitespace(s[|s| - 1]) then TrimEnd(s[..|s| - 1]) else s
  }

  /** `s.trim()`: strips leading and trailing whitespace. */
  function Trim(s: string): (r: string)
    ensures |r| <= |s|
    ensures r == [] || (!IsWhitespace(r[0]) && !IsWhitespace(r[|r| - 1]))
  {
    TrimEnd(TrimStart(s))
  }

  /** `r` is the part of `s` from index `a` on, between a blank front
      `s[..a]` and a blank back. */
  predicate SplitAt(s: string, a: int, r: string) {
    0 <= a <= |s| - |r| && r == s[a..a + |r|] && IsBlank(s[..a]) && IsBlank(s[a + |r|..])
  }

  /** The trimmed string is the part of `s` left between a blank front and
      a blank back. */
  lemma TrimIsSlice(s: string)
    ensures exists a :: SplitAt(s, a, Trim(s))
  {
    var t := TrimStart(s);
    var a := |s| - |t|;
    SplitOfSplit(s, a, t, TrimEnd(t));
    assert Trim(s) == TrimEnd(t);
    assert SplitAt(s, a, Trim(s));
  }

  /** Cutting a blank back off the part after a blank front leaves a part
      between a blank front and a blank back. */
  lemma SplitOfSplit(s: string, a: nat, t: string, r: string)
    requires a <= |s| && t == s[a..] && IsBlank(s[..a])
    requires |r| <= |t| && r == t[..|r|] && IsBlank(t[|r|..])
    ensures SplitAt(s, a, r)
  {
    assert t[..|r|] == s[a..a + |r|];
    assert t[|r|..] == s[a + |r|..];
  }

  /** A string trims to "" exactly when it is blank, so `!s.trim()` and
      `IsBlank(s)` are the same test. */
  lemma TrimEmptyIffBlank(s: string)
    ensures Trim(s) == [] <==> IsBlank(s)
  {
    var t := TrimStart(s);
    var r := TrimEnd(t);
    var cut := |s| - |t|;
    BlankPrefix(s, cut);
    BlankSuffix(t, |r|);
    forall i | cut <= i < |s|
      ensures t[i - cut] == s[i]
    {
    }
  }

  /** Every character of a blank prefix is whitespace. */
  lemma BlankPrefix(s: string, m: nat)
    requires m <= |s| && IsBlank(s[..m])
    ensures forall i :: 0 <= i < m ==> IsWhitespace(s[i])
  {
    forall i | 0 <= i < m
      ensures IsWhitespace(s[i])
    {
      assert s[..m][i] == s[i];
    }
  }

  /** Every character of a blank suffix is whitespace. */
  lemma BlankSuffix(s: string, m: nat)
    requires m <= |s| && IsBlank(s[m..])
    ensures forall i :: m <= i < |s| ==> IsWhitespace(s[i])
  {
    forall i | m <= i < |s|
      ensures IsWhitespace(s[i])
    {
      assert s[m..][i - m] == s[i];
    }
  }

  /** Every character of the trimmed string is one of `s`'s, so a property
      of all of `s`'s characters holds of it too. */
  lemma TrimKeepsAll(s: string, p: char -> bool)
    requires forall i :: 0 <= i < |s| ==> p(s[i])
    ensures forall i :: 0 <= i < |Trim(s)| ==> p(Trim(s)[i])
  {
    var t := TrimStart(s);
    forall i | 0 <= i < |Trim(s)|
      ensures p(Trim(s)[i])
    {
      assert Trim(s)[i] == t[i] == s[|s| - |t| + i];
    }
  }

  /** A trimmed string is left alone by a second trim, so the store's
      `trim` setter is idempotent. */
  lemma TrimIdempotent(s: string)
    ensures Trim(Trim(s)) == Trim(s)
  {
    var t := Trim(s);
    assert TrimStart(t) == t;
    assert TrimEnd(t) == t;
  }

  /** `s.startsWith(prefix)`. */
  predicate StartsWith(s: string, prefix: string) {
    |prefix| <= |s| && s[..|prefix|] == prefix
  }

  /** A string starting with a non-empty prefix starts with its first character. */
  lemma StartsWithHead(s: string, prefix: string)
    requires prefix != []
    ensures StartsWith(s, prefix) ==> s != [] && s[0] == prefix[0]
  {
    if StartsWith(s, prefix) {
      assert s[..|prefix|][0] == s[0];
    }
  }

  /** `text.includes(word)`, written as JavaScript's scan: the word starts
      here or somewhere later. */
  predicate Includes(text: string, word: string)
    decreases |text|
  {
    StartsWith(text, word) || (text != [] && Includes(text[1..], word))
  }

  /** The word occurs in the text starting at index `i`. */
  predicate OccursAt(text: string, word: string, i: nat) {
    i + |word| <= |text| && text[i..i + |word|] == word
  }

  /** The scan agrees with the slice definition of a substring. */
  lemma {:induction false} IncludesIff(text: string, word: string)
    ensures Includes(text, word) <==> exists i: nat :: OccursAt(text, word, i)
    decreases |text|
  {
    if StartsWith(text, word) {
      assert OccursAt(text, word, 0);
    } else if text != [] {
      IncludesIff(text[1..], word);
      forall i: nat | i > 0 && OccursAt(text, word, i)
        ensures OccursAt(text[1..], word, i - 1)
      {
        SliceOfTail(text, i, i + |word|);
      }
      if Includes(text[1..], word) {
        var i: nat :| OccursAt(text[1..], word, i);
        SliceOfTail(text, i + 1, i + 1 + |word|);
        assert OccursAt(text, word, i + 1);
      }
    }
  }

  /** A slice of a text that skips its first character is a slice of its
      tail. */
  lemma SliceOfTail(text: string, a: nat, b: nat)
    requires 1 <= a <= b <= |text|
    ensures text[a..b] == text[1..][a - 1..b - 1]
  {
    forall k | 0 <= k < b - a
      ensures text[a..b][k] == text[1..][a - 1..b - 1][k]
    {
      assert text[1..][a - 1 + k] == text[a + k];
    }
  }

  /** The empty word is found in every text, as `"abc".includes("")` is. */
  lemma IncludesEmpty(text: string)
    ensures Includes(text, "")
  {
    assert StartsWith(text, "");
  }

  /** A word found in the tail of a text is found in the text. */
  lemma IncludesSuffix(text: string, word: string, k: nat)
    requires k <= |text|
    requires Includes(text[k..], word)
    ensures Includes(text, word)
  {
    IncludesIff(text[k..], word);
    var i: nat :| OccursAt(text[k..], word, i);
    assert text[k + i..k + i + |word|] == text[k..][i..i + |word|];
    assert OccursAt(text, word, k + i);
    IncludesIff(text, word);
  }

  /** A word is found in any text built around it. */
  lemma IncludesMiddle(front: string, word: string, back: string)
    ensures Includes(front + word + back, word)
  {
    var t := front + word + back;
    assert t[|front|..|front| + |word|] == word;
    assert OccursAt(t, word, |front|);
    IncludesIff(t, word);
  }

  /** A word found in the front part of a text is found in the text. */
  lemma IncludesPrefix(text: string, word: string, k: nat)
    requires k <= |text|
    requires Includes(text[..k], word)
    ensures Includes(text, word)
  {
    IncludesIff(text[..k], word);
    var i: nat :| OccursAt(text[..k], word, i);
    assert text[i..i + |word|] == text[..k][i..i + |word|];
    assert OccursAt(text, word, i);
    IncludesIff(text, word);
  }

  /** `keywords.some(keyword => text.includes(keyword))`. */
  predicate ContainsAny(text: string, keywords: seq<string>)
    ensures ContainsAny(text, keywords) <==>
            exists i :: 0 <= i < |keywords| && Includes(text, keywords[i])
  {
    if keywords == [] then false
    else Includes(text, keywords[0]) || ContainsAny(text, keywords[1..])
  }

  /** The value of a decimal digit. */
  function DigitValue(c: char): (v: nat)
    ensures IsDigit(c) ==> v < 10 && c == '0' + v as char
  {
    if IsDigit(c) then c as int - '0' as int else 0
  }

  /** The number a string of decimal digits denotes. */
  function DecimalValue(s: string): nat
    decreases |s|
  {
    if s == [] then 0 else 10 * DecimalValue(s[..|s| - 1]) + DigitValue(s[|s| - 1])
  }

  /** Decimal rendering of a natural number, as JavaScript's `String(n)`:
      a string of digits (NatToStringValue: denoting `n`, without a
      leading zero). */
  function NatToString(n: nat): (r: string)
    ensures |r| >= 1
    ensures forall i :: 0 <= i < |r| ==> IsDigit(r[i])
    decreases n
  {
    var d := ['0' + (n % 10) as char];
    if n < 10 then d else NatToString(n / 10) + d
  }

  /** The rendered digits denote the number, and only 0 starts with '0'. */
  lemma {:induction false} NatToStringValue(n: nat)
    ensures DecimalValue(NatToString(n)) == n
    ensures NatToString(n)[0] == '0' ==> n == 0 && NatToString(n) == "0"
    decreases n
  {
    if n >= 10 {
      NatToStringValue(n / 10);
      var r := NatToString(n);
      assert r[..|r| - 1] == NatToString(n / 10);
      assert r[0] == NatToString(n / 10)[0];
    }
  }

  /** Distinct numbers are rendered differently. */
  lemma NatToStringInjective(a: nat, b: nat)
    ensures NatToString(a) == NatToString(b) <==> a == b
  {
    NatToStringValue(a);
    NatToStringValue(b);
  }

  /** Digits that denote 0 are all zeros. */
  lemma {:induction false} ZeroValueAllZeros(s: string)
    requires forall i :: 0 <= i < |s| ==> IsDigit(s[i])
    requires DecimalValue(s) == 0
    ensures forall i :: 0 <= i < |s| ==> s[i] == '0'
    decreases |s|
  {
    if s != [] {
      var p := s[..|s| - 1];
      ZeroValueAllZeros(p);
      forall i | 0 <= i < |s|
        ensures s[i] == '0'
      {
        if i < |p| {
          assert s[i] == p[i];
        }
      }
    }
  }

  /** Rendering the value of a digit string without a leading zero gives
      the string back. */
  lemma {:induction false} DigitsRoundTrip(s: string)
    requires |s| >= 1 && forall i :: 0 <= i < |s| ==> IsDigit(s[i])
    requires s[0] == '0' ==> s == "0"
    ensures NatToString(DecimalValue(s)) == s
    decreases |s|
  {
    var last := s[|s| - 1];
    if |s| == 1 {
      assert s == [last];
    } else {
      var p := s[..|s| - 1];
      assert p[0] == s[0];
      if DecimalValue(p) == 0 {
        ZeroValueAllZeros(p);
        assert false;
      }
      DigitsRoundTrip(p);
      var v := DecimalValue(s);
      assert v == 10 * DecimalValue(p) + DigitValue(last);
      assert v / 10 == DecimalValue(p) && v % 10 == DigitValue(last);
      assert s == p + [last];
    }
  }
}

=== FILE: text_format.dfy ===
/** `capitalizeAndTruncate`: the first character upper-cased, and the text
    cut to `maxLength` characters followed by "..." when it is longer. */
module TextFormat {
  import opened Models
  import opened Strings

  /** `str.charAt(0).toUpperCase() + str.slice(1)` on a non-empty string. */
  function Capitalized(s: string): (r: string)
    requires s != []
    ensures |r| == |s| && r[0] == UpperChar(s[0]) && r[1..] == s[1..]
  {
    [UpperChar(s[0])] + s[1..]
  }

  /** Upper-casing a character twice is upper-casing it once. */
  lemma UpperCharIdempotent(c: char)
    ensures UpperChar(UpperChar(c)) == UpperChar(c)
  {
  }

  /** A missing or empty string gives "". Otherwise the string keeps its
      characters except the first, which is upper-cased; a string longer
      than `maxLength` keeps only its first `maxLength` characters, followed
      by "...". */
  function CapitalizeAndTruncate(str: Option<string>, maxLength: nat): (r: string)
    ensures str.None? || str.value == [] ==> r == []
    ensures str.Some? && str.value != [] && |str.value| <= maxLength ==>
      |r| == |str.value| && r[0] == UpperChar(str.value[0]) && r[1..] == str.value[1..]
    ensures str.Some? && str.value != [] && |str.value| > maxLength ==>
      |r| == maxLength + 3 && r[maxLength..] == "..." &&
      (maxLength > 0 ==> r[0] == UpperChar(str.value[0])) &&
      (forall i :: 0 < i < maxLength ==> r[i] == str.value[i])
  {
    if str.None? || str.value == [] then []
    else
      var formatted := Capitalized(str.value);
      if |formatted| > maxLength then formatted[..maxLength] + "..." else formatted
  }

  /** The result is never longer than `maxLength` + 3. */
  lemma ResultBounded(str: Option<string>, maxLength: nat)
    ensures |CapitalizeAndTruncate(str, maxLength)| <= maxLength + 3
  {
  }

  /** Formatting an already formatted string with the same limit changes
      nothing. */
  lemma CapitalizeAndTruncateIdempotent(str: Option<string>, maxLength: nat)
    ensures CapitalizeAndTruncate(Some(CapitalizeAndTruncate(str, maxLength)), maxLength) ==
      CapitalizeAndTruncate(str, maxLength)
  {
    var r := CapitalizeAndTruncate(str, maxLength);
    if r != [] {
      var again := CapitalizeAndTruncate(Some(r), maxLength);
      UpperCharIdempotent(r[0]);
      if |r| > maxLength {
        assert |again| == |r|;
        forall i | 0 <= i < |r|
          ensures again[i] == r[i]
        {
          if i >= maxLength {
            assert again[maxLength..] == r[maxLength..];
            assert again[i] == again[maxLength..][i - maxLength];
          }
        }
      } else {
        assert again[1..] == r[1..];
      }
    }
  }
}

=== FILE: uploads.dfy ===
/** Upload handling: the two MIME filters (the shared multer configuration
    and the one in the server entry point), the stored file name and the
    public path a stored file is served under. */
module Uploads {
  import opened Strings
  import opened Models

  const FilterError := "Only images and videos are allowed!"
  const PdfMime := "application/pdf"
  const MsWordMime := "application/msword"
  const DocxMime := "application/" + "vnd.openxmlformats-officedocument.wordprocessingml.document"

  /** Every file is stored under this directory. */
  const Destination := "uploads/"

  predicate MulterAccepts(mime: string) {
    StartsWith(mime, "image/") || StartsWith(mime, "video/") || mime == PdfMime
  }

  /** The shared filter: `None` accepts the file, `Some(message)` rejects
      it with the filter's error. */
  function MulterFileFilter(mime: string): (r: Option<string>)
    ensures r.None? <==> StartsWith(mime, "image/") || StartsWith(mime, "video/") || mime == PdfMime
    ensures r.Some? ==> r.value == FilterError
  {
    if MulterAccepts(mime) then None else Some(FilterError)
  }

  predicate ServerAccepts(mime: string) {
    StartsWith(mime, "image/") || StartsWith(mime, "video/") ||
    mime == PdfMime || mime == MsWordMime || mime == DocxMime
  }

  /** The server entry point's filter, which also admits Word documents. */
  function ServerFileFilter(mime: string): (r: Option<string>)
    ensures r.None? <==>
      StartsWith(mime, "image/") || StartsWith(mime, "video/") ||
      mime == PdfMime || mime == MsWordMime || mime == DocxMime
    ensures r.Some? ==> r.value == FilterError
  {
    if ServerAccepts(mime) then None else Some(FilterError)
  }

  /** The server's filter admits everything the shared one does, and
      exactly the two Word types besides. */
  lemma FiltersCompared(mime: string)
    ensures MulterFileFilter(mime).None? ==> ServerFileFilter(mime).None?
    ensures ServerFileFilter(mime).None? && MulterFileFilter(mime).Some? <==>
      mime == MsWordMime || mime == DocxMime
  {
    if mime == MsWordMime || mime == DocxMime {
      assert MsWordMime[0] == 'a';
      assert DocxMime[0] == "application/"[0] == 'a';
      StartsWithHead(mime, "image/");
      StartsWithHead(mime, "video/");
    }
  }

  /** `path.extname(name)` on the name the browser sent, which the
      multipart parser reduces to its last path segment, so it holds no
      '/': from the last dot to the end, except that a dot in first place,
      and the name "..", give "". */
  function ExtName(name: string): (r: string)
    ensures |r| <= |name| && r == name[|name| - |r|..]
    ensures r == [] || (r[0] == '.' && '.' !in r[1..])
    ensures r == [] <==> (forall j :: 0 < j < |name| ==> name[j] != '.') || name == ".."
  {
    var i := LastDot(name, |name|);
    if i <= 0 || name == ".." then "" else name[i..]
  }

  /** The last index below `k` holding a dot, or -1. */
  function LastDot(name: string, k: nat): (r: int)
    requires k <= |name|
    ensures -1 <= r < k
    ensures r >= 0 ==> name[r] == '.'
    ensures forall j :: r < j < k ==> name[j] != '.'
  {
    if k == 0 then -1 else if name[k - 1] == '.' then k - 1 else LastDot(name, k - 1)
  }

  /** Typical names. */
  lemma ExtNameExamples()
    ensures ExtName("photo.png") == ".png"
    ensures ExtName("clip.tar.gz") == ".gz"
    ensures ExtName("notes") == ""
    ensures ExtName("a.") == "."
  {
    KnownExtension("photo.png", 5);
    KnownExtension("clip.tar.gz", 8);
    KnownExtension("a.", 1);
    assert forall j :: 0 < j < |"notes"| ==> "notes"[j] != '.';
  }

  /** Names that start with a dot. */
  lemma ExtNameDotFiles()
    ensures ExtName(".bashrc") == ""
    ensures ExtName("..") == ""
    ensures ExtName("..file") == ".file"
    ensures ExtName("...") == "."
  {
    assert forall j :: 0 < j < |".bashrc"| ==> ".bashrc"[j] != '.';
    KnownExtension("..file", 1);
    KnownExtension("...", 2);
  }

  /** A name with its last dot at `i > 0` has the extension from `i`. */
  lemma KnownExtension(name: string, i: nat)
    requires 0 < i < |name| && name[i] == '.' && name != ".."
    requires forall j :: i < j < |name| ==> name[j] != '.'
    ensures ExtName(name) == name[i..]
  {
    SameExtension(name, ExtName(name), name[i..]);
  }

  /** A suffix with no dot after its first character is no longer than a
      suffix that starts with a dot. */
  lemma NotLonger(s: string, e1: string, e2: string)
    requires |e1| <= |s| && e1 == s[|s| - |e1|..]
    requires |e2| <= |s| && e2 == s[|s| - |e2|..]
    requires e1 != [] && e1[0] == '.'
    requires e2 != [] && '.' !in e2[1..]
    ensures |e2| <= |e1|
  {
  }

  /** Two suffixes of one string that both start with its last dot are the
      same suffix. */
  lemma SameExtension(s: string, e1: string, e2: string)
    requires |e1| <= |s| && e1 == s[|s| - |e1|..]
    requires |e2| <= |s| && e2 == s[|s| - |e2|..]
    requires e1 != [] && e1[0] == '.' && '.' !in e1[1..]
    requires e2 != [] && e2[0] == '.' && '.' !in e2[1..]
    ensures e1 == e2
  {
    NotLonger(s, e1, e2);
    NotLonger(s, e2, e1);
  }

  /** Digits followed by an extension keep that extension. */
  lemma DigitsThenExtension(d: string, e: string)
    requires |d| >= 1 && forall i :: 0 <= i < |d| ==> IsDigit(d[i])
    requires e == [] || (e[0] == '.' && '.' !in e[1..])
    ensures ExtName(d + e) == e
  {
    var r := d + e;
    assert r[|d|..] == e;
    if e == [] {
      forall j | 0 < j < |r|
        ensures r[j] != '.'
      {
        assert IsDigit(d[j]);
      }
      assert IsDigit(r[0]);
    } else {
      assert r[|d|] == '.' && IsDigit(r[0]);
      SameExtension(r, ExtName(r), e);
    }
  }

  /** The stored name: the upload time in milliseconds, then the original
      name's extension. The stored name keeps that extension, and what
      precedes it is the decimal time. */
  function StoredFilename(now: nat, originalName: string): (r: string)
    ensures ExtName(r) == ExtName(originalName)
    ensures var stem := r[..|r| - |ExtName(r)|];
      |stem| >= 1 && (forall i :: 0 <= i < |stem| ==> IsDigit(stem[i])) && DecimalValue(stem) == now
  {
    var d := NatToString(now);
    NatToStringValue(now);
    DigitsThenExtension(d, ExtName(originalName));
    assert (d + ExtName(originalName))[..|d|] == d;
    d + ExtName(originalName)
  }

  /** Files stored at different times get different names, whatever they
      were called; equal names mean equal times and equal extensions. */
  lemma StoredFilenameInjective(a: nat, nameA: string, b: nat, nameB: string)
    ensures StoredFilename(a, nameA) == StoredFilename(b, nameB) ==>
      a == b && ExtName(nameA) == ExtName(nameB)
  {
  }

  /** A file multer took from a multipart request: the MIME type the
      client declared and the name it was stored under. */
  datatype UploadedFile = UploadedFile(mime: string, filename: string)

  /** `req.file?.filename`. */
  function FileName(file: Option<UploadedFile>): Option<string> {
    if file.Some? then Some(file.value.filename) else None
  }

  /** The shared filter turns the upload away: the error goes to Express's
      default handler before any route handler runs. */
  predicate SharedFilterRefuses(file: Option<UploadedFile>) {
    file.Some? && MulterFileFilter(file.value.mime).Some?
  }

  /** The same for the server entry point's own filter. */
  predicate ServerFilterRefuses(file: Option<UploadedFile>) {
    file.Some? && ServerFileFilter(file.value.mime).Some?
  }

  /** What Express's default error handler answers for the filter's error,
      which carries no status of its own. */
  const FilterFailureStatus := 500

  /** The public path of a stored file: the storage directory, served
      from the site root. */
  function UploadedPath(filename: string): (r: string)
    ensures StartsWith(r, "/uploads/") && r[9..] == filename
  {
    "/" + Destination + filename
  }

  /** The register route's path for an optional upload, as written: the
      public path of the file, or "" when none was sent. */
  function RegisterPathAsWritten(file: Option<string>): (r: string)
    ensures file.Some? ==> r == UploadedPath(file.value)
    ensures file.None? ==> r == ""
  {
    if file.Some? then UploadedPath(file.value) else ""
  }

  /** The register route's path as the optional fields of the registration
      schema evidently intend: absent when no file was sent. */
  function RegisterPath(file: Option<string>): (r: Option<string>)
    ensures file.Some? ==> r == Some(UploadedPath(file.value))
    ensures file.None? <==> r.None?
    ensures r.Some? ==> r.value != []
  {
    if file.Some? then Some(UploadedPath(file.value)) else None
  }
}

=== FILE: users_directory.dfy ===
/** The users directory drawer: the users shown for the active tab and the
    search box, and the local follow toggle behind its Follow / Unfollow
    button. */
module UsersDirectory {
  import opened Models
  import opened Strings
  import opened Lists
  import opened SocialGraph
  import opened Profiles
  import opened Accounts

  /** A user as `/api/users/all` returns it, with the fields the drawer
      reads; `userType` is the stored `type` string. */
  datatype DirUser = DirUser(id: Id, fullName: string, email: string, userType: string, followers: seq<Id>)

  /** The directory entry of a stored user. */
  function Listed(id: Id, u: User): (d: DirUser)
    ensures d.id == id && d.followers == u.followers
    ensures d.userType == "student" || d.userType == "faculty"
  {
    DirUser(id, u.fullName, u.email, UserTypeName(u.userType), u.followers)
  }

  /** The entries of the given stored users, in order. */
  function Directory(users: map<Id, User>, ids: seq<Id>): (r: seq<DirUser>)
    requires forall k :: 0 <= k < |ids| ==> ids[k] in users
    ensures |r| == |ids|
    ensures forall k :: 0 <= k < |r| ==> r[k] == Listed(ids[k], users[ids[k]])
  {
    seq(|ids|, k requires 0 <= k < |ids| => Listed(ids[k], users[ids[k]]))
  }

  /** The tab the drawer opens on. */
  const InitialTab := "students"

  /** An empty query matches everyone; otherwise the lower-cased query must
      occur in the lower-cased name or e-mail. */
  predicate SearchMatch(u: DirUser, query: string) {
    query == "" || Includes(Lower(u.fullName), Lower(query)) || Includes(Lower(u.email), Lower(query))
  }

  /** typeMatch && searchMatch && notCurrentUser. */
  predicate Shown(u: DirUser, activeTab: string, query: string, me: Id) {
    u.userType == activeTab && SearchMatch(u, query) && u.id != me
  }

  /** `users.filter(...)`: the users shown, in list order. */
  function FilteredUsers(users: seq<DirUser>, activeTab: string, query: string, me: Id): (r: seq<DirUser>)
    ensures |r| <= |users|
  {
    if users == [] then []
    else
      var rest := FilteredUsers(users[1..], activeTab, query, me);
      if Shown(users[0], activeTab, query, me) then [users[0]] + rest else rest
  }

  /** A user is shown exactly when listed and matching all three tests. */
  lemma {:induction false} FilteredUsersMembers(users: seq<DirUser>, activeTab: string, query: string, me: Id, u: DirUser)
    ensures u in FilteredUsers(users, activeTab, query, me) <==> u in users && Shown(u, activeTab, query, me)
  {
    if users != [] {
      FilteredUsersMembers(users[1..], activeTab, query, me, u);
      assert users == [users[0]] + users[1..];
    }
  }

  /** When no user passes, nothing is shown. */
  lemma {:induction false} NoneShown(users: seq<DirUser>, activeTab: string, query: string, me: Id)
    requires forall k :: 0 <= k < |users| ==> !Shown(users[k], activeTab, query, me)
    ensures FilteredUsers(users, activeTab, query, me) == []
  {
    if users != [] {
      assert !Shown(users[0], activeTab, query, me);
      NoneShown(users[1..], activeTab, query, me);
    }
  }

  /** The drawer opens on "students", which is no user's type: nobody is
      shown until a tab button sets "student" or "faculty". */
  lemma InitialTabShowsNobody(users: map<Id, User>, ids: seq<Id>, query: string, me: Id)
    requires forall k :: 0 <= k < |ids| ==> ids[k] in users
    ensures FilteredUsers(Directory(users, ids), InitialTab, query, me) == []
  {
    var d := Directory(users, ids);
    forall k | 0 <= k < |d|
      ensures !Shown(d[k], InitialTab, query, me)
    {
      assert d[k].userType == "student" || d[k].userType == "faculty";
    }
    NoneShown(d, InitialTab, query, me);
  }

  /** The search ignores the query's case. */
  lemma SearchIgnoresCase(u: DirUser, query: string)
    ensures SearchMatch(u, Lower(query)) <==> SearchMatch(u, query)
  {
    LowerIdempotent(query);
  }

  // ----------------------------------------------------------- following

  /** `user.followers.includes(currentUser._id)`. */
  predicate IsFollowing(u: DirUser, me: Id) {
    me in u.followers
  }

  /** The followers list after the button: the current id filtered out
      when present, appended otherwise. */
  function FollowersToggled(followers: seq<Id>, me: Id): (r: seq<Id>)
    ensures me in r <==> me !in followers
    ensures forall x :: x != me ==> (x in r <==> x in followers)
  {
    if me in followers then RemoveAll(followers, me) else followers + [me]
  }

  /** The local update of handleFollow: only the clicked user's followers
      change. */
  function ToggledLocally(users: seq<DirUser>, target: Id, me: Id): (r: seq<DirUser>)
    ensures |r| == |users|
    ensures forall k :: 0 <= k < |r| && users[k].id != target ==> r[k] == users[k]
    ensures forall k :: 0 <= k < |r| && users[k].id == target ==>
      r[k] == users[k].(followers := FollowersToggled(users[k].followers, me))
  {
    seq(|users|, k requires 0 <= k < |users| =>
      if users[k].id == target then users[k].(followers := FollowersToggled(users[k].followers, me)) else users[k])
  }

  /** The button flips whether the clicked user shows as followed, and only
      that user's entry changes. */
  lemma LocalToggleFlips(users: seq<DirUser>, target: Id, me: Id)
    ensures var r := ToggledLocally(users, target, me);
      forall k :: 0 <= k < |r| ==>
        (users[k].id == target ==> (IsFollowing(r[k], me) <==> !IsFollowing(users[k], me))) &&
        (users[k].id != target ==> r[k] == users[k])
  {
  }

  /** From "not following", two clicks restore the list exactly. */
  lemma LocalToggleTwice(users: seq<DirUser>, target: Id, me: Id)
    requires forall k :: 0 <= k < |users| && users[k].id == target ==> me !in users[k].followers
    ensures ToggledLocally(ToggledLocally(users, target, me), target, me) == users
  {
    var once := ToggledLocally(users, target, me);
    var twice := ToggledLocally(once, target, me);
    forall k | 0 <= k < |users|
      ensures twice[k] == users[k]
    {
      if users[k].id == target {
        RemoveAllAppend(users[k].followers, me);
      }
    }
  }

  // ------------------------------------------------------------- finding

  /** What the server does for the button, as written: it posts to
      `/api/users/:userId/follow`, whose handler reads the undefined
      `req.user._id`, so no stored followers list changes; only the user
      the store picks (`hit`) follows the target. */
  function ServerFollowAsWritten(users: map<Id, User>, target: Id, hit: Option<Id>): (r: map<Id, User>)
    ensures r.Keys == users.Keys
    ensures forall k :: k in users ==> r[k].followers == users[k].followers
  {
    FollowedAsWritten(users, target, hit)
  }

  /** Clicking "Unfollow" on a followed user: the drawer then shows the user
      as not followed, while the stored followers still hold the caller. */
  lemma UnfollowIsNotStored(users: map<Id, User>, me: Id, target: Id, hit: Option<Id>)
    requires target in users && me in users[target].followers
    ensures var shown := ToggledLocally([Listed(target, users[target])], target, me);
      !IsFollowing(shown[0], me) && me in ServerFollowAsWritten(users, target, hit)[target].followers
  {
  }

  /** Clicking "Follow" on a user not followed: the drawer then shows the
      user as followed, while the stored followers still lack the caller. */
  lemma FollowIsNotStored(users: map<Id, User>, me: Id, target: Id, hit: Option<Id>)
    requires target in users && me !in users[target].followers
    ensures var shown := ToggledLocally([Listed(target, users[target])], target, me);
      IsFollowing(shown[0], me) && me !in ServerFollowAsWritten(users, target, hit)[target].followers
  {
  }

  /** What the button evidently means: the toggle the profile routes
      implement, so that an "Unfollow" click unfollows. */
  function ServerFollow(users: map<Id, User>, me: Id, target: Id): (r: map<Id, User>)
    requires me in users
    ensures r.Keys == users.Keys
  {
    Toggled(users, me, target)
  }

  /** With the toggle on the server, the drawer's state after a click
      agrees with the stored followers of the clicked user. */
  lemma LocalToggleMatchesServer(users: map<Id, User>, me: Id, target: Id)
    requires Consistent(users)
    requires me in users && target in users
    ensures var shown := ToggledLocally([Listed(target, users[target])], target, me);
      IsFollowing(shown[0], me) <==> me in ServerFollow(users, me, target)[target].followers
  {
    ToggleFlips(users, me, target);
  }
}

=== FILE: validation.dfy ===
/** The server's request schemas for registration and login. Fields are
    checked in schema order, then any key the schema does not list, and
    the first failure is reported with the schema library's message text.
    An absent field is `None`. */
module Validation {
  import opened Strings
  import opened Models
  import opened Uploads

  datatype RegisterBody = RegisterBody(
    fullName: Option<string>,
    email: Option<string>,
    password: Option<string>,
    gender: Option<string>,
    image: Option<string>,
    aboutMe: Option<string>,
    userType: Option<string>,
    document: Option<string>,
    unknown: seq<string>)

  /** The login body; `unknown` lists, in body order, the keys the schema
      does not name (as in `RegisterBody`). */
  datatype LoginBody = LoginBody(email: Option<string>, password: Option<string>, unknown: seq<string>)

  /** The failures a schema rule reports, with the field's key. */
  datatype FieldError =
    | Missing(key: string)
    | EmptyValue(key: string)
    | TooShort(key: string, limit: nat)
    | TooLong(key: string, limit: nat)
    | NotEmail(key: string)
    | NotOneOf(key: string, listed: string)
    | NotAllowed(key: string)

  function Quoted(key: string): string {
    "\"" + key + "\""
  }

  /** The message text the schema library reports for a failure. */
  function ErrorMessage(e: FieldError): (r: string)
    ensures StartsWith(r, Quoted(e.key))
  {
    var q := Quoted(e.key);
    var rest := match e
      case Missing(_) => " is required"
      case EmptyValue(_) => " is not allowed to be empty"
      case TooShort(_, n) => " length must be at least " + NatToString(n) + " characters long"
      case TooLong(_, n) => " length must be less than or equal to " + NatToString(n) + " characters long"
      case NotEmail(_) => " must be a valid email"
      case NotOneOf(_, listed) => " must be one of [" + listed + "]"
      case NotAllowed(_) => " is not allowed";
    assert (q + rest)[..|q|] == q;
    q + rest
  }

  /** What a string rule accepts, stated declaratively: present unless
      optional, not empty, within the length bounds, and an email address
      when the rule asks for one. */
  predicate StringOk(v: Option<string>, required: bool, minLen: nat, maxLen: Option<nat>,
                     email: bool, isEmail: string -> bool) {
    (v.None? ==> !required) &&
    (v.Some? ==> v.value != [] && minLen <= |v.value| &&
                 (maxLen.Some? ==> |v.value| <= maxLen.value) &&
                 (email ==> isEmail(v.value)))
  }

  /** A string rule checked step by step: presence, emptiness, then the
      `min`, `max` and `email` rules in the order the schema lists them. */
  function CheckString(key: string, v: Option<string>, required: bool, minLen: nat,
                       maxLen: Option<nat>, email: bool, isEmail: string -> bool): (r: Option<FieldError>)
    ensures r.None? <==> StringOk(v, required, minLen, maxLen, email, isEmail)
    ensures r.Some? ==> r.value.key == key
    ensures v.None? && required ==> r == Some(Missing(key))
    ensures v == Some([]) ==> r == Some(EmptyValue(key))
  {
    if v.None? then (if required then Some(Missing(key)) else None)
    else if v.value == [] then Some(EmptyValue(key))
    else if |v.value| < minLen then Some(TooShort(key, minLen))
    else if maxLen.Some? && |v.value| > maxLen.value then Some(TooLong(key, maxLen.value))
    else if email && !isEmail(v.value) then Some(NotEmail(key))
    else None
  }

  /** A required `valid(...)` rule: the allowed values are tested before
      anything else, so "" gets the one-of message. */
  function CheckOneOf(key: string, v: Option<string>, allowed: seq<string>, listed: string): (r: Option<FieldError>)
    ensures r.None? <==> v.Some? && v.value in allowed
    ensures v.None? ==> r == Some(Missing(key))
    ensures v.Some? && v.value !in allowed ==> r == Some(NotOneOf(key, listed))
  {
    if v.None? then Some(Missing(key))
    else if v.value in allowed then None
    else Some(NotOneOf(key, listed))
  }

  /** Keys the schema does not list are refused, the first one reported. */
  function UnknownKey(unknown: seq<string>): (r: Option<FieldError>)
    ensures r.None? <==> unknown == []
    ensures r.Some? ==> r.value.NotAllowed? && r.value.key == unknown[0]
  {
    if unknown == [] then None else Some(NotAllowed(unknown[0]))
  }

  const Genders := ["male", "female", "other"]
  const UserTypes := ["student", "faculty"]

  /** The registration schema, declaratively. */
  predicate RegisterValid(b: RegisterBody, isEmail: string -> bool) {
    StringOk(b.fullName, true, 3, Some(30), false, isEmail) &&
    StringOk(b.email, true, 0, None, true, isEmail) &&
    StringOk(b.password, true, 6, None, false, isEmail) &&
    b.gender.Some? && b.gender.value in Genders &&
    StringOk(b.image, false, 0, None, false, isEmail) &&
    StringOk(b.aboutMe, false, 0, Some(500), false, isEmail) &&
    b.userType.Some? && b.userType.value in UserTypes &&
    StringOk(b.document, false, 0, None, false, isEmail) &&
    b.unknown == []
  }

  /** `registerSchema.validate(body)`: the first failing field's message. */
  function RegisterError(b: RegisterBody, isEmail: string -> bool): (r: Option<FieldError>)
    ensures r.None? <==> RegisterValid(b, isEmail)
    ensures b.fullName.None? ==> r == Some(Missing("fullName"))
    ensures r.None? ==> b.fullName.Some? && b.email.Some? && b.password.Some?
    ensures r.None? ==> b.gender.Some? && ParseGender(b.gender.value).Some?
    ensures r.None? ==> b.userType.Some? && ParseUserType(b.userType.value).Some?
    ensures b.unknown != [] && RegisterValid(b.(unknown := []), isEmail) ==>
      r == Some(NotAllowed(b.unknown[0]))
  {
    CheckString("fullName", b.fullName, true, 3, Some(30), false, isEmail).OrElse(
    CheckString("email", b.email, true, 0, None, true, isEmail).OrElse(
    CheckString("password", b.password, true, 6, None, false, isEmail).OrElse(
    CheckOneOf("gender", b.gender, Genders, "male, female, other").OrElse(
    CheckString("image", b.image, false, 0, None, false, isEmail).OrElse(
    CheckString("aboutMe", b.aboutMe, false, 0, Some(500), false, isEmail).OrElse(
    CheckOneOf("type", b.userType, UserTypes, "student, faculty").OrElse(
    CheckString("document", b.document, false, 0, None, false, isEmail).OrElse(
    UnknownKey(b.unknown)))))))))
  }

  /** The login schema, declaratively. */
  predicate LoginValid(b: LoginBody, isEmail: string -> bool) {
    StringOk(b.email, true, 0, None, true, isEmail) &&
    StringOk(b.password, true, 0, None, false, isEmail) &&
    b.unknown == []
  }

  /** `loginSchema.validate(body)`. */
  function LoginError(b: LoginBody, isEmail: string -> bool): (r: Option<FieldError>)
    ensures r.None? <==> LoginValid(b, isEmail)
    ensures b.email.None? ==> r == Some(Missing("email"))
    ensures b.email.Some? && b.email.value != [] && isEmail(b.email.value) && b.password.None? ==>
      r == Some(Missing("password"))
    ensures b.unknown != [] && LoginValid(b.(unknown := []), isEmail) ==>
      r == Some(NotAllowed(b.unknown[0]))
  {
    CheckString("email", b.email, true, 0, None, true, isEmail).OrElse(
    CheckString("password", b.password, true, 0, None, false, isEmail).OrElse(
    UnknownKey(b.unknown)))
  }

  // ------------------------------------------------ the register route

  /** The register route, as written: both paths overwrite the body, with ""
      when no file was uploaded. */
  function RouteBodyAsWritten(b: RegisterBody, imageFile: Option<string>, documentFile: Option<string>): (r: RegisterBody)
    ensures r.image == Some(RegisterPathAsWritten(imageFile))
    ensures r.document == Some(RegisterPathAsWritten(documentFile))
  {
    b.(image := Some(RegisterPathAsWritten(imageFile)), document := Some(RegisterPathAsWritten(documentFile)))
  }

  /** As written, a registration without an image upload never passes the
      schema, since "" is not an allowed value of an optional string; when
      every earlier field is valid the reply names the image. */
  lemma RegisterWithoutImageRejected(b: RegisterBody, documentFile: Option<string>, isEmail: string -> bool)
    ensures RegisterError(RouteBodyAsWritten(b, None, documentFile), isEmail).Some?
    ensures var b' := RouteBodyAsWritten(b, None, documentFile);
      StringOk(b.fullName, true, 3, Some(30), false, isEmail) &&
      StringOk(b.email, true, 0, None, true, isEmail) &&
      StringOk(b.password, true, 6, None, false, isEmail) &&
      b.gender.Some? && b.gender.value in Genders ==>
      RegisterError(b', isEmail) == Some(EmptyValue("image"))
  {
  }

  /** The register route as intended: a missing upload leaves the field
      absent. */
  function RouteBody(b: RegisterBody, imageFile: Option<string>, documentFile: Option<string>): (r: RegisterBody)
    ensures r.image == RegisterPath(imageFile) && r.document == RegisterPath(documentFile)
    ensures r.fullName == b.fullName && r.email == b.email && r.password == b.password
    ensures r.gender == b.gender && r.aboutMe == b.aboutMe && r.userType == b.userType
  {
    b.(image := RegisterPath(imageFile), document := RegisterPath(documentFile))
  }

  /** With the intended route, the uploads never decide the outcome: the
      body passes exactly when its typed-in fields do. */
  lemma RouteBodyValidIffFields(b: RegisterBody, imageFile: Option<string>,
                                documentFile: Option<string>, isEmail: string -> bool)
    ensures RegisterError(RouteBody(b, imageFile, documentFile), isEmail).None? <==>
      StringOk(b.fullName, true, 3, Some(30), false, isEmail) &&
      StringOk(b.email, true, 0, None, true, isEmail) &&
      StringOk(b.password, true, 6, None, false, isEmail) &&
      b.gender.Some? && b.gender.value in Genders &&
      StringOk(b.aboutMe, false, 0, Some(500), false, isEmail) &&
      b.userType.Some? && b.userType.value in UserTypes &&
      b.unknown == []
  {
  }
}
